=== FILE: README.md ===
# gracedisk core, modelled in Dafny

gracedisk is a Flask file manager (`app.py`). Three kinds of principal use it:
the administrator, who sees the whole storage path; members, who each own
`userfiles/<username>`; and visitors, who may only read the visitor path.
Around the request plumbing, every route makes the same kind of decision.
It rewrites a user-supplied path with `os.path.normpath(p).lstrip('.\\/')`,
joins the result onto a root chosen by role, and guards it with
`abspath(...).startswith(abspath(base))`. It then checks existence, quota,
names, expiry or passwords, in a fixed order.

This project models those decisions as pure functions over strings,
sequences and maps. The filesystem is a map from absolute paths to files and
folders. The clock, password hashing, `secure_filename`, `uuid4`, `stat` and
the `OSError`s of filesystem calls are parameters. The modules are:

- `results.dfy`: `Option` and `Result`.
- `strings.dfy`: `split`, `join`, `lstrip`, `rstrip`, `strip`, `lower`, string
  order, and `int`/`str` on naturals.
- `posix_path.dfy`: POSIX `normpath`, `join`, `abspath`, `basename`,
  `dirname` and `splitext`.
- `confinement.dfy`: the roots chosen by role, the sanitiser and the guard.
- `storage.dfy`: the disk.
- `range_request.dfy`: `/filedata`, with the `Range` parse and the chunked read.
- `upload.dfy`: the quota check and conflict renaming.
- `stable_sort.dfy`: Python's stable `sort`.
- `listing.dfy`: `_render_file_list`.
- `file_kinds.dfy`: the file-type and icon helpers and `/preview`.
- `shares.dfy`: creating, opening, listing and deleting share links.
- `file_ops.dfy`: name validation, `create_folder`, `rename_item`,
  `download_file`, `delete_item` and `batch_delete`.

The main result is about the sanitiser. Whatever path a user sends, the
sanitised path only descends (`SanitizeDescends`). Joining it onto a root and
making it absolute gives exactly the root's absolute path extended by the
sanitised path (`Confinement.SanitizedPathConfined`). So the `startswith`
guard never refuses, and every route acts below its root. One consequence is
that two members can never reach each other's files
(`Confinement.MembersAreIsolated`). Another is that a share link opens inside
its owner's folder whatever path was stored (`Shares.SharedPathConfined`).

## Model

| member | source | states |
|---|---|---|
| Confinement.SanitizeDescends | app.py:287-288 | `normpath(p).lstrip('.\\/')` is empty or a relative path whose every component is a real name (no `.`, `..` or empty part) that does not start with `.`, `\` or `/`, for every input |
| Confinement.SanitizedPathConfined | app.py:287-293 | joining the sanitised path onto any root and taking `abspath` gives the root's absolute path extended by that path, so the `startswith` guard always passes |
| Confinement.Confine | app.py:287-293 | the sanitise, join and guard idiom never takes its refusal branch, and the joined path resolves to the root extended by the sanitised path |
| Confinement.SanitizeDropsParents | app.py:287 | a path that climbs any number of levels and then names real components is rewritten to those components alone (`../../etc/passwd` becomes `etc/passwd`) |
| Confinement.SanitizeDropsRoot | app.py:287 | an absolute path of real components loses its leading slash (`/etc/x` becomes `etc/x`) |
| Confinement.SanitizeDropsDots | app.py:287 | a name behind any run of leading dots loses the dots (`.hidden` becomes `hidden`) |
| Confinement.MemberRootResolves | app.py:262 | a member's root `userfiles/<username>` resolves to the absolute `userfiles` folder, a slash and the username |
| Confinement.MemberPathShape | app.py:262-291 | every path a member reaches is the absolute `userfiles` folder, a slash, the member's username, and then nothing or a slash and the sanitised path |
| Confinement.MembersAreIsolated | app.py:262-291 | two members with different plain usernames never reach the same absolute path, whatever paths they send |
| Confinement.JoinDescendsResolves | app.py:288-291 | a descending path joined onto any base resolves to the base's absolute path extended by it |
| PosixPath.NormpathIdempotent | app.py:287 | `normpath` of a normalised path changes nothing |
| PosixPath.NormalFixed | app.py:287 | a path of at most two leading slashes and loop-normal components is its own `normpath` |
| PosixPath.SplitextOf | app.py:607 | `splitext` splits off the last dot-extension of the final component |
| Strings.JoinSplit | app.py:325-330 | joining the pieces of `split(sep)` gives the string back |
| Strings.SplitJoin | app.py:325-330 | splitting a join of separator-free parts gives the parts back |
| Strings.ParseShow | app.py:422 | `int(str(n)) == n` for every natural `n` |
| RangeRequest.Search | app.py:418 | `re.search(r'bytes=(\d+)-(\d*)')` finds the leftmost position where the pattern matches, and reports no match only when none exists |
| RangeRequest.MatchAt | app.py:418-421 | the two groups of a match are the greedy digit runs after `bytes=` and after `-`, and the second is followed by a non-digit or the end |
| RangeRequest.MatchOfShape | app.py:418-421 | a header of the form `bytes=S-E` followed by a non-digit matches at its start with groups `S` and `E` |
| RangeRequest.ParseRange | app.py:414-433 | with no header or no match, start is 0 and length is the file size; otherwise start is the first group, and the inclusive end is the second group or the length runs to the end of the file |
| RangeRequest.ClosedRangeRoundTrip | app.py:418-433 | `bytes=S-E` gives start S and length E-S+1, and the prepared `Content-Range` echoes S, E and the size |
| RangeRequest.OpenRangeRoundTrip | app.py:418-433 | `bytes=S-` gives length size-S, and the declared last byte is size-1 |
| RangeRequest.Read | app.py:442 | `f.read(n)` after a seek returns at most n bytes, returns some bytes while the position is inside the file, and returns the file's own bytes |
| RangeRequest.RangeBytes | app.py:436-446 | the read loop yields at most max(length, 0) bytes |
| RangeRequest.ReadRange | app.py:436-446 | the `generate` loop yields non-empty chunks of at most 4096 bytes whose concatenation is the requested range, cut short at the end of the file |
| RangeRequest.ReadWhole | app.py:451-457 | the `generate_full` loop yields chunks of at most 4096 bytes that concatenate to the whole file |
| RangeRequest.Locate | app.py:391-410 | no session means 403; a located path exists on disk and is the reading root extended by the sanitised path |
| RangeRequest.FileDataAsWritten | app.py:390-463 | as written, a streamed answer always has status 200 and no `Content-Range` |
| RangeRequest.RangeIgnoredAsWritten | app.py:436-463 | as written, a closed range inside a longer file is answered with the whole file and status 200 |
| RangeRequest.FileDataCorrected | app.py:414-463 | status 206 comes only from a matched range, and without a match the reply is the route's own full-file reply |
| RangeRequest.ServeCorrected | app.py:414-463 | for an opened file, status 206 comes only from a matched range, and without a match the answer is the full-file answer |
| RangeRequest.ServeClosedRange | app.py:414-448 | a file asked for `bytes=S-E` inside it is answered with 206, `Content-Range: bytes S-E/size`, length E-S+1 and exactly bytes S to E |
| RangeRequest.CorrectedServesClosedRange | app.py:414-448 | corrected, `bytes=S-E` inside the file gives 206, `Content-Range: bytes S-E/size`, length E-S+1 and exactly bytes S to E |
| Upload.QuotaCheck | app.py:567-594 | the administrator is always admitted; anyone else is refused iff used + size > quota_gb·1024³, and a refusal reports quota minus used |
| Upload.ExactFitAdmitted | app.py:585 | an upload that fills the quota exactly is admitted |
| Upload.AdmissionMonotone | app.py:585 | a smaller file, less usage or a larger quota never turns an admission into a refusal |
| Upload.RefusalReportsTooLittle | app.py:585-593 | when an upload is refused, the reported remaining space is less than the file's size |
| Upload.CandidateInjective | app.py:610 | different counters give different `name(i)ext` names |
| Upload.TriedCount | app.py:608-611 | the names tried before counter i are i-1 distinct names, none equal to the i-th |
| Upload.ResolveName | app.py:604-611 | the saved name is never taken; a free name is kept; otherwise it is `name(i)ext` for the smallest i ≥ 1 not taken |
| Upload.CopyKeepsExtension | app.py:607-610 | a renamed copy `name(i)ext` splits again into `name(i)` and the original extension, so `report.pdf` is copied as `report(1).pdf` and never as `report.pdf(1)` |
| Upload.UploadFile | app.py:536-613 | login, visitor, missing part, empty name, quota and path checks run in that order; an over-quota upload by a member is always refused with the remaining space and nothing saved; the path check never refuses; an admitted upload is saved iff its target folder exists, and otherwise `file.save` fails with a server error; a saved file lands below the writing root, under the secured name when it is free and otherwise under the first `name(i)ext` that is free |
| StableSort.SortCorrect | app.py:320 | sorting by a total preorder key is a permutation, is ordered, and keeps elements with equal keys in input order |
| Listing.Collect | app.py:303-318 | one row per listed name whose `stat` succeeds, and no other rows |
| Listing.CollectInOrder | app.py:303-318 | row k is the entry of the k-th listed name whose `stat` succeeds: the positions the rows come from strictly increase, every name whose `stat` succeeds has its row, and distinct names give distinct rows |
| Listing.EntryLeTotalPreorder | app.py:320 | the key `(not is_dir, name.lower())` is a total preorder |
| Listing.ListingOrder | app.py:320 | the listing is a permutation of the rows, every folder precedes every file, lower-cased names are non-decreasing within each group, and equal keys keep directory order |
| Listing.BreadcrumbsAreAncestors | app.py:323-330 | one crumb for home plus one per `/`-part; crumb i is named after part i-1, its path is the subpath up to a separator, and splitting that path at `/` gives back exactly the first i parts; the last crumb's path is the subpath |
| Listing.RenderFileList | app.py:238-332 | the guard never refuses; a member whose folder is missing has it created by `makedirs`, and the page is a server error iff that raises; an existing folder below the reading root is always listed and the disk is left unchanged; a freshly created root is listed empty; a listed page shows a folder under the root and the breadcrumbs; its rows are exactly the collected rows sorted stably by (not a folder, lower-cased name), so a permutation of them with folders first and names in order within each kind |
| Storage.MakeDirs | app.py:263-264 | `makedirs` raises iff some ancestor of the path is a file; otherwise the path and all its ancestors are folders afterwards, every existing entry is kept, and nothing else is added |
| FileKinds.ExtIsAfterLastDot | app.py:57 | `filename.split('.')[-1].lower()` is the lower-cased text after the last dot and holds no dot |
| FileKinds.GetFileType | app.py:63-69 | image iff the extension is an image extension, video iff it is a video extension |
| FileKinds.IsPreviewable | app.py:71-73 | previewable iff `get_file_type` says image |
| FileKinds.IconMatchesType | app.py:38-58 | folders get the folder icon, images the image icon, videos the video icon, unknown extensions the default icon |
| FileKinds.PreviewAgreesWithHelpers | app.py:365-388 | the preview route's inline classification refuses exactly what `get_file_type` calls other, and shows the image page exactly when `is_previewable` holds |
| FileKinds.ExtExamples | app.py:63-69 | `.JPG` is an image whatever the stem, `.mov` a video, `.txt` other, and a dotless `png` an image |
| Shares.FindShare | app.py:1080-1089 | a share is found iff some row has the token, and the found row has it |
| Shares.CreateShare | app.py:1010-1071 | a created row belongs to the caller, holds the token and the raw path, names an existing file below the writing root, obeys the 90-day cap for non-administrators, has an expiry that fits before `datetime.max`, and has a password hash iff a password was given; for any caller who passes the earlier checks, including the 90-day cap, an expiry past `datetime.max` is a server error; conversely every request that passes those checks creates the row |
| Shares.SharedPathConfined | app.py:1109-1121 | as written and corrected, a share that opens sends the owner's root extended by the sanitised stored path |
| Shares.ShareExpiry | app.py:1050-1098 | corrected, a freshly created share is valid, and reads as expired iff the duration was positive and now is strictly past creation plus duration days |
| Shares.ExpiringShareFailsAsWritten | app.py:1050-1097 | as written, a fresh share answers every visit with a server error iff it has a positive duration and was created at a moment with non-zero microseconds; any other fresh share is answered as the corrected route answers it |
| Shares.SharePassword | app.py:1054-1057 | corrected, once a share is created and unexpired, the password prompt appears iff a password was set and the one given differs; otherwise the owner's file is sent |
| Shares.Visible | app.py:1134-1150 | a row is listed iff its owner exists and it is the caller's, or the caller is the administrator |
| Shares.ManageSharesListsOwn | app.py:1123-1155 | the share page lists exactly the visible rows, newest first, and a member sees only their own |
| Shares.Without | app.py:1169-1172 | the delete filter keeps exactly the rows it does not match |
| Shares.DeleteShareAsWritten | app.py:1157-1178 | as written, an administrator's deletion leaves the table as it was |
| Shares.AdminDeleteIsLost | app.py:1168-1175 | as written, an administrator deleting an existing share is told it was deleted, yet the share remains |
| Shares.DeleteShareRemoves | app.py:1168-1175 | corrected, the administrator removes every row with the id, a member only their own, and nothing else changes |
| FileOps.AcceptedNameDescends | app.py:880-885 | a non-empty name free of illegal characters, other than `.` and `..`, names an entry directly inside the folder it is joined to |
| FileOps.DotsAccepted | app.py:877-885 | a name made only of dots, `.` and `..` among them, passes the strip, empty and illegal-character checks |
| FileOps.CreateFolder | app.py:867-909 | a created folder needs a non-visitor session, a stripped legal name and a path not yet on disk, and lies at the current folder joined with that name; conversely such a request creates the folder unless the operation fails, and an existing path is answered `文件夹已存在` |
| FileOps.RenameItem | app.py:911-957 | a rename needs an existing source below the writing root and a free target, joined from the source's folder and the stripped legal name; conversely such a request renames unless the operation fails, a missing source is answered 404 and a taken target 400 |
| FileOps.RenameStaysInFolder | app.py:948 | a rename to a name other than `.` and `..` keeps the entry in its folder |
| FileOps.DownloadFile | app.py:465-489 | a file is sent iff the caller is logged in and the reading root extended by the sanitised path is a file |
| FileOps.Remove | app.py:522-526 | `rmtree` removes the folder and everything below it, `remove` only the file, and nothing else changes |
| FileOps.RemoveSlashRoot | app.py:522-523 | `rmtree` of `/` removes every absolute path |
| FileOps.DeleteItemWith | app.py:491-534 | after an attempted removal the redirect goes to the requested path's parent when it has one and to the root otherwise; the disk changes only on success, and the success message names the last component of the sanitised path |
| PosixPath.BasenameJoin | app.py:524-527 | the `basename` of a relative path joined onto any folder is the relative path's own `basename` |
| FileOps.DeleteItemAsWritten | app.py:491-534 | as written, a reported deletion removed the reading root extended by the sanitised path |
| FileOps.DeleteItemRemovesRoot | app.py:510-526 | as written, `/delete/..` removes the caller's whole reading root |
| FileOps.DeleteItemCorrected | app.py:510-526 | corrected, a path that sanitises to nothing leaves the disk unchanged |
| FileOps.DeleteItemKeepsRoot | app.py:510-526 | corrected, the reading root survives and only entries below it are removed |
| FileOps.RootPathsSanitizeToNothing | app.py:510 | `/`, `.` and `..` sanitise to the empty path |
| FileOps.StepOf | app.py:984-1003 | one item: a refused path is reported `无效路径` and a target not on the disk `文件不存在`, both leaving the disk as it was; an error line starts with the item; a removal that does not fail takes the target away; nothing is added or changed |
| FileOps.DeleteEach | app.py:983-1003 | every item adds exactly one deletion or one error line, so deleted + errors = items, and the disk only loses entries |
| FileOps.FailuresReported | app.py:988-994 | every item whose path is refused has its `无效路径` line, and every item whose target is not on the disk has its `文件不存在` line |
| FileOps.TargetsRemoved | app.py:996-1001 | the target of every item whose removal does not fail is gone after the batch |
| FileOps.OnlyTargetsRemoved | app.py:996-999 | every entry the batch removes lies under some item's target |
| FileOps.ErrorsNameItems | app.py:990-1003 | every error line starts with one of the items followed by `: ` |
| FileOps.PartialBatch | app.py:983-1008 | a present item followed by an absent one deletes the first and reports exactly one `文件不存在` line for the second |
| FileOps.BatchDeleteWith | app.py:959-1008 | an empty batch is refused; otherwise deleted + errors = items, success iff there are no errors, and status 207 iff not successful; each refused item is reported invalid, each missing target is reported missing, each target whose removal does not fail is gone, only entries under the items' targets are removed, and every error line names an item |
| FileOps.BatchDeleteRemovesRoot | app.py:983-1001 | as written, the batch `["/"]` removes the whole writing root and reports success |
| FileOps.BatchDeleteKeepsRoot | app.py:983-1001 | corrected, a batch never removes the writing root and only removes entries below it |

## Left out

- I/O is not modelled. Requests, sessions, flashes, templates, `send_file`, `Response` streaming and sqlite connections are not part of this model. Routes return values describing the answer, and the share and user tables are in-memory sequences and maps.
- The filesystem is a map from absolute paths to files and folders. Existence is looked up on the lexically normalised absolute path, and symbolic links are not resolved.
- The effects of `os.makedirs` in `create_folder`, of `os.rename` and of `file.save` are not modelled. Those routes return the paths they would act on. The listing's `makedirs` of a member's folder is modelled (`Storage.MakeDirs`).
- `Listing.RenderFileList`: `shutil.disk_usage` on an administrator's or visitor's root that does not exist raises. The model takes the figures as inputs and does not model that error.
- `get_folder_size` (`os.walk`) and `shutil.disk_usage` are inputs.
- The clock, `generate_password_hash`, `check_password_hash`, `secure_filename` and `uuid4` are parameters.
- `OSError`s are a parameter that says which path's operation fails. The model treats a failing `rmtree` as removing nothing, but a real one may stop partway.
- Time is seconds and microseconds. The text of `expires_at` is abstracted: `ParsesAsWritten` holds exactly when the microseconds are zero. sqlite's default datetime adapter writes `.ffffff` otherwise, which `'%Y-%m-%d %H:%M:%S'` does not accept. `created_at` keeps whole seconds.
- The mix of local time in `expires_at` with UTC in `created_at` is not modelled.
- `ORDER BY created_at DESC` has no defined order for ties. The model keeps table order for them.
- The Windows bare-drive fix (app.py:246-247) is not modelled; paths are POSIX only.
- `lower()` and the regex `\d` are modelled on ASCII only. Python applies both to all of Unicode.
- `format_file_size`, `format_size_for_flash` and the usage percentage are floating point and are left out.
- The ZIP construction of `batch_download`, the user-management routes, login, logout, the dashboard and configuration loading are outside the core.
- A configuration without `storage_path` is not modelled; `None` as a root would raise.
- JSON bodies whose values are not strings (for paths and names) or integers (for the share duration) are not modelled. Nor is a batch whose items are not strings.
- `/preview` only classifies the name. Its login redirect is not part of `FileKinds.PreviewPage`.
- A `send_file` on a folder that reaches `/filedata` is a stream that fails. It is modelled only as that outcome.
- `Shares.ResolveShareWith`: a share whose path now names a folder passes the existence check at app.py:1116 and answers `SendFile`, while `send_file` on a folder raises. The model does not tell the two apart, as for `/filedata`.
- `Upload.UploadFile`: if `secure_filename` produces an empty name, the joined save path is the folder itself, which exists. The model only sees this when `taken` contains the empty name.
- `Upload.QuotaCheck`: the code does not clamp the remaining figure at zero, although a clamped figure could be expected. The code is followed.
- `Confinement.Confine`: the guard is described as refusing paths that escape the root. In the code it never refuses, because the sanitiser has already rewritten the path. The code is followed.
- `FileOps.DotsAccepted`: `create_folder` and `rename_item` accept `.` and `..` as names. Only the existence check that follows turns them away.
- `FileOps.DeleteItemWith`: the referrer page of the flash-and-redirect answers is not modelled; it appears as `Referrer`.

## Findings

| source | as written | input that shows it | evidently intended | confidence | as-written member | corrected member |
|---|---|---|---|---|---|---|
| app.py:436-463 | the 206 `Response` is returned inside `generate()`, which is never called, so every request falls through to the full-file answer | a header `Range: bytes=0-9` for a 100-byte file gets status 200 and all 100 bytes | a matched range is answered with 206, `Content-Range` and exactly the requested bytes | high (not executed) | RangeRequest.RangeIgnoredAsWritten | RangeRequest.CorrectedServesClosedRange |
| app.py:1168-1175 | `conn.commit()` and `conn.close()` are indented inside the member's `else`, so the administrator's `DELETE` is never committed | the administrator deletes an existing share: the flash says it was deleted, but the row remains | every caller's deletion is committed | high (not executed) | Shares.AdminDeleteIsLost | Shares.DeleteShareRemoves |
| app.py:983-1001 | an item that sanitises to nothing (`/`, `.`, `..`) joins to the writing root itself, which passes the guard and exists, so `rmtree` removes the whole root | `batch_delete` with items `["/"]`: a member loses their whole folder, the administrator the whole storage path, and the answer reports one deletion | such items are reported as invalid paths and the root is never removed | medium (not executed) | FileOps.BatchDeleteRemovesRoot | FileOps.BatchDeleteKeepsRoot |
| app.py:510-526 | a path that sanitises to nothing joins to the reading root itself, which is then removed | `GET /delete/..` by a member removes the member's whole folder | such paths are refused and the root is never removed | medium (not executed) | FileOps.DeleteItemRemovesRoot | FileOps.DeleteItemKeepsRoot |
| app.py:1050-1097 | `expires_at` is stored through sqlite's default datetime adapter, which writes microseconds when they are not zero, and `strptime(..., '%Y-%m-%d %H:%M:%S')` raises on that text | a share with a duration of 1 day created at any moment whose microseconds are not zero: every visit is answered with a server error | a link works until it expires and is reported as expired afterwards | high (not executed) | Shares.ExpiringShareFailsAsWritten | Shares.ShareExpiry |

=== FILE: confinement.dfy ===
/** Path confinement: which storage root a principal works under, the
    sanitiser `os.path.normpath(p).lstrip('.\\/')` every route applies to a
    caller-supplied path, and the guard
    `os.path.abspath(join(base, safe)).startswith(os.path.abspath(base))`.

    The main result is `SanitizedPathConfined`: the sanitised path only ever
    descends, so the joined path resolves to the root's own absolute path with
    the sanitised path appended, and the guard never refuses. */
module Confinement {
  import opened Results
  import opened Strings
  import opened PosixPath

  /** The session's `is_admin` / `is_visitor` flags as one closed variant. */
  datatype Role = Administrator | Visitor | Member

  /** The principal a request's session carries: `session['user_id']`,
      `session['username']`, the role, and `must_change_password`, set for an
      account whose password has to be changed before anything else. Visitors
      log in with id -1 and the name `visitor`. */
  datatype Principal = Principal(userId: int, username: string, role: Role, mustChangePassword: bool)

  /** The configuration entries the core reads: `storage_path` and the
      optional `visitor_storage_path`. */
  datatype Config = Config(storagePath: string, visitorStoragePath: Option<string>)

  /** The directory, relative to the working directory, that holds one folder
      per registered member. */
  const UserFiles := "userfiles"

  /** A member's own folder: `os.path.join('userfiles', username)`. */
  function MemberRoot(username: string): string {
    JoinPath(UserFiles, username)
  }

  /** The root of the listing, file-data, download, delete and batch-download
      routes: the disk path for the administrator, the visitor path (falling
      back to the disk path) for a visitor, the member's folder otherwise. */
  function ReadRoot(who: Principal, cfg: Config): string {
    match who.role
    case Administrator => cfg.storagePath
    case Visitor => cfg.visitorStoragePath.GetOr(cfg.storagePath)
    case Member => MemberRoot(who.username)
  }

  /** The root of the upload, create-folder, rename, batch-delete and
      create-share routes. Those routes turn visitors away first; a visitor
      reaching this choice would get the member branch. */
  function WriteRoot(who: Principal, cfg: Config): string {
    if who.role == Administrator then cfg.storagePath else MemberRoot(who.username)
  }

  // ---------------------------------------------------------------------------
  // the sanitiser
  // ---------------------------------------------------------------------------

  /** The characters `lstrip('.\\/')` removes. */
  const StripChars: set<char> := {'.', '\\', '/'}

  /** `os.path.normpath(p).lstrip('.\\/')`. */
  function Sanitize(p: string): string {
    LStrip(Normpath(p), StripChars)
  }

  /** A relative path that only descends: not absolute, and every component
      names something inside the directory it is in. */
  predicate Descends(s: string) {
    s == "" || (!IsAbs(s) && forall c :: c in Split(s, '/') ==> CleanComponent(c))
  }

  /** Removing a prefix made only of stripped characters does not change the
      result of stripping. */
  lemma {:induction false} LStripSkips(x: string, y: string, chars: set<char>)
    requires forall i :: 0 <= i < |x| ==> x[i] in chars
    ensures LStrip(x + y, chars) == LStrip(y, chars)
    decreases |x|
  {
    if |x| == 0 {
      assert x + y == y;
    } else {
      assert (x + y)[0] == x[0];
      assert (x + y)[1..] == x[1..] + y;
      LStripSkips(x[1..], y, chars);
    }
  }

  /** Stripping stops inside `x` when `x` holds a character that is not stripped. */
  lemma {:induction false} LStripStops(x: string, y: string, chars: set<char>)
    requires exists i :: 0 <= i < |x| && x[i] !in chars
    ensures LStrip(x + y, chars) == LStrip(x, chars) + y
    decreases |x|
  {
    assert (x + y)[0] == x[0];
    if x[0] in chars {
      assert (x + y)[1..] == x[1..] + y;
      var i :| 0 <= i < |x| && x[i] !in chars;
      assert x[1..][i - 1] == x[i];
      LStripStops(x[1..], y, chars);
    }
  }

  /** The tail of a normal stack is normal. */
  lemma NormalTail(absolute: bool, st: seq<string>)
    requires |st| > 0 && NormalStack(absolute, st)
    ensures NormalStack(absolute, st[1..])
  {
    var t := st[1..];
    forall i, j | 0 <= i < j < |t| && t[j] == ".."
      ensures t[i] == ".."
    {
      assert st[j + 1] == "..";
    }
  }

  /** A path whose components are all clean, given by index. */
  lemma DescendsByIndex(s: string)
    requires s != "" && !IsAbs(s)
    requires var segs := Split(s, '/'); forall i :: 0 <= i < |segs| ==> CleanComponent(segs[i])
    ensures Descends(s)
  {
  }

  /** A descending non-empty path, component by component. */
  lemma DescendsComponents(s: string)
    requires s != "" && Descends(s)
    ensures var segs := Split(s, '/'); forall i :: 0 <= i < |segs| ==> CleanComponent(segs[i])
  {
    var segs := Split(s, '/');
    forall i | 0 <= i < |segs| ensures CleanComponent(segs[i]) {
      assert segs[i] in segs;
    }
  }

  /** What survives stripping a component that holds an unstripped character
      is a clean component. */
  lemma StrippedHeadClean(c: string)
    requires '/' !in c
    requires exists i :: 0 <= i < |c| && c[i] !in StripChars
    ensures var h := LStrip(c, StripChars);
      CleanComponent(h) && h[0] !in StripChars && Split(h, '/') == [h]
  {
    var h := LStrip(c, StripChars);
    assert h != "" && h[0] !in StripChars;
    assert '/' !in h by {
      forall i | 0 <= i < |h| ensures h[i] != '/' {
        assert h[i] == c[|c| - |h| + i];
      }
    }
    SplitNoSep(h, '/');
  }

  /** Past a first component other than `..`, a normal stack holds only
      clean components. */
  lemma NormalTailClean(absolute: bool, st: seq<string>)
    requires NormalStack(absolute, st) && |st| > 0 && st[0] != ".."
    ensures forall i :: 1 <= i < |st| ==> CleanComponent(st[i])
  {
  }

  /** Stripping the join of several components stops inside the first one
      when it holds an unstripped character. */
  lemma StripJoinHead(st: seq<string>)
    requires |st| > 1
    requires exists i :: 0 <= i < |st[0]| && st[0][i] !in StripChars
    ensures LStrip(Join(st, '/'), StripChars) == LStrip(st[0], StripChars) + ['/'] + Join(st[1..], '/')
  {
    var h, rest := st[0], Join(st[1..], '/');
    var tail := ['/'] + rest;
    assert Join(st, '/') == h + tail by {
      assert Join(st, '/') == h + ['/'] + rest;
    }
    LStripStops(h, tail, StripChars);
    assert LStrip(h, StripChars) + tail == LStrip(h, StripChars) + ['/'] + rest;
  }

  /** A path made of a clean first component followed by a join of clean
      components only descends. */
  lemma DescendsCons(h: string, rest: seq<string>)
    requires CleanComponent(h) && h[0] != '/' && |rest| > 0
    requires forall i :: 0 <= i < |rest| ==> CleanComponent(rest[i])
    ensures Descends(h + ['/'] + Join(rest, '/'))
  {
    var r := h + ['/'] + Join(rest, '/');
    SplitNoSep(h, '/');
    SplitJoin(rest, '/');
    SplitAround(h, Join(rest, '/'), '/');
    var segs := Split(r, '/');
    assert segs == [h] + rest;
    forall i | 0 <= i < |segs| ensures CleanComponent(segs[i]) {
      if i > 0 {
        assert segs[i] == rest[i - 1];
      }
    }
    DescendsByIndex(r);
  }

  /** A single component holding an unstripped character strips to a path
      that only descends. */
  lemma StripOneStops(c: string)
    requires '/' !in c
    requires exists i :: 0 <= i < |c| && c[i] !in StripChars
    ensures var r := LStrip(c, StripChars);
      Descends(r) && r != "" && r[0] !in StripChars
  {
    StrippedHeadClean(c);
    DescendsByIndex(LStrip(c, StripChars));
  }

  /** Stripping the join of a normal stack whose first component holds an
      unstripped character: that component loses its leading dots and the
      rest is untouched. */
  lemma StripNormalStops(absolute: bool, st: seq<string>)
    requires NormalStack(absolute, st) && |st| > 0
    requires exists i :: 0 <= i < |st[0]| && st[0][i] !in StripChars
    ensures var r := LStrip(Join(st, '/'), StripChars);
      Descends(r) && (r == "" || r[0] !in StripChars)
  {
    if |st| == 1 {
      StripOneStops(st[0]);
    } else {
      StripManyStops(absolute, st);
    }
  }

  /** `StripNormalStops` for a stack of more than one component. */
  lemma StripManyStops(absolute: bool, st: seq<string>)
    requires NormalStack(absolute, st) && |st| > 1
    requires exists i :: 0 <= i < |st[0]| && st[0][i] !in StripChars
    ensures var r := LStrip(Join(st, '/'), StripChars);
      Descends(r) && r != "" && r[0] !in StripChars
  {
    var h := LStrip(st[0], StripChars);
    StrippedHeadClean(st[0]);
    StripJoinHead(st);
    NormalTailClean(absolute, st);
    DescendsCons(h, st[1..]);
  }

  /** Stripping `.`, `\` and `/` off the join of what `normpath` keeps leaves
      a path that only descends: the leading run of `..` components is eaten
      whole, and the first component that survives does not start with a dot. */
  lemma {:induction false} StripNormalDescends(absolute: bool, st: seq<string>)
    requires NormalStack(absolute, st)
    ensures var r := LStrip(Join(st, '/'), StripChars);
      Descends(r) && (r == "" || r[0] !in StripChars)
    decreases |st|
  {
    if |st| == 0 {
      assert LStrip(Join(st, '/'), StripChars) == "";
    } else if forall i :: 0 <= i < |st[0]| ==> st[0][i] in StripChars {
      if |st| == 1 {
        LStripSkips(st[0], "", StripChars);
        assert st[0] + "" == st[0];
      } else {
        var rest := Join(st[1..], '/');
        assert Join(st, '/') == st[0] + ("/" + rest);
        LStripSkips(st[0], "/" + rest, StripChars);
        LStripSkips("/", rest, StripChars);
        NormalTail(absolute, st);
        StripNormalDescends(absolute, st[1..]);
      }
    } else {
      StripNormalStops(absolute, st);
    }
  }

  /** A normalised path that is not `.` is its kept slashes followed by its
      kept components. */
  lemma NormpathShape(p: string)
    requires Normpath(p) != "."
    ensures Normpath(p) == Slashes(InitialSlashes(p)) + Join(Components(p), '/')
  {
  }

  /** The sanitiser's output only descends and never starts with `.`, `\` or `/`. */
  lemma SanitizeDescends(p: string)
    ensures var s := Sanitize(p);
      Descends(s) && (s == "" || s[0] !in StripChars)
  {
    if Normpath(p) == "." {
      assert Sanitize(p) == "";
    } else {
      var k := InitialSlashes(p);
      ComponentsNormal(p);
      NormpathShape(p);
      LStripSkips(Slashes(k), Join(Components(p), '/'), StripChars);
      StripNormalDescends(k > 0, Components(p));
    }
  }

  /** A string made only of characters that `lstrip('.\\/')` removes. */
  predicate AllStripped(x: string) {
    forall i :: 0 <= i < |x| ==> x[i] in StripChars
  }

  /** Two runs of stripped characters make one. */
  lemma AllStrippedAppend(a: string, b: string)
    requires AllStripped(a) && AllStripped(b)
    ensures AllStripped(a + b)
  {
    forall i | 0 <= i < |a + b| ensures (a + b)[i] in StripChars {
      if i >= |a| {
        assert (a + b)[i] == b[i - |a|];
      }
    }
  }

  /** Stripping a run of stripped characters off a string whose first
      character is kept. */
  lemma StripPrefix(x: string, y: string)
    requires AllStripped(x)
    requires |y| > 0 && y[0] !in StripChars
    ensures LStrip(x + y, StripChars) == y
  {
    LStripSkips(x, y, StripChars);
    LStripKeeps(y, StripChars);
  }

  /** `k` steps up: the components `..`, `..`, ... */
  function Parents(k: nat): (st: seq<string>)
    ensures |st| == k && forall i :: 0 <= i < k ==> st[i] == ".."
  {
    seq(k, i => "..")
  }

  /** The join of `k` steps up, followed by the separator, is made of
      stripped characters only. */
  lemma {:induction false} ParentsStripped(k: nat)
    requires k >= 1
    ensures AllStripped(Join(Parents(k), '/') + "/")
  {
    assert AllStripped("../");
    if k > 1 {
      ParentsStripped(k - 1);
      assert Parents(k) == [".."] + Parents(k - 1);
      assert Join(Parents(k), '/') + "/" == "../" + (Join(Parents(k - 1), '/') + "/");
      AllStrippedAppend("../", Join(Parents(k - 1), '/') + "/");
    } else {
      assert Join(Parents(k), '/') + "/" == "../";
    }
  }

  /** A component that does not start with a stripped character. */
  predicate KeptStart(c: string) {
    c != "" && c[0] !in StripChars
  }

  /** The join of components starts with the first one's first character. */
  lemma JoinHead(rest: seq<string>)
    requires |rest| > 0 && KeptStart(rest[0])
    ensures KeptStart(Join(rest, '/'))
  {
  }

  /** Steps up followed by clean components form a normal relative stack. */
  lemma ParentsThenClean(k: nat, rest: seq<string>)
    requires forall i :: 0 <= i < |rest| ==> CleanComponent(rest[i])
    ensures NormalStack(false, Parents(k) + rest)
  {
    var st := Parents(k) + rest;
    forall i | 0 <= i < |st| ensures st[i] != "" && st[i] != "." && '/' !in st[i] {
      if i >= k {
        assert st[i] == rest[i - k];
      }
    }
    forall i, m | 0 <= i < m < |st| && st[m] == ".." ensures st[i] == ".." {
    }
  }

  /** Stripping the join of steps up and components with a kept start
      leaves the join of those components. */
  lemma StripParents(k: nat, rest: seq<string>)
    requires |rest| > 0 && KeptStart(rest[0])
    ensures LStrip(Join(Parents(k) + rest, '/'), StripChars) == Join(rest, '/')
  {
    JoinHead(rest);
    if k == 0 {
      assert Parents(k) + rest == rest;
      LStripKeeps(Join(rest, '/'), StripChars);
    } else {
      var x := Join(Parents(k), '/') + "/";
      assert Join(Parents(k) + rest, '/') == x + Join(rest, '/') by {
        JoinAppend(Parents(k), rest, '/');
      }
      ParentsStripped(k);
      StripPrefix(x, Join(rest, '/'));
    }
  }

  /** A path that first climbs `k` levels and then names clean components
      whose first one does not start with a stripped character is rewritten
      to those components alone: the traversal out of the root is dropped
      (`../../etc/passwd` becomes `etc/passwd`). */
  lemma SanitizeDropsParents(k: nat, rest: seq<string>)
    requires |rest| > 0 && forall i :: 0 <= i < |rest| ==> CleanComponent(rest[i])
    requires KeptStart(rest[0])
    ensures Sanitize(Join(Parents(k) + rest, '/')) == Join(rest, '/')
  {
    var st := Parents(k) + rest;
    var j := Join(st, '/');
    assert Normpath(j) == j by {
      ParentsThenClean(k, rest);
      NormalFixed(0, st);
      assert Slashes(0) + j == j;
    }
    StripParents(k, rest);
  }

  /** An absolute path of clean components whose first one does not start
      with a stripped character is rewritten into the root by losing its
      leading slash (`/etc/x` becomes `etc/x`). */
  lemma SanitizeDropsRoot(rest: seq<string>)
    requires |rest| > 0 && forall i :: 0 <= i < |rest| ==> CleanComponent(rest[i])
    requires KeptStart(rest[0])
    ensures Sanitize("/" + Join(rest, '/')) == Join(rest, '/')
  {
    var j := Join(rest, '/');
    assert Normpath("/" + j) == "/" + j by {
      RootedFixed(rest);
    }
    assert LStrip("/" + j, StripChars) == j by {
      JoinHead(rest);
      StripRoot(j);
    }
  }

  /** Stripping the slash off a rooted path with a kept start. */
  lemma StripRoot(j: string)
    requires KeptStart(j)
    ensures LStrip("/" + j, StripChars) == j
  {
    assert AllStripped("/");
    StripPrefix("/", j);
  }

  /** A slash followed by clean components is already normal. */
  lemma RootedFixed(rest: seq<string>)
    requires forall i :: 0 <= i < |rest| ==> CleanComponent(rest[i])
    ensures Normpath("/" + Join(rest, '/')) == "/" + Join(rest, '/')
  {
    assert NormalStack(true, rest);
    NormalFixed(1, rest);
    assert Slashes(1) == "/";
  }

  /** A name whose leading dots are followed by a kept character loses the
      dots: a hidden name is renamed (`.hidden` becomes `hidden`). */
  lemma SanitizeDropsDots(dots: string, name: string)
    requires forall i :: 0 <= i < |dots| ==> dots[i] == '.'
    requires CleanComponent(name) && KeptStart(name)
    ensures Sanitize(dots + name) == name
  {
    var c := dots + name;
    assert CleanComponent(c) by {
      assert c[|dots|] == name[0];
      assert '/' !in c by {
        forall i | 0 <= i < |c| ensures c[i] != '/' {
          if i >= |dots| {
            assert c[i] == name[i - |dots|];
          }
        }
      }
    }
    assert Normpath(c) == c by {
      assert NormalStack(false, [c]);
      NormalFixed(0, [c]);
      assert Slashes(0) + Join([c], '/') == c;
    }
    assert AllStripped(dots);
    StripPrefix(dots, name);
  }

  // ---------------------------------------------------------------------------
  // join and guard
  // ---------------------------------------------------------------------------

  /** An absolute directory path extended by a descending relative path. */
  function Extend(dir: string, s: string): string {
    if s == "" then dir
    else if |dir| > 0 && dir[|dir| - 1] == '/' then dir + s
    else dir + "/" + s
  }

  /** The absolute form of `base` before normalisation: what `abspath` hands
      to `normpath`. */
  function Absolutised(cwd: string, base: string): string {
    if IsAbs(base) then base else JoinPath(cwd, base)
  }

  /** Joining a relative path onto `base` and then making it absolute has the
      same leading slashes as `base` made absolute, and its components are
      `base`'s followed by the loop over the relative path. */
  lemma AbsolutisedJoin(cwd: string, base: string, s: string)
    requires IsAbs(cwd) && !IsAbs(s)
    ensures var p := Absolutised(cwd, base);
      var q := Absolutised(cwd, JoinPath(base, s));
      && IsAbs(p) && IsAbs(q)
      && InitialSlashes(q) == InitialSlashes(p)
      && Components(q) == Fold(true, Components(p), Split(s, '/'))
  {
    var t := JoinPath(base, s);
    assert IsAbs(t) <==> IsAbs(base);
    if IsAbs(base) {
      InitialSlashesJoinPath(base, s);
      FoldJoinPath(true, [], base, s);
    } else {
      InitialSlashesJoinPath(cwd, t);
      InitialSlashesJoinPath(cwd, base);
      FoldJoinPath(true, [], cwd, t);
      FoldJoinPath(true, Fold(true, [], Split(cwd, '/')), base, s);
      FoldJoinPath(true, [], cwd, base);
    }
  }

  /** Pushing a descending path's components onto a normal absolute stack
      extends the joined path by exactly that path. */
  lemma ExtendComponents(k: nat, c: seq<string>, s: string)
    requires k >= 1 && NormalStack(true, c) && Descends(s)
    ensures Slashes(k) + Join(Fold(true, c, Split(s, '/')), '/') == Extend(Slashes(k) + Join(c, '/'), s)
  {
    if s == "" {
      assert Fold(true, c, Split(s, '/')) == c by {
        assert Split(s, '/') == [""];
      }
    } else {
      var segs := Split(s, '/');
      assert Fold(true, c, segs) == c + segs by {
        DescendsComponents(s);
        FoldClean(true, c, segs);
      }
      JoinSplit(s, '/');
      if |c| == 0 {
        assert c + segs == segs;
      } else {
        ExtendStack(k, c, segs);
      }
    }
  }

  /** The join of a non-empty normal absolute stack extended by more
      components is the stack's path extended by their join. */
  lemma ExtendStack(k: nat, c: seq<string>, segs: seq<string>)
    requires k >= 1 && NormalStack(true, c) && |c| > 0 && |segs| > 0 && Join(segs, '/') != ""
    ensures Slashes(k) + Join(c + segs, '/') == Extend(Slashes(k) + Join(c, '/'), Join(segs, '/'))
  {
    var j, s := Join(c, '/'), Join(segs, '/');
    JoinAppend(c, segs, '/');
    StackPathEnds(k, c);
    ExtendAfter(Slashes(k) + j, s);
    Regroup(Slashes(k), j, "/", s);
  }

  /** The path of a non-empty normal absolute stack does not end in a slash. */
  lemma StackPathEnds(k: nat, c: seq<string>)
    requires NormalStack(true, c) && |c| > 0
    ensures var dir := Slashes(k) + Join(c, '/');
      dir != "" && dir[|dir| - 1] != '/'
  {
    var j := Join(c, '/');
    JoinNormal(true, c);
    assert (Slashes(k) + j)[|Slashes(k) + j| - 1] == j[|j| - 1];
  }

  /** A path not ending in a slash is extended with one separator. */
  lemma ExtendAfter(dir: string, s: string)
    requires dir != "" && dir[|dir| - 1] != '/' && s != ""
    ensures Extend(dir, s) == dir + "/" + s
  {
  }

  /** Concatenation regrouped. */
  lemma Regroup(a: string, b: string, c: string, d: string)
    ensures a + (b + c + d) == a + b + c + d
  {
  }

  /** Joining a descending path onto any base resolves to the base's absolute
      path with that path appended. */
  lemma JoinDescendsResolves(cwd: string, base: string, s: string)
    requires IsAbs(cwd) && Descends(s)
    ensures Abspath(cwd, JoinPath(base, s)) == Extend(Abspath(cwd, base), s)
  {
    var p := Absolutised(cwd, base);
    var q := Absolutised(cwd, JoinPath(base, s));
    AbsolutisedJoin(cwd, base, s);
    assert Abspath(cwd, base) == Normpath(p);
    assert Abspath(cwd, JoinPath(base, s)) == Normpath(q);
    NormpathShape(p);
    NormpathShape(q);
    ComponentsNormal(p);
    ExtendComponents(InitialSlashes(p), Components(p), s);
  }

  /** The guard: `os.path.abspath(join(base, safe)).startswith(os.path.abspath(base))`. */
  predicate GuardPasses(cwd: string, base: string, safe: string)
    requires IsAbs(cwd)
  {
    StartsWith(Abspath(cwd, JoinPath(base, safe)), Abspath(cwd, base))
  }

  /** Extending a directory keeps it as a prefix. */
  lemma ExtendPrefix(dir: string, s: string)
    ensures StartsWith(Extend(dir, s), dir)
  {
  }

  /** Confinement: whatever the caller sends, the sanitised path only
      descends, the joined path resolves to exactly the root's absolute path
      with the sanitised path appended, and so the guard always passes. */
  lemma SanitizedPathConfined(cwd: string, base: string, p: string)
    requires IsAbs(cwd)
    ensures Descends(Sanitize(p))
    ensures Abspath(cwd, JoinPath(base, Sanitize(p))) == Extend(Abspath(cwd, base), Sanitize(p))
    ensures GuardPasses(cwd, base, Sanitize(p))
  {
    var s := Sanitize(p);
    SanitizeDescends(p);
    JoinDescendsResolves(cwd, base, s);
    ExtendPrefix(Abspath(cwd, base), s);
  }

  /** The sanitise-join-guard idiom every route repeats: the path to act on,
      or `None` where the route answers "forbidden" / "invalid path". The
      guard never refuses, and the path it returns resolves inside the root. */
  function Confine(cwd: string, base: string, userPath: string): (r: Option<string>)
    requires IsAbs(cwd)
    ensures r.Some?
    ensures Abspath(cwd, r.value) == Extend(Abspath(cwd, base), Sanitize(userPath))
  {
    var safe := Sanitize(userPath);
    SanitizedPathConfined(cwd, base, userPath);
    if GuardPasses(cwd, base, safe) then Some(JoinPath(base, safe)) else None
  }

  // ---------------------------------------------------------------------------
  // isolation of member folders
  // ---------------------------------------------------------------------------

  /** The absolute path of a member's folder is the absolute `userfiles`
      path, a slash, and the member's name. */
  lemma MemberRootResolves(cwd: string, username: string)
    requires IsAbs(cwd) && CleanComponent(username)
    ensures var a := Abspath(cwd, UserFiles);
      && a[|a| - 1] != '/'
      && Abspath(cwd, MemberRoot(username)) == a + "/" + username
  {
    SplitNoSep(UserFiles, '/');
    SplitNoSep(username, '/');
    JoinDescendsResolves(cwd, "", UserFiles);
    assert JoinPath("", UserFiles) == UserFiles;
    JoinDescendsResolves(cwd, UserFiles, username);
  }

  /** Extending a member's folder, written out. */
  lemma ExtendMember(a: string, username: string, s: string)
    requires CleanComponent(username)
    ensures Extend(a + "/" + username, s) == (a + "/") + (username + (if s == "" then "" else "/" + s))
  {
    var r := a + "/" + username;
    assert r[|r| - 1] == username[|username| - 1];
    assert username[|username| - 1] in username;
  }

  /** Where a member's request lands: the absolute `userfiles` path, a
      slash, the member's name, and then either nothing or a slash and the
      sanitised path. */
  lemma MemberPathShape(cwd: string, username: string, p: string)
    requires IsAbs(cwd) && CleanComponent(username)
    ensures var s := Sanitize(p);
      Abspath(cwd, JoinPath(MemberRoot(username), s))
        == (Abspath(cwd, UserFiles) + "/") + (username + (if s == "" then "" else "/" + s))
  {
    var s := Sanitize(p);
    MemberRootResolves(cwd, username);
    SanitizedPathConfined(cwd, MemberRoot(username), p);
    ExtendMember(Abspath(cwd, UserFiles), username, s);
  }


  /** Two different members never reach the same location, whatever paths they
      send, as long as their names are single clean components. */
  lemma MembersAreIsolated(cwd: string, cfg: Config, alice: Principal, bob: Principal, p: string, q: string)
    requires IsAbs(cwd)
    requires alice.role == Member && bob.role == Member
    requires CleanComponent(alice.username) && CleanComponent(bob.username)
    requires alice.username != bob.username
    ensures Abspath(cwd, JoinPath(ReadRoot(alice, cfg), Sanitize(p)))
         != Abspath(cwd, JoinPath(ReadRoot(bob, cfg), Sanitize(q)))
  {
    var pre := Abspath(cwd, UserFiles) + "/";
    var sp := Sanitize(p);
    var sq := Sanitize(q);
    var xa := if sp == "" then "" else "/" + sp;
    var xb := if sq == "" then "" else "/" + sq;
    MemberPathShape(cwd, alice.username, p);
    MemberPathShape(cwd, bob.username, q);
    if pre + (alice.username + xa) == pre + (bob.username + xb) {
      assert (pre + (alice.username + xa))[|pre|..] == alice.username + xa;
      assert (pre + (bob.username + xb))[|pre|..] == bob.username + xb;
      FirstPieceUnique(alice.username, xa, bob.username, xb, '/');
    }
  }
}

=== FILE: file_kinds.dfy ===
/** Classifying a file by the text after its last dot: the template helpers
    `get_icon`, `get_file_type` and `is_previewable`, and the copy of the
    same classification inside the `/preview/<path>` route. */
module FileKinds {
  import opened Strings
  import opened PosixPath

  /** `filename.split('.')[-1].lower()`: the text after the last dot, or the
      whole name when it has no dot. */
  function Ext(filename: string): string {
    var pieces := Split(filename, '.');
    Lower(pieces[|pieces| - 1])
  }

  /** The last piece of a split is what follows the last separator. */
  lemma LastPiece(s: string, sep: char)
    ensures var pieces := Split(s, sep);
      pieces[|pieces| - 1] == s[LastIndexOf(s, sep) + 1..]
  {
    var pieces := Split(s, sep);
    var last := pieces[|pieces| - 1];
    JoinSplit(s, sep);
    if |pieces| == 1 {
      LastIndexOfUnique(s, sep, -1);
    } else {
      var init := pieces[..|pieces| - 1];
      JoinAppend(init, [last], sep);
      assert init + [last] == pieces;
      var k := |s| - |last| - 1;
      assert s == Join(init, sep) + [sep] + last;
      assert s[k] == sep;
      forall j | k < j < |s| ensures s[j] != sep {
        assert s[j] == last[j - k - 1];
      }
      LastIndexOfUnique(s, sep, k);
      assert s[k + 1..] == last;
    }
  }

  /** The extension is the lowered text after the last dot, and holds no dot. */
  lemma ExtIsAfterLastDot(filename: string)
    ensures Ext(filename) == Lower(filename[LastIndexOf(filename, '.') + 1..])
    ensures '.' !in Ext(filename)
  {
    LastPiece(filename, '.');
    var e := Ext(filename);
    forall i | 0 <= i < |e| ensures e[i] != '.' {
      var pieces := Split(filename, '.');
      assert '.' !in pieces[|pieces| - 1];
    }
  }

  /** `PREVIEWABLE_EXTENSIONS`. */
  const ImageExts: set<string> := {"jpg", "jpeg", "png", "gif", "webp"}

  /** `VIDEO_EXTENSIONS`. */
  const VideoExts: set<string> := {"mp4", "webm", "mov"}

  /** What the templates and the preview route do with a file. */
  datatype FileType = Image | Video | Other

  /** `get_file_type(filename)`. */
  function GetFileType(filename: string): (t: FileType)
    ensures t == Image <==> Ext(filename) in ImageExts
    ensures t == Video <==> Ext(filename) in VideoExts
  {
    var ext := Ext(filename);
    if ext in ImageExts then Image
    else if ext in VideoExts then Video
    else Other
  }

  /** `is_previewable(filename)`: exactly the images. */
  function IsPreviewable(filename: string): (b: bool)
    ensures b <==> GetFileType(filename) == Image
  {
    Ext(filename) in ImageExts
  }

  /** `ICON_MAP`. */
  const IconMap: map<string, string> := map[
    "jpg" := "image.svg", "jpeg" := "image.svg", "png" := "image.svg", "gif" := "image.svg", "webp" := "image.svg",
    "mp4" := "video.svg", "mov" := "video.svg", "avi" := "video.svg", "mkv" := "video.svg", "webm" := "video.svg",
    "mp3" := "audio.svg", "wav" := "audio.svg", "ogg" := "audio.svg",
    "pdf" := "pdf.svg",
    "doc" := "document.svg", "docx" := "document.svg", "txt" := "document.svg",
    "zip" := "archive.svg", "rar" := "archive.svg", "7z" := "archive.svg"
  ]

  const DefaultIcon := "file.svg"
  const FolderIcon := "folder.svg"

  /** `get_icon(filename, is_dir)`. */
  function GetIcon(filename: string, isDir: bool): string {
    if isDir then FolderIcon
    else
      var ext := Ext(filename);
      if ext in IconMap then IconMap[ext] else DefaultIcon
  }

  /** The icon agrees with the file type: a folder gets the folder icon,
      every image file the image icon and every video file the video icon;
      only the map's own extensions get anything but the default. */
  lemma IconMatchesType(filename: string, isDir: bool)
    ensures isDir ==> GetIcon(filename, isDir) == FolderIcon
    ensures !isDir && GetFileType(filename) == Image ==> GetIcon(filename, isDir) == "image.svg"
    ensures !isDir && GetFileType(filename) == Video ==> GetIcon(filename, isDir) == "video.svg"
    ensures !isDir && Ext(filename) !in IconMap ==> GetIcon(filename, isDir) == DefaultIcon
  {
  }

  /** What `/preview/<path>` answers once the visitor is logged in. */
  datatype Preview = NotPreviewable | ImagePage(filename: string, parent: string) | VideoPage(filename: string, parent: string)

  /** The classification the preview route repeats inline on
      `os.path.basename(path)`. */
  function PreviewPage(path: string): (r: Preview)
    ensures r.ImagePage? || r.VideoPage? ==> r.filename == Basename(path) && r.parent == Dirname(path)
  {
    var filename := Basename(path);
    var ext := Ext(filename);
    var kind := if ext in ImageExts then Image else if ext in VideoExts then Video else Other;
    match kind
    case Other => NotPreviewable
    case Video => VideoPage(filename, Dirname(path))
    case Image => ImagePage(filename, Dirname(path))
  }

  /** The route's inline copy agrees with the template helper: it refuses
      exactly the files `get_file_type` calls other, and it shows images on
      the image page exactly when `is_previewable` holds. */
  lemma PreviewAgreesWithHelpers(path: string)
    ensures PreviewPage(path).NotPreviewable? <==> GetFileType(Basename(path)) == Other
    ensures PreviewPage(path).ImagePage? <==> IsPreviewable(Basename(path))
    ensures PreviewPage(path).VideoPage? <==> GetFileType(Basename(path)) == Video
  {
  }

  /** Worked cases: whatever precedes the last dot, the extension is
      compared without case; and a name without a dot is its own
      extension. */
  lemma ExtExamples(stem: string)
    ensures GetFileType(stem + ".JPG") == Image
    ensures GetFileType(stem + ".mov") == Video
    ensures GetFileType(stem + ".txt") == Other
    ensures GetFileType("png") == Image
  {
    assert Ext(stem + ".JPG") == "jpg" by {
      ExtOf(stem, "JPG");
      assert stem + "." + "JPG" == stem + ".JPG";
      assert Lower("JPG") == "jpg";
    }
    assert Ext(stem + ".mov") == "mov" by {
      ExtOf(stem, "mov");
      assert stem + "." + "mov" == stem + ".mov";
      assert Lower("mov") == "mov";
    }
    assert Ext(stem + ".txt") == "txt" by {
      ExtOf(stem, "txt");
      assert stem + "." + "txt" == stem + ".txt";
      assert Lower("txt") == "txt";
    }
    assert Ext("png") == "png" by {
      ExtNoDot("png");
      assert Lower("png") == "png";
    }
  }

  /** The extension of `stem.tail` for a dot-free `tail`. */
  lemma ExtOf(stem: string, tail: string)
    requires '.' !in tail
    ensures Ext(stem + "." + tail) == Lower(tail)
  {
    var s := stem + "." + tail;
    ExtIsAfterLastDot(s);
    LastDotBeforeTail(stem, tail);
    assert s[|stem| + 1..] == tail;
  }

  /** The last dot of `stem.tail`, for a dot-free `tail`, is the one between them. */
  lemma LastDotBeforeTail(stem: string, tail: string)
    requires '.' !in tail
    ensures LastIndexOf(stem + "." + tail, '.') == |stem|
  {
    var s := stem + "." + tail;
    var k := |stem|;
    assert s[k] == '.' && s[k + 1..] == tail;
    forall j | k < j < |s| ensures s[j] != '.' {
      assert s[j] in s[k + 1..];
    }
    LastIndexOfUnique(s, '.', k);
  }

  /** The extension of a dot-free name is the whole name, lowered. */
  lemma ExtNoDot(name: string)
    requires '.' !in name
    ensures Ext(name) == Lower(name)
  {
    SplitNoSep(name, '.');
  }
}

=== FILE: file_ops.dfy ===
/** The routes that act on one entry or a batch of entries: name validation
    for new folders and renames, `create_folder`, `rename_item`,
    `download_file`, `delete_item` and `batch_delete`.

    Filesystem failures (`OSError`) are a parameter: `failure(p)` is the
    message the call on absolute path `p` raises, or `None` when it
    succeeds. */
module FileOps {
  import opened Results
  import opened Strings
  import opened PosixPath
  import opened Storage
  import opened Confinement

  // ---------------------------------------------------------------------------
  // names
  // ---------------------------------------------------------------------------

  /** The characters a new folder name or a new name may not contain. */
  const IllegalChars: set<char> := {'/', '\\', ':', '*', '?', '"', '<', '>', '|'}

  /** No illegal character occurs in `name`. */
  predicate Legal(name: string) {
    forall i :: 0 <= i < |name| ==> name[i] !in IllegalChars
  }

  /** A name the validation accepts: already stripped, not empty, and free of
      illegal characters. */
  predicate AcceptedName(name: string) {
    name != "" && Strip(name) == name && Legal(name)
  }

  /** An accepted name other than `.` and `..` names an entry directly inside
      the folder it is joined to. */
  lemma AcceptedNameDescends(cwd: string, dir: string, name: string)
    requires IsAbs(cwd) && name != "" && Legal(name) && name != "." && name != ".."
    ensures CleanComponent(name) && Descends(name)
    ensures Abspath(cwd, JoinPath(dir, name)) == Extend(Abspath(cwd, dir), name)
  {
    assert Descends(name) by {
      forall i | 0 <= i < |name| ensures name[i] != '/' {
        assert '/' in IllegalChars;
      }
      SplitNoSep(name, '/');
      assert !IsAbs(name);
      DescendsByIndex(name);
    }
    JoinDescendsResolves(cwd, dir, name);
  }

  /** A dot is not white space. */
  lemma DotNotSpace()
    ensures '.' !in Whitespace
  {
  }

  /** A name made only of dots, `.` and `..` among them, passes the
      validation; only the existence check that follows keeps such names
      from doing harm. */
  lemma DotsAccepted(name: string)
    requires |name| > 0 && forall i :: 0 <= i < |name| ==> name[i] == '.'
    ensures AcceptedName(name)
  {
    assert Legal(name) by {
      assert '.' !in IllegalChars;
    }
    assert Strip(name) == name by {
      DotNotSpace();
      StripKeeps(name);
    }
  }

  // ---------------------------------------------------------------------------
  // create_folder and rename_item
  // ---------------------------------------------------------------------------

  /** The JSON answers of the write routes, and the redirect of the forced
      password change that precedes them. */
  datatype JsonReply =
    | PasswordChangeRedirect
    | JsonError(status: nat, message: string)
    | FolderMade(path: string)
    | Renamed(from: string, to: string)

  /** The answer to a path the guard refuses. */
  const InvalidPath: JsonReply := JsonError(400, "无效路径")

  /** `create_folder`: the new folder's absolute path, or the error. */
  function CreateFolder(session: Option<Principal>, cfg: Config, cwd: string, disk: Disk,
                        rawName: string, subpath: string, failure: string -> Option<string>): (r: JsonReply)
    requires IsAbs(cwd)
    ensures r.FolderMade? ==>
      && session.Some? && !session.value.mustChangePassword && session.value.role != Visitor
      && AcceptedName(Strip(rawName))
      && r.path !in disk
      && r.path == Abspath(cwd, JoinPath(JoinPath(WriteRoot(session.value, cfg), Sanitize(subpath)), Strip(rawName)))
    ensures (r.JsonError? && r.status == 400 && session.Some? && !session.value.mustChangePassword
      && session.value.role != Visitor) ==>
      (Strip(rawName) == "" || !Legal(Strip(rawName)) || r.message == "文件夹已存在")
    ensures r.Renamed? ==> false
    ensures (session.Some? && !session.value.mustChangePassword && session.value.role != Visitor
      && Strip(rawName) != "" && Legal(Strip(rawName))) ==>
      var folder := Abspath(cwd, JoinPath(JoinPath(WriteRoot(session.value, cfg), Sanitize(subpath)), Strip(rawName)));
      (folder !in disk && failure(folder).None? ==> r == FolderMade(folder))
      && (folder in disk ==> r == JsonError(400, "文件夹已存在"))
  {
    if session.Some? && session.value.mustChangePassword then PasswordChangeRedirect
    else if session.None? then JsonError(403, "Unauthorized")
    else
      var who := session.value;
      var name := Strip(rawName);
      if who.role == Visitor then JsonError(403, "访客无法创建文件夹")
      else if name == "" then JsonError(400, "文件夹名称不能为空")
      else if !Legal(name) then JsonError(400, "文件夹名称包含非法字符")
      else
        match Confine(cwd, WriteRoot(who, cfg), subpath)
        case None => InvalidPath
        case Some(current) =>
          var folder := Abspath(cwd, JoinPath(current, name));
          if folder in disk then JsonError(400, "文件夹已存在")
          else
            match failure(folder)
            case Some(e) => JsonError(500, "创建失败: " + e)
            case None => FolderMade(folder)
  }

  /** `rename_item`: the absolute paths of the entry and of its new name, or
      the error. The new name is joined to the folder the entry is in. */
  function RenameItem(session: Option<Principal>, cfg: Config, cwd: string, disk: Disk,
                      oldPath: string, rawName: string, failure: string -> Option<string>): (r: JsonReply)
    requires IsAbs(cwd)
    ensures r.Renamed? ==>
      && session.Some? && !session.value.mustChangePassword && session.value.role != Visitor
      && oldPath != "" && AcceptedName(Strip(rawName))
      && r.from in disk && r.to !in disk
      && r.from == Extend(Abspath(cwd, WriteRoot(session.value, cfg)), Sanitize(oldPath))
      && r.to == Abspath(cwd, JoinPath(Dirname(JoinPath(WriteRoot(session.value, cfg), Sanitize(oldPath))), Strip(rawName)))
    ensures r.FolderMade? ==> false
    ensures (session.Some? && !session.value.mustChangePassword && session.value.role != Visitor
      && oldPath != "" && Strip(rawName) != "" && Legal(Strip(rawName))) ==>
      var from := Extend(Abspath(cwd, WriteRoot(session.value, cfg)), Sanitize(oldPath));
      var to := Abspath(cwd, JoinPath(Dirname(JoinPath(WriteRoot(session.value, cfg), Sanitize(oldPath))), Strip(rawName)));
      (from in disk && to !in disk && failure(from).None? ==> r == Renamed(from, to))
      && (from !in disk ==> r == JsonError(404, "文件不存在"))
      && (from in disk && to in disk ==> r == JsonError(400, "目标名称已存在"))
  {
    if session.Some? && session.value.mustChangePassword then PasswordChangeRedirect
    else if session.None? then JsonError(403, "Unauthorized")
    else
      var who := session.value;
      var name := Strip(rawName);
      if who.role == Visitor then JsonError(403, "访客无法重命名文件")
      else if oldPath == "" || name == "" then JsonError(400, "参数不完整")
      else if !Legal(name) then JsonError(400, "名称包含非法字符")
      else
        match Confine(cwd, WriteRoot(who, cfg), oldPath)
        case None => InvalidPath
        case Some(oldFull) =>
          var from := Abspath(cwd, oldFull);
          if from !in disk then JsonError(404, "文件不存在")
          else
            var to := Abspath(cwd, JoinPath(Dirname(oldFull), name));
            if to in disk then JsonError(400, "目标名称已存在")
            else
              match failure(from)
              case Some(e) => JsonError(500, "重命名失败: " + e)
              case None => Renamed(from, to)
  }

  /** A rename keeps the entry in its folder: the new path is the folder's
      absolute path, a separator and the new name. */
  lemma RenameStaysInFolder(session: Option<Principal>, cfg: Config, cwd: string, disk: Disk,
                            oldPath: string, rawName: string, failure: string -> Option<string>)
    requires IsAbs(cwd)
    requires RenameItem(session, cfg, cwd, disk, oldPath, rawName, failure).Renamed?
    requires Strip(rawName) != "." && Strip(rawName) != ".."
    ensures var folder := Dirname(JoinPath(WriteRoot(session.value, cfg), Sanitize(oldPath)));
      RenameItem(session, cfg, cwd, disk, oldPath, rawName, failure).to
        == Extend(Abspath(cwd, folder), Strip(rawName))
  {
    var folder := Dirname(JoinPath(WriteRoot(session.value, cfg), Sanitize(oldPath)));
    var name := Strip(rawName);
    assert name != "" && Legal(name);
    AcceptedNameDescends(cwd, folder, name);
  }

  // ---------------------------------------------------------------------------
  // download_file
  // ---------------------------------------------------------------------------

  /** What `download_file` answers. */
  datatype Download = LoginRequired | Refused(status: nat, text: string) | Attachment(path: string)

  /** The answer to a path the guard refuses. */
  const Forbidden: Download := Refused(403, "Forbidden")

  /** `download_file`: a file below the reading root is sent as an
      attachment; a missing path or a folder is "File not found". */
  function DownloadFile(session: Option<Principal>, cfg: Config, cwd: string, disk: Disk, filename: string): (r: Download)
    requires IsAbs(cwd)
    ensures r.Attachment? <==>
      session.Some? && IsFile(disk, Extend(Abspath(cwd, ReadRoot(session.value, cfg)), Sanitize(filename)))
    ensures r.Attachment? ==>
      r.path == Extend(Abspath(cwd, ReadRoot(session.value, cfg)), Sanitize(filename))
  {
    match session
    case None => LoginRequired
    case Some(who) =>
      match Confine(cwd, ReadRoot(who, cfg), filename)
      case None => Forbidden
      case Some(target) =>
        var abs := Abspath(cwd, target);
        if abs !in disk || disk[abs].Dir? then Refused(404, "File not found")
        else Attachment(abs)
  }

  // ---------------------------------------------------------------------------
  // removal
  // ---------------------------------------------------------------------------

  /** `k` is `p` or lies below it: it continues `p` past a slash, the one
      `p` already ends with (as `/` does) or one that follows it. */
  predicate Under(k: string, p: string) {
    k == p || StartsWith(k, if |p| > 0 && p[|p| - 1] == '/' then p else p + "/")
  }

  /** What lies below `p` starts with `p` and is longer unless it is `p`. */
  lemma UnderExtends(k: string, p: string)
    requires Under(k, p)
    ensures StartsWith(k, p) && (k != p ==> |k| > |p|)
  {
    if k != p {
      var q := if |p| > 0 && p[|p| - 1] == '/' then p else p + "/";
      assert k[..|p|] == q[..|p|] == p;
      if q == p {
        assert k[..|q|] == q;
      }
    }
  }

  /** Removing the folder `/` removes every absolute path, as
      `shutil.rmtree("/")` would. */
  lemma RemoveSlashRoot(disk: Disk)
    requires IsDir(disk, "/")
    ensures forall k :: IsAbs(k) ==> k !in Remove(disk, "/")
  {
    forall k | IsAbs(k) ensures Under(k, "/") {
      assert k[..1] == "/";
    }
  }

  /** `shutil.rmtree(p)` for a folder, `os.remove(p)` for a file. */
  function Remove(disk: Disk, p: string): (after: Disk)
    requires p in disk
    ensures forall k :: k in after <==> k in disk && !(if disk[p].Dir? then Under(k, p) else k == p)
    ensures forall k :: k in after ==> after[k] == disk[k]
  {
    if disk[p].Dir? then map k | k in disk && !Under(k, p) :: disk[k]
    else map k | k in disk && k != p :: disk[k]
  }

  /** The absolute path a removal acts on, as written: the confined path,
      which for a path that sanitises to nothing is the root itself. */
  function TargetAsWritten(cwd: string, base: string, userPath: string): (r: Option<string>)
    requires IsAbs(cwd)
    ensures r == Some(Extend(Abspath(cwd, base), Sanitize(userPath)))
  {
    match Confine(cwd, base, userPath)
    case None => None
    case Some(t) => Some(Abspath(cwd, t))
  }

  /** The path a removal should act on: as written, except that a path which
      sanitises to nothing is refused as invalid instead of naming the root. */
  function TargetCorrected(cwd: string, base: string, userPath: string): (r: Option<string>)
    requires IsAbs(cwd)
    ensures r.Some? <==> Sanitize(userPath) != ""
    ensures r.Some? ==> r.value == Extend(Abspath(cwd, base), Sanitize(userPath))
  {
    if Sanitize(userPath) == "" then None else TargetAsWritten(cwd, base, userPath)
  }

  /** The removal target as written or, when `corrected`, as corrected. */
  function Target(cwd: string, base: string, userPath: string, corrected: bool): Option<string>
    requires IsAbs(cwd)
  {
    if corrected then TargetCorrected(cwd, base, userPath) else TargetAsWritten(cwd, base, userPath)
  }

  /** Removing a corrected target never removes the root, and only removes
      entries that lie below it. */
  lemma CorrectedTargetBelowRoot(cwd: string, base: string, userPath: string, disk: Disk)
    requires IsAbs(cwd)
    requires TargetCorrected(cwd, base, userPath).Some?
    requires TargetCorrected(cwd, base, userPath).value in disk
    ensures var root := Abspath(cwd, base);
      var after := Remove(disk, TargetCorrected(cwd, base, userPath).value);
      && (root in disk ==> root in after)
      && (forall k :: k in disk && k !in after ==> StartsWith(k, root) && k != root)
  {
    var root := Abspath(cwd, base);
    var t := TargetCorrected(cwd, base, userPath).value;
    assert |t| > |root| && StartsWith(t, root);
    forall k | k in disk && k !in Remove(disk, t) ensures StartsWith(k, root) && k != root {
      UnderExtends(k, t);
      assert k[..|root|] == t[..|root|];
    }
  }

  /** `/`, `.` and `..` all sanitise to nothing. */
  lemma RootPathsSanitizeToNothing()
    ensures Sanitize("/") == "" && Sanitize(".") == "" && Sanitize("..") == ""
  {
    SlashSanitizes();
    DotSanitizes();
    DotDotSanitizes();
  }

  /** `/` sanitises to nothing. */
  lemma SlashSanitizes()
    ensures Sanitize("/") == ""
  {
    assert Normpath("/") == "/" by {
      NormalFixed(1, []);
      assert Slashes(1) + Join([], '/') == "/";
    }
    assert LStrip("/", StripChars) == "" by {
      LStripSkips("/", "", StripChars);
      assert "/" + "" == "/";
    }
  }

  /** `.` sanitises to nothing. */
  lemma DotSanitizes()
    ensures Sanitize(".") == ""
  {
    assert Normpath(".") == "." by {
      NormpathDot();
    }
    assert LStrip(".", StripChars) == "" by {
      LStripSkips(".", "", StripChars);
      assert "." + "" == ".";
    }
  }

  /** `..` sanitises to nothing. */
  lemma DotDotSanitizes()
    ensures Sanitize("..") == ""
  {
    assert Normpath("..") == ".." by {
      NormalFixed(0, [".."]);
      assert Slashes(0) + Join([".."], '/') == "..";
    }
    assert LStrip("..", StripChars) == "" by {
      LStripSkips("..", "", StripChars);
      assert ".." + "" == "..";
    }
  }

  // ---------------------------------------------------------------------------
  // delete_item
  // ---------------------------------------------------------------------------

  /** What `delete_item` does: its flash message, the page it redirects to,
      and the disk afterwards. */
  datatype DeleteItem = DeleteItem(flash: DeleteFlash, back: Back, after: Disk)

  /** The flash of `delete_item`. */
  datatype DeleteFlash =
    | LoginFirst
    | VisitorsCannotDelete
    | ForbiddenPath
    | Missing
    | FolderDeleted(name: string)
    | FileDeleted(name: string)
    | DeleteFailed(message: string)

  /** Where `delete_item` redirects: the login page, the referring page (or
      the root when there is none), the listing of a folder, or the root. */
  datatype Back = LoginPage | Referrer | Browse(subpath: string) | RootPage

  /** `delete_item`, as written or, when `corrected`, with the corrected
      target. Once the removal was attempted the visitor is sent to the
      folder the requested path names as its parent. */
  function DeleteItemWith(session: Option<Principal>, cfg: Config, cwd: string, disk: Disk, path: string,
                          failure: string -> Option<string>, corrected: bool): (r: DeleteItem)
    requires IsAbs(cwd)
    ensures r.back.Browse? || r.back == RootPage <==>
      r.flash.FolderDeleted? || r.flash.FileDeleted? || r.flash.DeleteFailed?
    ensures r.back.Browse? <==> (r.back.Browse? || r.back == RootPage) && '/' in path
    ensures r.back.Browse? ==> StartsWith(path, r.back.subpath)
    ensures r.after != disk ==> r.flash.FolderDeleted? || r.flash.FileDeleted?
    ensures (r.flash.FolderDeleted? || r.flash.FileDeleted?) ==>
      && session.Some? && session.value.role != Visitor
      && var t := Target(cwd, ReadRoot(session.value, cfg), path, corrected);
      && t.Some? && t.value in disk && r.after == Remove(disk, t.value)
      && r.flash.name == Basename(Sanitize(path))
  {
    match session
    case None => DeleteItem(LoginFirst, LoginPage, disk)
    case Some(who) =>
      if who.role == Visitor then DeleteItem(VisitorsCannotDelete, Referrer, disk)
      else
        match Target(cwd, ReadRoot(who, cfg), path, corrected)
        case None => DeleteItem(ForbiddenPath, Referrer, disk)
        case Some(abs) =>
          if abs !in disk then DeleteItem(Missing, Referrer, disk)
          else
            var parent := Dirname(path);
            var back := if parent != "" then Browse(parent) else RootPage;
            match failure(abs)
            case Some(e) => DeleteItem(DeleteFailed(e), back, disk)
            case None =>
              var name := Basename(JoinPath(ReadRoot(who, cfg), Sanitize(path)));
              assert name == Basename(Sanitize(path)) by {
                SanitizedPathConfined(cwd, ReadRoot(who, cfg), path);
                BasenameJoin(ReadRoot(who, cfg), Sanitize(path));
              }
              DeleteItem(if disk[abs].Dir? then FolderDeleted(name) else FileDeleted(name), back, Remove(disk, abs))
  }

  /** `delete_item` as written. */
  function DeleteItemAsWritten(session: Option<Principal>, cfg: Config, cwd: string, disk: Disk, path: string,
                               failure: string -> Option<string>): (r: DeleteItem)
    requires IsAbs(cwd)
    ensures (r.flash.FolderDeleted? || r.flash.FileDeleted?) ==>
      (session.Some? &&
       var abs := Extend(Abspath(cwd, ReadRoot(session.value, cfg)), Sanitize(path));
       abs in disk && r.after == Remove(disk, abs))
  {
    DeleteItemWith(session, cfg, cwd, disk, path, failure, false)
  }

  /** `delete_item` with paths that sanitise to nothing refused. */
  function DeleteItemCorrected(session: Option<Principal>, cfg: Config, cwd: string, disk: Disk, path: string,
                               failure: string -> Option<string>): (r: DeleteItem)
    requires IsAbs(cwd)
    ensures Sanitize(path) == "" ==> r.after == disk
  {
    DeleteItemWith(session, cfg, cwd, disk, path, failure, true)
  }

  /** As written, `/delete/..` by a member removes the member's whole folder,
      and by the administrator the whole disk path. */
  lemma DeleteItemRemovesRoot(who: Principal, cfg: Config, cwd: string, disk: Disk,
                              failure: string -> Option<string>)
    requires IsAbs(cwd) && who.role != Visitor
    requires Abspath(cwd, ReadRoot(who, cfg)) in disk && disk[Abspath(cwd, ReadRoot(who, cfg))].Dir?
    requires failure(Abspath(cwd, ReadRoot(who, cfg))).None?
    ensures var r := DeleteItemAsWritten(Some(who), cfg, cwd, disk, "..", failure);
      r.flash.FolderDeleted? && Abspath(cwd, ReadRoot(who, cfg)) !in r.after
  {
    RootPathsSanitizeToNothing();
  }

  /** Corrected, `delete_item` never removes the reading root and only
      removes entries below it. */
  lemma DeleteItemKeepsRoot(session: Option<Principal>, cfg: Config, cwd: string, disk: Disk, path: string,
                            failure: string -> Option<string>)
    requires IsAbs(cwd) && session.Some?
    ensures var root := Abspath(cwd, ReadRoot(session.value, cfg));
      var r := DeleteItemCorrected(session, cfg, cwd, disk, path, failure);
      && (root in disk ==> root in r.after)
      && (forall k :: k in disk && k !in r.after ==> StartsWith(k, root) && k != root)
  {
    var base := ReadRoot(session.value, cfg);
    var t := TargetCorrected(cwd, base, path);
    if t.Some? && t.value in disk {
      CorrectedTargetBelowRoot(cwd, base, path, disk);
    }
  }

  // ---------------------------------------------------------------------------
  // batch_delete
  // ---------------------------------------------------------------------------

  /** The tally of a batch: how many items were removed, the error lines in
      item order, and the disk afterwards. */
  datatype Tally = Tally(deleted: nat, errors: seq<string>, after: Disk)

  /** What one item of a batch does: the error line it adds, if any, and
      the disk after it. */
  datatype Step = Step(error: Option<string>, after: Disk)

  /** The error line `f"{item}: {message}"`. */
  function Line(item: string, message: string): (line: string)
    ensures StartsWith(line, item + ": ")
  {
    var head := item + ": ";
    assert (head + message)[..|head|] == head;
    head + message
  }

  /** One pass of the loop body for `item`, whose removal target is
      `target` (`None` when the guard refuses it): an invalid path, a
      missing entry or a failing removal adds an error line and leaves the
      disk alone; otherwise the entry is removed. */
  function StepOf(item: string, target: Option<string>, disk: Disk, failure: string -> Option<string>): (s: Step)
    ensures s.error.Some? ==> StartsWith(s.error.value, item + ": ") && s.after == disk
    ensures s.error.None? ==> target.Some? && target.value in disk && s.after == Remove(disk, target.value)
    ensures target.None? ==> s.error == Some(Line(item, "无效路径"))
    ensures target.Some? && target.value !in disk ==> s.error == Some(Line(item, "文件不存在"))
    ensures target.Some? && failure(target.value).None? ==> target.value !in s.after
    ensures forall k :: k in s.after ==> k in disk && s.after[k] == disk[k]
  {
    match target
    case None => Step(Some(Line(item, "无效路径")), disk)
    case Some(abs) =>
      if abs !in disk then Step(Some(Line(item, "文件不存在")), disk)
      else
        match failure(abs)
        case Some(e) => Step(Some(Line(item, e)), disk)
        case None => Step(None, Remove(disk, abs))
  }

  /** The loop over the items, each resolved to its removal target by
      `resolve`. Each item adds one to the count or one error line; later
      items see the disk as earlier ones left it. */
  function DeleteEach(items: seq<string>, disk: Disk, failure: string -> Option<string>,
                      resolve: string -> Option<string>): (t: Tally)
    ensures t.deleted + |t.errors| == |items|
    ensures forall k :: k in t.after ==> k in disk && t.after[k] == disk[k]
    decreases |items|
  {
    if |items| == 0 then Tally(0, [], disk)
    else
      var s := StepOf(items[0], resolve(items[0]), disk, failure);
      var rest := DeleteEach(items[1..], s.after, failure, resolve);
      match s.error
      case Some(line) => Tally(rest.deleted, [line] + rest.errors, rest.after)
      case None => Tally(rest.deleted + 1, rest.errors, rest.after)
  }

  /** The removal target of a batch item below `base`, as written or
      corrected. */
  function Resolver(cwd: string, base: string, corrected: bool): (resolve: string -> Option<string>)
    requires IsAbs(cwd)
    ensures forall item :: resolve(item) == Target(cwd, base, item, corrected)
  {
    item => Target(cwd, base, item, corrected)
  }

  /** Every item that resolves to no target is reported as an invalid path,
      and every item whose target was not on the disk before the batch is
      reported as missing. */
  lemma {:induction false} FailuresReported(items: seq<string>, disk: Disk, failure: string -> Option<string>,
                                            resolve: string -> Option<string>)
    ensures var t := DeleteEach(items, disk, failure, resolve);
      forall i :: 0 <= i < |items| ==>
        && (resolve(items[i]).None? ==> Line(items[i], "无效路径") in t.errors)
        && (resolve(items[i]).Some? && resolve(items[i]).value !in disk ==> Line(items[i], "文件不存在") in t.errors)
    decreases |items|
  {
    if |items| > 0 {
      var tail := items[1..];
      var s := StepOf(items[0], resolve(items[0]), disk, failure);
      FailuresReported(tail, s.after, failure, resolve);
      forall i | 1 <= i < |items| ensures tail[i - 1] == items[i] {
      }
    }
  }

  /** Every item whose target exists when it is reached and whose removal
      does not fail is gone afterwards; a target that was never on the disk
      is not on it afterwards either. */
  lemma {:induction false} TargetsRemoved(items: seq<string>, disk: Disk, failure: string -> Option<string>,
                                          resolve: string -> Option<string>)
    ensures var t := DeleteEach(items, disk, failure, resolve);
      forall i ::
        (0 <= i < |items| && resolve(items[i]).Some? && failure(resolve(items[i]).value).None?) ==>
          resolve(items[i]).value !in t.after
    decreases |items|
  {
    if |items| > 0 {
      var tail := items[1..];
      var s := StepOf(items[0], resolve(items[0]), disk, failure);
      TargetsRemoved(tail, s.after, failure, resolve);
      forall i | 1 <= i < |items| ensures tail[i - 1] == items[i] {
      }
    }
  }

  /** Nothing but what lies under some item's target is removed. */
  lemma {:induction false} OnlyTargetsRemoved(items: seq<string>, disk: Disk, failure: string -> Option<string>,
                                              resolve: string -> Option<string>)
    ensures var t := DeleteEach(items, disk, failure, resolve);
      forall k :: k in disk && k !in t.after ==>
        exists i :: 0 <= i < |items| && resolve(items[i]).Some? && Under(k, resolve(items[i]).value)
    decreases |items|
  {
    if |items| > 0 {
      var tail := items[1..];
      var s := StepOf(items[0], resolve(items[0]), disk, failure);
      OnlyTargetsRemoved(tail, s.after, failure, resolve);
      var t := DeleteEach(items, disk, failure, resolve);
      forall k | k in disk && k !in t.after
        ensures exists i :: 0 <= i < |items| && resolve(items[i]).Some? && Under(k, resolve(items[i]).value)
      {
        if k in s.after {
          var j :| 0 <= j < |tail| && resolve(tail[j]).Some? && Under(k, resolve(tail[j]).value);
          assert tail[j] == items[j + 1];
        } else {
          var abs := resolve(items[0]).value;
          assert disk[abs].Dir? ==> Under(k, abs);
        }
      }
    }
  }

  /** `line` is an error line about one of `items`. */
  predicate ReportsItem(line: string, items: seq<string>) {
    exists i :: 0 <= i < |items| && StartsWith(line, items[i] + ": ")
  }

  /** Every error line begins with the item it reports. */
  lemma {:induction false} ErrorsNameItems(items: seq<string>, disk: Disk, failure: string -> Option<string>,
                                           resolve: string -> Option<string>)
    ensures forall j :: 0 <= j < |DeleteEach(items, disk, failure, resolve).errors| ==>
      ReportsItem(DeleteEach(items, disk, failure, resolve).errors[j], items)
    decreases |items|
  {
    if |items| > 0 {
      var tail := items[1..];
      var s := StepOf(items[0], resolve(items[0]), disk, failure);
      ErrorsNameItems(tail, s.after, failure, resolve);
      var rest := DeleteEach(tail, s.after, failure, resolve);
      var t := DeleteEach(items, disk, failure, resolve);
      forall j | 0 <= j < |t.errors| ensures ReportsItem(t.errors[j], items) {
        if s.error.Some? && j == 0 {
          assert t.errors[0] == s.error.value;
          assert StartsWith(t.errors[0], items[0] + ": ");
        } else {
          var j' := if s.error.Some? then j - 1 else j;
          assert 0 <= j' < |rest.errors| && t.errors[j] == rest.errors[j'];
          var i :| 0 <= i < |tail| && StartsWith(rest.errors[j'], tail[i] + ": ");
          assert tail[i] == items[i + 1];
        }
      }
    }
  }

  /** A batch of an existing entry and a missing one deletes the first,
      reports the second as missing, and succeeds partially. */
  lemma PartialBatch(present: string, absent: string, disk: Disk, failure: string -> Option<string>,
                     resolve: string -> Option<string>)
    requires resolve(present).Some? && resolve(present).value in disk && failure(resolve(present).value).None?
    requires resolve(absent).Some? && resolve(absent).value !in disk
    ensures DeleteEach([present, absent], disk, failure, resolve)
      == Tally(1, [Line(absent, "文件不存在")], Remove(disk, resolve(present).value))
  {
    var after := Remove(disk, resolve(present).value);
    var line := Line(absent, "文件不存在");
    assert [present, absent][1..] == [absent];
    assert StepOf(present, resolve(present), disk, failure) == Step(None, after);
    assert resolve(absent).value !in after;
    assert StepOf(absent, resolve(absent), after, failure) == Step(Some(line), after);
    assert DeleteEach([absent], after, failure, resolve) == Tally(0, [line], after) by {
      assert [absent][1..] == [];
      assert [line] + [] == [line];
    }
  }

  /** What `batch_delete` answers: the redirect of the forced password
      change, an error, or the JSON tally (status 207 with `success: false`
      when there were errors). */
  datatype BatchReply =
    | BatchPasswordChange
    | BatchRefused(status: nat, message: string)
    | BatchDone(status: nat, success: bool, deleted: nat, errors: seq<string>)

  /** `batch_delete`, as written or, when `corrected`, with the corrected
      target. Item by item: a refused path is reported invalid, a target
      absent from the disk is reported missing, a target whose removal does
      not fail is gone afterwards, nothing outside the items' targets is
      removed, and every error line names its item. */
  function BatchDeleteWith(session: Option<Principal>, cfg: Config, cwd: string, disk: Disk, items: seq<string>,
                           failure: string -> Option<string>, corrected: bool): (r: (BatchReply, Disk))
    requires IsAbs(cwd)
    ensures r.0.BatchDone? ==>
      && |items| > 0
      && r.0.deleted + |r.0.errors| == |items|
      && (r.0.success <==> r.0.errors == [])
      && (r.0.status == 207 <==> !r.0.success)
    ensures !r.0.BatchDone? ==> r.1 == disk
    ensures forall k :: k in r.1 ==> k in disk
    ensures r.0.BatchDone? ==> session.Some? && forall i :: 0 <= i < |items| ==>
        && (Target(cwd, WriteRoot(session.value, cfg), items[i], corrected).None? ==>
              Line(items[i], "无效路径") in r.0.errors)
        && (Target(cwd, WriteRoot(session.value, cfg), items[i], corrected).Some?
            && Target(cwd, WriteRoot(session.value, cfg), items[i], corrected).value !in disk ==>
              Line(items[i], "文件不存在") in r.0.errors)
        && (Target(cwd, WriteRoot(session.value, cfg), items[i], corrected).Some?
            && failure(Target(cwd, WriteRoot(session.value, cfg), items[i], corrected).value).None? ==>
              Target(cwd, WriteRoot(session.value, cfg), items[i], corrected).value !in r.1)
    ensures r.0.BatchDone? ==> session.Some? && forall k :: k in disk && k !in r.1 ==>
        exists i :: 0 <= i < |items| && Target(cwd, WriteRoot(session.value, cfg), items[i], corrected).Some?
          && Under(k, Target(cwd, WriteRoot(session.value, cfg), items[i], corrected).value)
    ensures r.0.BatchDone? ==> forall j :: 0 <= j < |r.0.errors| ==> ReportsItem(r.0.errors[j], items)
  {
    if session.Some? && session.value.mustChangePassword then (BatchPasswordChange, disk)
    else if session.None? then (BatchRefused(403, "Unauthorized"), disk)
    else
      var who := session.value;
      if who.role == Visitor then (BatchRefused(403, "访客无法删除文件"), disk)
      else if |items| == 0 then (BatchRefused(400, "没有选择要删除的项目"), disk)
      else
        var resolve := Resolver(cwd, WriteRoot(who, cfg), corrected);
        var t := DeleteEach(items, disk, failure, resolve);
        FailuresReported(items, disk, failure, resolve);
        TargetsRemoved(items, disk, failure, resolve);
        OnlyTargetsRemoved(items, disk, failure, resolve);
        ErrorsNameItems(items, disk, failure, resolve);
        if t.errors != [] then (BatchDone(207, false, t.deleted, t.errors), t.after)
        else (BatchDone(200, true, t.deleted, []), t.after)
  }

  /** `batch_delete` as written. */
  function BatchDeleteAsWritten(session: Option<Principal>, cfg: Config, cwd: string, disk: Disk,
                                items: seq<string>, failure: string -> Option<string>): (r: (BatchReply, Disk))
    requires IsAbs(cwd)
    ensures r.0.BatchDone? ==> r.0.deleted + |r.0.errors| == |items| && (r.0.success <==> r.0.errors == [])
  {
    BatchDeleteWith(session, cfg, cwd, disk, items, failure, false)
  }

  /** `batch_delete` with items that sanitise to nothing reported as invalid
      paths. */
  function BatchDeleteCorrected(session: Option<Principal>, cfg: Config, cwd: string, disk: Disk,
                                items: seq<string>, failure: string -> Option<string>): (r: (BatchReply, Disk))
    requires IsAbs(cwd)
    ensures r.0.BatchDone? ==> r.0.deleted + |r.0.errors| == |items| && (r.0.success <==> r.0.errors == [])
  {
    BatchDeleteWith(session, cfg, cwd, disk, items, failure, true)
  }

  /** Removing a single item that resolves to an existing entry counts it
      and removes it. */
  lemma DeleteOne(item: string, disk: Disk, failure: string -> Option<string>, resolve: string -> Option<string>)
    requires resolve(item).Some? && resolve(item).value in disk && failure(resolve(item).value).None?
    ensures DeleteEach([item], disk, failure, resolve) == Tally(1, [], Remove(disk, resolve(item).value))
  {
    assert [item][1..] == [];
  }

  /** As written, the batch `["/"]` removes the whole writing root and
      reports success. */
  lemma BatchDeleteRemovesRoot(who: Principal, cfg: Config, cwd: string, disk: Disk,
                               failure: string -> Option<string>)
    requires IsAbs(cwd) && who.role != Visitor && !who.mustChangePassword
    requires Abspath(cwd, WriteRoot(who, cfg)) in disk && disk[Abspath(cwd, WriteRoot(who, cfg))].Dir?
    requires failure(Abspath(cwd, WriteRoot(who, cfg))).None?
    ensures var r := BatchDeleteAsWritten(Some(who), cfg, cwd, disk, ["/"], failure);
      r.0 == BatchDone(200, true, 1, []) && Abspath(cwd, WriteRoot(who, cfg)) !in r.1
  {
    var base := WriteRoot(who, cfg);
    var root := Abspath(cwd, base);
    var resolve := Resolver(cwd, base, false);
    assert resolve("/") == Some(root) by {
      RootPathsSanitizeToNothing();
    }
    DeleteOne("/", disk, failure, resolve);
  }

  /** Removal through corrected targets, item by item, never removes the root
      and only removes entries below it. */
  lemma {:induction false} DeleteEachKeepsRoot(items: seq<string>, disk: Disk, failure: string -> Option<string>,
                                               cwd: string, base: string)
    requires IsAbs(cwd)
    ensures var root := Abspath(cwd, base);
      var t := DeleteEach(items, disk, failure, Resolver(cwd, base, true));
      && (root in disk ==> root in t.after)
      && (forall k :: k in disk && k !in t.after ==> StartsWith(k, root) && k != root)
    decreases |items|
  {
    if |items| > 0 {
      var resolve := Resolver(cwd, base, true);
      var t := TargetCorrected(cwd, base, items[0]);
      assert resolve(items[0]) == t;
      if t.Some? && t.value in disk && failure(t.value).None? {
        CorrectedTargetBelowRoot(cwd, base, items[0], disk);
        DeleteEachKeepsRoot(items[1..], Remove(disk, t.value), failure, cwd, base);
      } else {
        DeleteEachKeepsRoot(items[1..], disk, failure, cwd, base);
      }
    }
  }

  /** Corrected, a batch never removes the writing root, and removes only
      entries below it. */
  lemma BatchDeleteKeepsRoot(session: Option<Principal>, cfg: Config, cwd: string, disk: Disk,
                             items: seq<string>, failure: string -> Option<string>)
    requires IsAbs(cwd) && session.Some?
    ensures var root := Abspath(cwd, WriteRoot(session.value, cfg));
      var after := BatchDeleteCorrected(session, cfg, cwd, disk, items, failure).1;
      && (root in disk ==> root in after)
      && (forall k :: k in disk && k !in after ==> StartsWith(k, root) && k != root)
  {
    var base := WriteRoot(session.value, cfg);
    DeleteEachKeepsRoot(items, disk, failure, cwd, base);
    var r := BatchDeleteWith(session, cfg, cwd, disk, items, failure, true);
    if session.value.mustChangePassword || session.value.role == Visitor || |items| == 0 {
      assert r.1 == disk;
    } else {
      assert r.1 == DeleteEach(items, disk, failure, Resolver(cwd, base, true)).after;
    }
  }
}

=== FILE: listing.dfy ===
/** `_render_file_list`, shared by `/` and `/browse/<subpath>`: which
    directory is listed, the entries collected from it, their order
    (folders first, then by lower-cased name, ties in directory order), and
    the breadcrumb trail. */
module Listing {
  import opened Results
  import opened Strings
  import opened PosixPath
  import opened Storage
  import opened Confinement
  import opened StableSort
  import Upload

  /** What `os.stat` reports about a directory entry. */
  datatype Stat = Stat(isDir: bool, size: nat, mtime: int)

  /** One row of the listing. A folder shows `-` instead of a size (`None`);
      `mtime` is the timestamp the page formats. */
  datatype Entry = Entry(name: string, isDir: bool, size: Option<nat>, mtime: int)

  /** The row for a name whose `stat` succeeded. */
  function EntryOf(name: string, st: Stat): Entry {
    Entry(name, st.isDir, if st.isDir then None else Some(st.size), st.mtime)
  }

  /** The loop over `os.listdir`: one row per name, in directory order, with
      the names whose `stat` raises skipped. `stat` answers `None` for those. */
  function Collect(names: seq<string>, stat: string -> Option<Stat>): (items: seq<Entry>)
    ensures |items| <= |names|
    ensures forall e :: e in items ==> e.name in names && stat(e.name).Some? && e == EntryOf(e.name, stat(e.name).value)
    ensures forall n :: n in names && stat(n).Some? ==> EntryOf(n, stat(n).value) in items
  {
    if |names| == 0 then []
    else
      var rest := Collect(names[1..], stat);
      assert forall n :: n in names[1..] ==> n in names;
      match stat(names[0])
      case None => rest
      case Some(st) => [EntryOf(names[0], st)] + rest
  }

  /** The positions in `names` of the rows `Collect` keeps, in order. */
  function Kept(names: seq<string>, stat: string -> Option<Stat>): (idx: seq<nat>)
    decreases |names|
  {
    if |names| == 0 then []
    else
      var rest := Shifted(Kept(names[1..], stat));
      if stat(names[0]).Some? then [0] + rest else rest
  }

  /** Every position moved one place on. */
  function Shifted(s: seq<nat>): (r: seq<nat>)
    ensures |r| == |s| && forall k :: 0 <= k < |s| ==> r[k] == s[k] + 1
  {
    seq(|s|, k requires 0 <= k < |s| => s[k] + 1)
  }

  /** Row `k` of `Collect` is the entry of the name at the `k`-th kept
      position. */
  lemma {:induction false} KeptRows(names: seq<string>, stat: string -> Option<Stat>)
    ensures var items := Collect(names, stat);
      var idx := Kept(names, stat);
      && |idx| == |items|
      && (forall k :: 0 <= k < |idx| ==>
            idx[k] < |names| && stat(names[idx[k]]).Some?
            && items[k] == EntryOf(names[idx[k]], stat(names[idx[k]]).value))
    decreases |names|
  {
    if |names| > 0 {
      var tail := names[1..];
      KeptRows(tail, stat);
      var rest := Collect(tail, stat);
      var shifted := Shifted(Kept(tail, stat));
      forall k | 0 <= k < |shifted| ensures shifted[k] < |names| && names[shifted[k]] == tail[shifted[k] - 1] {
      }
      if stat(names[0]).Some? {
        assert Collect(names, stat) == [EntryOf(names[0], stat(names[0]).value)] + rest;
        assert Kept(names, stat) == [0] + shifted;
      }
    }
  }

  /** The kept positions strictly increase. */
  lemma {:induction false} KeptIncreasing(names: seq<string>, stat: string -> Option<Stat>)
    ensures forall k, l :: 0 <= k < l < |Kept(names, stat)| ==> Kept(names, stat)[k] < Kept(names, stat)[l]
    decreases |names|
  {
    if |names| > 0 {
      KeptIncreasing(names[1..], stat);
      var ridx := Kept(names[1..], stat);
      var shifted := Shifted(ridx);
      forall k, l | 0 <= k < l < |shifted| ensures shifted[k] < shifted[l] {
        assert ridx[k] < ridx[l];
      }
      if stat(names[0]).Some? {
        var idx := [0] + shifted;
        assert Kept(names, stat) == idx;
        forall k, l | 0 <= k < l < |idx| ensures idx[k] < idx[l] {
          assert idx[l] == shifted[l - 1] == ridx[l - 1] + 1;
          if k > 0 {
            assert idx[k] == shifted[k - 1];
          }
        }
      } else {
        assert Kept(names, stat) == shifted;
      }
    }
  }

  /** Every name whose `stat` succeeds is kept. */
  lemma {:induction false} KeptComplete(names: seq<string>, stat: string -> Option<Stat>)
    ensures forall a :: 0 <= a < |names| && stat(names[a]).Some? ==> a in Kept(names, stat)
    decreases |names|
  {
    if |names| > 0 {
      var tail := names[1..];
      KeptComplete(tail, stat);
      var ridx := Kept(tail, stat);
      var shifted := Shifted(ridx);
      forall a | 0 < a < |names| && stat(names[a]).Some? ensures a in shifted {
        assert tail[a - 1] == names[a];
        var p :| 0 <= p < |ridx| && ridx[p] == a - 1;
        assert shifted[p] == a;
      }
      if stat(names[0]).Some? {
        assert Kept(names, stat) == [0] + shifted;
      } else {
        assert Kept(names, stat) == shifted;
      }
    }
  }

  /** `Collect` is the directory listing filtered by `stat`, in directory
      order: row `k` is the entry of the `k`-th name whose `stat` succeeds,
      the positions it comes from strictly increase, every such name is
      kept, and distinct names give distinct rows. */
  lemma CollectInOrder(names: seq<string>, stat: string -> Option<Stat>)
    ensures var items := Collect(names, stat);
      var idx := Kept(names, stat);
      && |idx| == |items|
      && (forall k :: 0 <= k < |idx| ==>
            idx[k] < |names| && stat(names[idx[k]]).Some?
            && items[k] == EntryOf(names[idx[k]], stat(names[idx[k]]).value))
      && (forall k, l :: 0 <= k < l < |idx| ==> idx[k] < idx[l])
      && (forall a :: 0 <= a < |names| && stat(names[a]).Some? ==> a in idx)
      && ((forall a, b :: 0 <= a < b < |names| ==> names[a] != names[b]) ==>
            forall k, l :: 0 <= k < l < |items| ==> items[k].name != items[l].name)
  {
    KeptRows(names, stat);
    KeptIncreasing(names, stat);
    KeptComplete(names, stat);
    var items := Collect(names, stat);
    var idx := Kept(names, stat);
    if forall a, b :: 0 <= a < b < |names| ==> names[a] != names[b] {
      forall k, l | 0 <= k < l < |items| ensures items[k].name != items[l].name {
        assert items[k].name == names[idx[k]] && items[l].name == names[idx[l]];
      }
    }
  }

  // ---------------------------------------------------------------------------
  // order
  // ---------------------------------------------------------------------------

  /** `key=lambda x: (not x['is_dir'], x['name'].lower())` compared as Python
      compares tuples: `False < True`, so folders come first, then names. */
  predicate EntryLe(a: Entry, b: Entry) {
    (a.isDir && !b.isDir) || (a.isDir == b.isDir && LexLe(Lower(a.name), Lower(b.name)))
  }

  lemma EntryLeTotalPreorder()
    ensures TotalPreorder(EntryLe)
  {
    forall a: Entry, b: Entry ensures EntryLe(a, b) || EntryLe(b, a) {
      LexLeTotal(Lower(a.name), Lower(b.name));
    }
    forall a: Entry, b: Entry, c: Entry | EntryLe(a, b) && EntryLe(b, c) ensures EntryLe(a, c) {
      if a.isDir == b.isDir && b.isDir == c.isDir {
        LexLeTransitive(Lower(a.name), Lower(b.name), Lower(c.name));
      }
    }
  }

  /** `items.sort(key=...)`. */
  function SortEntries(items: seq<Entry>): seq<Entry> {
    Sort(items, EntryLe)
  }

  /** The listing order: the same rows, every folder before every file,
      lower-cased names non-decreasing among the folders and among the files,
      and rows whose keys tie kept in directory order. */
  lemma ListingOrder(items: seq<Entry>)
    ensures var out := SortEntries(items);
      && multiset(out) == multiset(items)
      && (forall i, j :: 0 <= i < j < |out| ==> out[i].isDir || !out[j].isDir)
      && (forall i, j :: 0 <= i < j < |out| && out[i].isDir == out[j].isDir ==>
            LexLe(Lower(out[i].name), Lower(out[j].name)))
      && (forall p :: Ties(out, EntryLe, p) == Ties(items, EntryLe, p))
  {
    EntryLeTotalPreorder();
    SortCorrect(items, EntryLe);
  }

  // ---------------------------------------------------------------------------
  // breadcrumbs
  // ---------------------------------------------------------------------------

  /** One step of the trail: the text shown and the subpath it links to. */
  datatype Crumb = Crumb(name: string, path: string)

  /** The first crumb's label ("home directory"). */
  const HomeName := "主目录"

  /** The trail: the home crumb, then, for a non-empty subpath, one crumb per
      `/`-separated part, linking to the parts up to and including it. */
  function Breadcrumbs(subpath: string): (cs: seq<Crumb>)
    ensures |cs| >= 1 && cs[0] == Crumb(HomeName, "")
  {
    var home := [Crumb(HomeName, "")];
    if subpath == "" then home else home + Trail(Split(subpath, '/'))
  }

  /** The crumbs after the home crumb: the `i`-th names part `i` and links to
      parts `0..i`. */
  function Trail(parts: seq<string>): (t: seq<Crumb>)
    ensures |t| == |parts|
  {
    seq(|parts|, i requires 0 <= i < |parts| => Crumb(parts[i], Join(parts[..i + 1], '/')))
  }

  /** The trail has one crumb per part after the home crumb, each crumb
      names its part, each links to a prefix of the subpath that ends where a
      part ends, splitting crumb `i`'s link gives back exactly the first `i`
      parts, and the last links to the subpath itself. */
  lemma BreadcrumbsAreAncestors(subpath: string)
    requires subpath != ""
    ensures var cs := Breadcrumbs(subpath);
      var parts := Split(subpath, '/');
      && |cs| == |parts| + 1
      && (forall i :: 1 <= i < |cs| ==> cs[i].name == parts[i - 1])
      && (forall i :: 1 <= i < |cs| ==> Split(cs[i].path, '/') == parts[..i])
      && (forall i :: 1 <= i < |cs| ==>
            StartsWith(subpath, cs[i].path)
            && (|cs[i].path| == |subpath| || subpath[|cs[i].path|] == '/'))
      && cs[|cs| - 1].path == subpath
  {
    var cs := Breadcrumbs(subpath);
    var parts := Split(subpath, '/');
    CrumbAt(subpath, |cs| - 1);
    assert cs[|cs| - 1].path == subpath;
    forall i | 1 <= i < |cs|
      ensures cs[i].name == parts[i - 1]
      ensures Split(cs[i].path, '/') == parts[..i]
      ensures StartsWith(subpath, cs[i].path)
      ensures |cs[i].path| == |subpath| || subpath[|cs[i].path|] == '/'
    {
      CrumbAt(subpath, i);
    }
  }

  /** The facts of `BreadcrumbsAreAncestors` for the single crumb `i`. */
  lemma CrumbAt(subpath: string, i: nat)
    requires subpath != "" && 1 <= i < |Breadcrumbs(subpath)|
    ensures var c := Breadcrumbs(subpath)[i];
      var parts := Split(subpath, '/');
      && |Breadcrumbs(subpath)| == |parts| + 1
      && c.name == parts[i - 1]
      && Split(c.path, '/') == parts[..i]
      && StartsWith(subpath, c.path)
      && (|c.path| == |subpath| || subpath[|c.path|] == '/')
      && (i == |Breadcrumbs(subpath)| - 1 ==> c.path == subpath)
  {
    var parts := Split(subpath, '/');
    var t := Trail(parts);
    assert Breadcrumbs(subpath)[i] == t[i - 1];
    JoinSplit(subpath, '/');
    PrefixCrumb(parts, i, subpath);
  }

  /** Crumb `i` of the trail of `parts`, whose join is `whole`, splits back
      into the first `i` parts and links to a prefix of `whole` that ends
      where a part ends; the last one links to `whole`. */
  lemma PrefixCrumb(parts: seq<string>, i: nat, whole: string)
    requires 1 <= i <= |parts|
    requires forall k :: 0 <= k < |parts| ==> '/' !in parts[k]
    requires Join(parts, '/') == whole
    ensures var p := Join(parts[..i], '/');
      && Split(p, '/') == parts[..i]
      && StartsWith(whole, p)
      && (|p| == |whole| || whole[|p|] == '/')
      && (i == |parts| ==> p == whole)
  {
    PrefixSplits(parts, i);
    JoinPrefix(parts, i, '/');
    if i == |parts| {
      assert parts[..i] == parts;
    }
  }

  /** The first `i` pieces of a split, joined again, split back into
      themselves. */
  lemma PrefixSplits(parts: seq<string>, i: nat)
    requires 1 <= i <= |parts|
    requires forall k :: 0 <= k < |parts| ==> '/' !in parts[k]
    ensures Split(Join(parts[..i], '/'), '/') == parts[..i]
  {
    var pre := parts[..i];
    assert forall k :: 0 <= k < |pre| ==> '/' !in pre[k];
    SplitJoin(pre, '/');
  }

  // ---------------------------------------------------------------------------
  // the page
  // ---------------------------------------------------------------------------

  /** The usage panel: the disk's own figures for the administrator and
      visitors, the member's quota and folder size otherwise. */
  datatype Usage = DiskUsage(diskTotal: nat, diskUsed: nat) | QuotaUsage(quota: int, folderUsed: nat)

  /** What `/` and `/browse/<subpath>` answer. `ServerError` is the
      exception `os.makedirs` raises when it cannot create a member's
      folder. */
  datatype Page =
    | LoginRequired
    | PasswordChangeRequired
    | ServerError
    | Forbidden
    | NoSuchFolder
    | Listed(items: seq<Entry>, crumbs: seq<Crumb>, usage: Usage, subpath: string)

  /** The page and the disk after the call: a member's folder that does not
      exist yet is created before it is listed. */
  datatype Rendered = Rendered(page: Page, after: Disk)

  /** A member whose folder does not exist yet: the listing creates it. */
  predicate CreatesRoot(who: Principal, cfg: Config, cwd: string, disk: Disk)
    requires IsAbs(cwd)
  {
    who.role == Member && Abspath(cwd, ReadRoot(who, cfg)) !in disk
  }

  /** `_render_file_list` behind the login and forced-password-change checks
      of its two routes (`root` and `browse`). `diskTotal` and `diskUsed` stand for
      `shutil.disk_usage`, `quotaGb` for the member's stored quota,
      `folderSize` for `get_folder_size`, and `names` and `stat` for
      `os.listdir` and `os.stat` of the listed folder when it existed before
      the call; a folder the call creates itself is empty. */
  function RenderFileList(session: Option<Principal>, cfg: Config, cwd: string,
                          disk: Disk, subpath: string, diskTotal: nat, diskUsed: nat, quotaGb: int,
                          folderSize: nat, names: seq<string>, stat: string -> Option<Stat>): (r: Rendered)
    requires IsAbs(cwd)
    ensures r.page.Forbidden? ==> false
    ensures r.page.ServerError? <==>
      && session.Some? && !session.value.mustChangePassword
      && CreatesRoot(session.value, cfg, cwd, disk)
      && MakeDirs(disk, Abspath(cwd, ReadRoot(session.value, cfg))).None?
    ensures r.after != disk ==>
      && session.Some? && !session.value.mustChangePassword
      && CreatesRoot(session.value, cfg, cwd, disk)
      && MakeDirs(disk, Abspath(cwd, ReadRoot(session.value, cfg))) == Some(r.after)
    ensures r.page.Listed? ==>
      && session.Some? && !session.value.mustChangePassword
      && IsDir(r.after, Extend(Abspath(cwd, ReadRoot(session.value, cfg)), Sanitize(subpath)))
      && (!CreatesRoot(session.value, cfg, cwd, disk) ==> multiset(r.page.items) == multiset(Collect(names, stat)))
      && (!CreatesRoot(session.value, cfg, cwd, disk) ==> r.page.items == SortEntries(Collect(names, stat)))
      && (forall i, j :: 0 <= i < j < |r.page.items| ==> r.page.items[i].isDir || !r.page.items[j].isDir)
      && (forall i, j :: 0 <= i < j < |r.page.items| && r.page.items[i].isDir == r.page.items[j].isDir ==>
            LexLe(Lower(r.page.items[i].name), Lower(r.page.items[j].name)))
      && r.page.crumbs == Breadcrumbs(subpath)
    ensures r.page.NoSuchFolder? ==>
      session.Some? && !IsDir(r.after, Extend(Abspath(cwd, ReadRoot(session.value, cfg)), Sanitize(subpath)))
    ensures (session.Some? && !session.value.mustChangePassword && !CreatesRoot(session.value, cfg, cwd, disk)
      && IsDir(disk, Extend(Abspath(cwd, ReadRoot(session.value, cfg)), Sanitize(subpath)))) ==>
      r.page.Listed? && r.after == disk
    ensures (session.Some? && !session.value.mustChangePassword && CreatesRoot(session.value, cfg, cwd, disk)
      && MakeDirs(disk, Abspath(cwd, ReadRoot(session.value, cfg))).Some? && Sanitize(subpath) == "") ==>
      r.page.Listed? && r.page.items == [] && IsDir(r.after, Abspath(cwd, ReadRoot(session.value, cfg)))
  {
    if session.None? then Rendered(LoginRequired, disk)
    else if session.value.mustChangePassword then Rendered(PasswordChangeRequired, disk)
    else
      var who := session.value;
      var base := ReadRoot(who, cfg);
      var root := Abspath(cwd, base);
      var creating := CreatesRoot(who, cfg, cwd, disk);
      var made := if creating then MakeDirs(disk, root) else Some(disk);
      match made
      case None => Rendered(ServerError, disk)
      case Some(now) =>
        var usage := if who.role == Member then QuotaUsage(quotaGb * Upload.GiB, folderSize)
                     else DiskUsage(diskTotal, diskUsed);
        match Confine(cwd, base, subpath)
        case None => Rendered(Forbidden, now)
        case Some(current) =>
          var abs := Abspath(cwd, current);
          if !IsDir(now, abs) then Rendered(NoSuchFolder, now)
          else if creating && abs == root then Rendered(Listed([], Breadcrumbs(subpath), usage, subpath), now)
          else
            var items := SortEntries(Collect(names, stat));
            ListingOrder(Collect(names, stat));
            Rendered(Listed(items, Breadcrumbs(subpath), usage, subpath), now)
  }
}

=== FILE: posix_path.dfy ===
/** Python's `posixpath` functions that the file manager calls: `normpath`,
    `join`, `abspath` (with the working directory as a parameter), `dirname`,
    `basename` and `splitext`. They are purely textual: no symbolic link is
    resolved and no file is touched. */
module PosixPath {
  import opened Strings

  /** `os.path.isabs(p)`. */
  predicate IsAbs(p: string) {
    |p| > 0 && p[0] == '/'
  }

  /** A run of `k` slashes. */
  function Slashes(k: nat): (r: string)
    ensures |r| == k
    ensures forall i :: 0 <= i < k ==> r[i] == '/'
  {
    if k == 0 then "" else "/" + Slashes(k - 1)
  }

  // ---------------------------------------------------------------------------
  // normpath
  // ---------------------------------------------------------------------------

  /** How many leading slashes `normpath` keeps: POSIX lets exactly two leading
      slashes mean something of their own, while three or more count as one. */
  function InitialSlashes(p: string): nat {
    if !IsAbs(p) then 0
    else if |p| >= 2 && p[1] == '/' && !(|p| >= 3 && p[2] == '/') then 2
    else 1
  }

  /** One turn of `normpath`'s loop over the `/`-separated components:
      empty and `.` components vanish, `..` pops the previous component, and a
      `..` with nothing to pop is kept in a relative path and dropped in an
      absolute one. */
  function Step(absolute: bool, stack: seq<string>, comp: string): seq<string> {
    if comp == "" || comp == "." then stack
    else if comp != ".." || (!absolute && |stack| == 0) || (|stack| > 0 && stack[|stack| - 1] == "..") then
      stack + [comp]
    else if |stack| > 0 then stack[..|stack| - 1]
    else stack
  }

  /** The whole loop. */
  function Fold(absolute: bool, stack: seq<string>, comps: seq<string>): seq<string>
    decreases |comps|
  {
    if |comps| == 0 then stack else Fold(absolute, Step(absolute, stack, comps[0]), comps[1..])
  }

  /** The components `normpath` keeps for `p`. */
  function Components(p: string): seq<string> {
    Fold(InitialSlashes(p) > 0, [], Split(p, '/'))
  }

  /** `os.path.normpath(p)` on POSIX. */
  function Normpath(p: string): (r: string)
    ensures r != ""
    ensures IsAbs(p) ==> IsAbs(r) && StartsWith(r, Slashes(InitialSlashes(p)))
  {
    if p == "" then "."
    else
      var body := Slashes(InitialSlashes(p)) + Join(Components(p), '/');
      if body == "" then "." else body
  }

  /** A component a path can contain after normalisation that still names
      something below the directory it is in. */
  predicate CleanComponent(c: string) {
    c != "" && c != "." && c != ".." && '/' !in c
  }

  /** What `normpath`'s loop keeps: no empty or `.` components, no slash inside
      a component, `..` only in a leading run, and no `..` at all when the path
      is absolute. */
  predicate NormalStack(absolute: bool, st: seq<string>) {
    && (forall i :: 0 <= i < |st| ==> st[i] != "" && st[i] != "." && '/' !in st[i])
    && (forall i, j :: 0 <= i < j < |st| && st[j] == ".." ==> st[i] == "..")
    && (absolute ==> forall i :: 0 <= i < |st| ==> st[i] != "..")
  }

  lemma StepNormal(absolute: bool, st: seq<string>, comp: string)
    requires NormalStack(absolute, st) && '/' !in comp
    ensures NormalStack(absolute, Step(absolute, st, comp))
  {
    var r := Step(absolute, st, comp);
    if comp == ".." && |st| > 0 && st[|st| - 1] == ".." {
      assert r == st + [comp];
      forall i, j | 0 <= i < j < |r| && r[j] == ".."
        ensures r[i] == ".."
      {
        if j == |st| {
          assert st[i] == "..";
        }
      }
    }
  }

  /** The loop keeps its stack normal. */
  lemma {:induction false} FoldNormal(absolute: bool, st: seq<string>, comps: seq<string>)
    requires NormalStack(absolute, st)
    requires forall i :: 0 <= i < |comps| ==> '/' !in comps[i]
    ensures NormalStack(absolute, Fold(absolute, st, comps))
    decreases |comps|
  {
    if |comps| > 0 {
      StepNormal(absolute, st, comps[0]);
      FoldNormal(absolute, Step(absolute, st, comps[0]), comps[1..]);
    }
  }

  /** The loop over a concatenation is the loop over each part in turn. */
  lemma {:induction false} FoldAppend(absolute: bool, st: seq<string>, xs: seq<string>, ys: seq<string>)
    ensures Fold(absolute, st, xs + ys) == Fold(absolute, Fold(absolute, st, xs), ys)
    decreases |xs|
  {
    if |xs| == 0 {
      assert xs + ys == ys;
    } else {
      assert (xs + ys)[0] == xs[0];
      assert (xs + ys)[1..] == xs[1..] + ys;
      FoldAppend(absolute, Step(absolute, st, xs[0]), xs[1..], ys);
    }
  }

  /** Clean components are simply pushed, whatever is on the stack. */
  lemma {:induction false} FoldClean(absolute: bool, st: seq<string>, comps: seq<string>)
    requires forall i :: 0 <= i < |comps| ==> CleanComponent(comps[i])
    ensures Fold(absolute, st, comps) == st + comps
    decreases |comps|
  {
    if |comps| > 0 {
      FoldClean(absolute, st + [comps[0]], comps[1..]);
      assert st + [comps[0]] + comps[1..] == st + comps;
    }
  }

  /** Folding the rest of an already normal stack keeps every component. */
  lemma {:induction false} FoldNormalKeeps(absolute: bool, st: seq<string>, xs: seq<string>)
    requires NormalStack(absolute, st + xs)
    ensures Fold(absolute, st, xs) == st + xs
    decreases |xs|
  {
    if |xs| > 0 {
      var all := st + xs;
      assert all[|st|] == xs[0];
      if xs[0] == ".." {
        forall i | 0 <= i < |st|
          ensures st[i] == ".."
        {
          assert all[i] == st[i];
        }
      }
      assert Step(absolute, st, xs[0]) == st + [xs[0]];
      assert st + [xs[0]] + xs[1..] == all;
      FoldNormalKeeps(absolute, st + [xs[0]], xs[1..]);
    }
  }

  /** The components `normpath` keeps are normal. */
  lemma ComponentsNormal(p: string)
    ensures NormalStack(InitialSlashes(p) > 0, Components(p))
  {
    FoldNormal(InitialSlashes(p) > 0, [], Split(p, '/'));
  }

  /** The join of a normal stack neither begins nor ends with a slash, and is
      empty only for the empty stack. */
  lemma {:induction false} JoinNormal(absolute: bool, st: seq<string>)
    requires NormalStack(absolute, st)
    ensures var j := Join(st, '/');
      && (|st| == 0 <==> j == "")
      && (j != "" ==> j[0] != '/' && j[|j| - 1] != '/')
    decreases |st|
  {
    if |st| > 1 {
      JoinNormal(absolute, st[1..]);
    }
  }

  /** `normpath` keeps relative paths relative. */
  lemma NormpathRelative(p: string)
    requires !IsAbs(p)
    ensures !IsAbs(Normpath(p))
  {
    ComponentsNormal(p);
    JoinNormal(false, Components(p));
  }

  /** The slashes a normalised absolute path starts with are the ones it keeps. */
  lemma InitialSlashesOfNormal(k: nat, st: seq<string>)
    requires 1 <= k <= 2 && NormalStack(true, st)
    ensures InitialSlashes(Slashes(k) + Join(st, '/')) == k
  {
    JoinNormal(true, st);
  }

  /** A leading empty component is skipped by the loop. */
  lemma FoldSkipEmpty(absolute: bool, st: seq<string>, comps: seq<string>)
    ensures Fold(absolute, st, [""] + comps) == Fold(absolute, st, comps)
  {
    assert ([""] + comps)[1..] == comps;
  }

  /** A leading slash splits off an empty component. */
  lemma SplitLeadingSlash(x: string)
    ensures Split(['/'] + x, '/') == [""] + Split(x, '/')
  {
    assert (['/'] + x)[1..] == x;
  }

  /** Splitting a normalised absolute path. */
  lemma SplitNormalAbsolute(k: nat, st: seq<string>)
    requires 1 <= k <= 2 && NormalStack(true, st)
    ensures Fold(true, [], Split(Slashes(k) + Join(st, '/'), '/')) == st
  {
    var j := Join(st, '/');
    FoldJoinedStack(st);
    var once := ['/'] + j;
    SlashFolds(j);
    if k == 2 {
      assert Slashes(k) + j == ['/'] + once;
      SlashFolds(once);
    } else {
      assert Slashes(k) + j == once;
    }
  }

  /** Folding the components of a normal stack's join gives the stack. */
  lemma FoldJoinedStack(st: seq<string>)
    requires NormalStack(true, st)
    ensures Fold(true, [], Split(Join(st, '/'), '/')) == st
  {
    if |st| == 0 {
      assert Join(st, '/') == "";
      assert Fold(true, [], Split("", '/')) == [];
    } else {
      SplitJoin(st, '/');
      FoldNormalKeeps(true, [], st);
    }
  }

  /** One more leading slash does not change what an absolute path folds to. */
  lemma SlashFolds(x: string)
    ensures Fold(true, [], Split(['/'] + x, '/')) == Fold(true, [], Split(x, '/'))
  {
    SplitLeadingSlash(x);
    FoldSkipEmpty(true, [], Split(x, '/'));
  }

  /** A path already in normal form, its kept slashes followed by the join of
      a normal stack, is its own `normpath`. */
  lemma NormalFixed(k: nat, st: seq<string>)
    requires k <= 2 && NormalStack(k > 0, st)
    requires k == 0 ==> |st| > 0
    ensures Normpath(Slashes(k) + Join(st, '/')) == Slashes(k) + Join(st, '/')
  {
    var j := Join(st, '/');
    var n := Slashes(k) + j;
    JoinNormal(k > 0, st);
    if k > 0 {
      assert InitialSlashes(n) == k by {
        InitialSlashesOfNormal(k, st);
      }
      assert Components(n) == st by {
        SplitNormalAbsolute(k, st);
      }
    } else {
      assert n == j && j != "" && !IsAbs(n);
      assert Components(n) == st by {
        SplitJoin(st, '/');
        FoldNormalKeeps(false, [], st);
        assert [] + st == st;
      }
    }
  }

  /** `normpath(".")` is `"."`. */
  lemma NormpathDot()
    ensures Normpath(".") == "."
  {
    SplitNoSep(".", '/');
    assert Components(".") == [];
  }

  /** `normpath` is idempotent: normalising a normalised path changes nothing. */
  lemma NormpathIdempotent(p: string)
    ensures Normpath(Normpath(p)) == Normpath(p)
  {
    var n := Normpath(p);
    if n == "." {
      NormpathDot();
    } else {
      var k := InitialSlashes(p);
      var st := Components(p);
      assert n == Slashes(k) + Join(st, '/');
      assert NormalStack(k > 0, st) by {
        ComponentsNormal(p);
      }
      assert k == 0 ==> |st| > 0;
      NormalFixed(k, st);
    }
  }

  // ---------------------------------------------------------------------------
  // join / abspath
  // ---------------------------------------------------------------------------

  /** `os.path.join(a, b)`: an absolute `b` replaces `a`; otherwise one slash
      goes between them unless `a` is empty or already ends in one. */
  function JoinPath(a: string, b: string): (r: string)
    ensures !IsAbs(b) ==> StartsWith(r, a)
    ensures !IsAbs(b) && IsAbs(a) ==> IsAbs(r)
  {
    if IsAbs(b) then b
    else if a == "" || a[|a| - 1] == '/' then a + b
    else a + "/" + b
  }

  /** `normpath`'s loop over a joined path is its loop over each side in turn. */
  lemma FoldJoinPath(absolute: bool, st: seq<string>, a: string, b: string)
    requires !IsAbs(b)
    ensures Fold(absolute, st, Split(JoinPath(a, b), '/'))
         == Fold(absolute, Fold(absolute, st, Split(a, '/')), Split(b, '/'))
  {
    if a == "" {
      assert Split(a, '/') == [""];
    } else if a[|a| - 1] == '/' {
      var a' := a[..|a| - 1];
      assert a == a' + ['/'] + "";
      assert JoinPath(a, b) == a' + ['/'] + b;
      SplitAround(a', "", '/');
      SplitAround(a', b, '/');
      FoldAppend(absolute, st, Split(a', '/'), [""]);
      FoldAppend(absolute, st, Split(a', '/'), Split(b, '/'));
    } else {
      assert JoinPath(a, b) == a + ['/'] + b;
      SplitAround(a, b, '/');
      FoldAppend(absolute, st, Split(a, '/'), Split(b, '/'));
    }
  }

  /** Joining a relative path onto an absolute one keeps its leading slashes. */
  lemma InitialSlashesJoinPath(a: string, b: string)
    requires IsAbs(a) && !IsAbs(b)
    ensures InitialSlashes(JoinPath(a, b)) == InitialSlashes(a)
  {
    var r := JoinPath(a, b);
    if |a| >= 3 {
      assert r[..3] == a[..3];
    } else if |a| == 2 {
      assert r[..2] == a;
    }
  }

  /** `os.path.abspath(p)` with `os.getcwd()` given as `cwd`. */
  function Abspath(cwd: string, p: string): (r: string)
    requires IsAbs(cwd)
    ensures IsAbs(r)
  {
    if IsAbs(p) then Normpath(p) else Normpath(JoinPath(cwd, p))
  }

  // ---------------------------------------------------------------------------
  // dirname / basename / splitext
  // ---------------------------------------------------------------------------

  /** `p.rfind(c)`: the index of the last `c`, or -1 when there is none. */
  function LastIndexOf(p: string, c: char): (i: int)
    ensures -1 <= i < |p|
    ensures i >= 0 ==> p[i] == c
    ensures forall j :: i < j < |p| ==> p[j] != c
  {
    if |p| == 0 then -1
    else if p[|p| - 1] == c then |p| - 1
    else LastIndexOf(p[..|p| - 1], c)
  }

  /** `os.path.basename(p)`: the longest slash-free suffix of `p`. */
  function Basename(p: string): (r: string)
    ensures '/' !in r
    ensures |r| <= |p| && r == p[|p| - |r|..]
    ensures |r| < |p| ==> p[|p| - |r| - 1] == '/'
  {
    p[LastIndexOf(p, '/') + 1..]
  }

  /** The last component of a path joined onto a folder is the last
      component of the joined part, which is empty when that part is. */
  lemma BasenameJoin(a: string, b: string)
    requires !IsAbs(b)
    ensures Basename(JoinPath(a, b)) == Basename(b)
  {
    if a == "" {
      assert JoinPath(a, b) == b;
    } else if a[|a| - 1] == '/' {
      assert JoinPath(a, b) == a + b;
      BasenameAfterSlash(a, b);
    } else {
      assert JoinPath(a, b) == (a + "/") + b;
      BasenameAfterSlash(a + "/", b);
    }
  }

  /** Whatever precedes a final slash does not change the last component. */
  lemma BasenameAfterSlash(x: string, b: string)
    requires x != "" && x[|x| - 1] == '/'
    ensures Basename(x + b) == Basename(b)
  {
    var p := x + b;
    var k := LastIndexOf(b, '/');
    var i := if k >= 0 then |x| + k else |x| - 1;
    assert p[i] == '/';
    forall j | i < j < |p| ensures p[j] != '/' {
      assert p[j] == b[j - |x|];
    }
    LastIndexOfUnique(p, '/', i);
    assert p[i + 1..] == b[k + 1..];
  }

  /** `os.path.dirname(p)`: everything up to the last slash, with trailing
      slashes removed unless that would leave nothing but slashes. */
  function Dirname(p: string): (r: string)
    ensures StartsWith(p, r)
    ensures r == "" <==> '/' !in p
  {
    var head := p[..LastIndexOf(p, '/') + 1];
    if head != "" && head != Slashes(|head|) then RStrip(head, {'/'}) else head
  }

  /** `os.path.splitext(p)`: the extension starts at the last dot of the final
      component, unless only dots precede that dot in the component. */
  function Splitext(p: string): (parts: (string, string))
    ensures parts.0 + parts.1 == p
    ensures parts.1 == "" || (parts.1[0] == '.' && '.' !in parts.1[1..] && '/' !in parts.1)
  {
    var sepIndex := LastIndexOf(p, '/');
    var dotIndex := LastIndexOf(p, '.');
    if dotIndex > sepIndex && exists i :: sepIndex + 1 <= i < dotIndex && p[i] != '.' then
      (p[..dotIndex], p[dotIndex..])
    else
      (p, "")
  }

  /** The index the three properties of `LastIndexOf` describe is unique. */
  lemma LastIndexOfUnique(p: string, c: char, i: int)
    requires -1 <= i < |p|
    requires i >= 0 ==> p[i] == c
    requires forall j :: i < j < |p| ==> p[j] != c
    ensures LastIndexOf(p, c) == i
  {
  }

  /** A stem whose final component holds something other than dots,
      followed by a dot and a dot-free, slash-free tail, splits into exactly
      that stem and that extension. */
  lemma SplitextOf(stem: string, ext: string)
    requires |ext| > 0 && ext[0] == '.' && '.' !in ext[1..] && '/' !in ext
    requires exists i :: LastIndexOf(stem, '/') < i < |stem| && stem[i] != '.'
    ensures Splitext(stem + ext) == (stem, ext)
  {
    var p := stem + ext;
    var k := LastIndexOf(stem, '/');
    forall j | k < j < |p| ensures p[j] != '/' {
      if j >= |stem| {
        assert p[j] == ext[j - |stem|];
      }
    }
    LastIndexOfUnique(p, '/', k);
    forall j | |stem| < j < |p| ensures p[j] != '.' {
      assert p[j] == ext[1..][j - |stem| - 1];
    }
    LastIndexOfUnique(p, '.', |stem|);
    var i :| k < i < |stem| && stem[i] != '.';
    assert p[i] == stem[i];
    assert p[..|stem|] == stem && p[|stem|..] == ext;
  }
}

=== FILE: range_request.dfy ===
/** The `/filedata/<path>` route: parsing the `Range` header with
    `re.search(r'bytes=(\d+)-(\d*)', header)`, the response headers it
    prepares, the bounded chunk loop of `generate()` and the unbounded one of
    `generate_full()`, and what the route sends.

    As written, the 206 response is returned from inside `generate()`, which
    nothing calls, so the route always streams the whole file with status 200
    (`FileDataAsWritten`). `FileDataCorrected` returns the 206 response for a
    matched range, as the prepared headers show was intended. */
module RangeRequest {
  import opened Results
  import opened Strings
  import opened Storage
  import opened PosixPath
  import opened Confinement

  /** `f.read(4096)`: the largest chunk either loop asks for. */
  const ChunkSize := 4096

  /** The literal the pattern starts with. */
  const Unit := "bytes="

  // ---------------------------------------------------------------------------
  // the regular expression
  // ---------------------------------------------------------------------------

  /** How many ASCII digits follow position `i`: what a greedy `\d*` takes. */
  function DigitRun(s: string, i: nat): (n: nat)
    requires i <= |s|
    ensures i + n <= |s|
    ensures forall k :: i <= k < i + n ==> IsDigit(s[k])
    ensures i + n == |s| || !IsDigit(s[i + n])
    decreases |s| - i
  {
    if i < |s| && IsDigit(s[i]) then 1 + DigitRun(s, i + 1) else 0
  }

  /** A run of digits that ends at a non-digit is the whole run. */
  lemma {:induction false} DigitRunOf(s: string, i: nat, n: nat)
    requires i + n <= |s|
    requires forall k :: i <= k < i + n ==> IsDigit(s[k])
    requires i + n == |s| || !IsDigit(s[i + n])
    ensures DigitRun(s, i) == n
    decreases n
  {
    if n > 0 {
      DigitRunOf(s, i + 1, n - 1);
    }
  }

  /** `bytes=(\d+)-(\d*)` matches at position `i`. Since `-` is not a digit,
      the greedy `\d+` never needs to give a digit back. */
  predicate MatchesAt(s: string, i: nat) {
    i + |Unit| <= |s| && s[i..i + |Unit|] == Unit &&
    var d := DigitRun(s, i + |Unit|);
    d > 0 && i + |Unit| + d < |s| && s[i + |Unit| + d] == '-'
  }

  /** The two groups of a match. */
  datatype RangeSpec = RangeSpec(first: string, last: string)

  /** The groups of the match at `i`: the text it spans is `bytes=`, the
      first group, `-` and the second group, the first group is a non-empty
      run of digits, and the second takes every digit that follows. */
  function MatchAt(s: string, i: nat): (m: RangeSpec)
    requires MatchesAt(s, i)
    ensures m.first != "" && AllDigits(m.first) && AllDigits(m.last)
    ensures var e := i + |Unit| + |m.first| + 1 + |m.last|;
      && e <= |s|
      && s[i..e] == Unit + m.first + "-" + m.last
      && (e == |s| || !IsDigit(s[e]))
  {
    var a := i + |Unit|;
    var d := DigitRun(s, a);
    var b := a + d + 1;
    var e := b + DigitRun(s, b);
    var m := RangeSpec(s[a..a + d], s[b..e]);
    assert s[i..e] == Unit + m.first + "-" + m.last by {
      assert s[a + d..b] == "-";
      SliceSplit(s, i, a, a + d, b, e);
    }
    m
  }

  /** A slice cut at three inner points is the concatenation of the four pieces. */
  lemma SliceSplit(s: string, i: nat, j: nat, k: nat, l: nat, e: nat)
    requires i <= j <= k <= l <= e <= |s|
    ensures s[i..e] == s[i..j] + s[j..k] + s[k..l] + s[l..e]
  {
    assert s[i..l] == s[i..j] + s[j..k] + s[k..l] by {
      assert s[i..l] == s[i..k] + s[k..l];
      assert s[i..k] == s[i..j] + s[j..k];
    }
    assert s[i..e] == s[i..l] + s[l..e];
  }

  /** A run of digits written at `i` and ended by a non-digit or the end is
      what the greedy `\d` loop takes there. */
  lemma DigitsAt(s: string, i: nat, t: string)
    requires i + |t| <= |s| && s[i..i + |t|] == t && AllDigits(t)
    requires i + |t| == |s| || !IsDigit(s[i + |t|])
    ensures DigitRun(s, i) == |t|
  {
    forall k | i <= k < i + |t| ensures IsDigit(s[k]) {
      assert s[k] == t[k - i];
    }
    DigitRunOf(s, i, |t|);
  }

  /** Conversely, a header that starts with text of the pattern's shape is
      matched at its start, with the groups it was built from. */
  lemma MatchOfShape(first: string, last: string, rest: string)
    requires first != "" && AllDigits(first) && AllDigits(last)
    requires rest == "" || !IsDigit(rest[0])
    ensures var s := Unit + first + "-" + last + rest;
      MatchesAt(s, 0) && MatchAt(s, 0) == RangeSpec(first, last)
  {
    var s := Unit + first + "-" + last + rest;
    var a := |Unit|;
    var b := a + |first| + 1;
    assert s[..a] == Unit && s[a..a + |first|] == first && s[a + |first|] == '-' && s[b..b + |last|] == last;
    assert DigitRun(s, a) == |first| by {
      DigitsAt(s, a, first);
    }
    assert DigitRun(s, b) == |last| by {
      assert b + |last| == |s| || s[b + |last|] == rest[0];
      DigitsAt(s, b, last);
    }
  }

  /** `re.search` from position `from`: the leftmost position where the
      pattern matches, if any. */
  function Search(s: string, from: nat): (r: Option<nat>)
    requires from <= |s|
    ensures r.Some? ==> from <= r.value <= |s| && MatchesAt(s, r.value)
    ensures r.Some? ==> forall j :: from <= j < r.value ==> !MatchesAt(s, j)
    ensures r.None? ==> forall j :: from <= j <= |s| ==> !MatchesAt(s, j)
    decreases |s| - from
  {
    if MatchesAt(s, from) then Some(from)
    else if from == |s| then None
    else Search(s, from + 1)
  }

  /** `re.search(r'bytes=(\d+)-(\d*)', header)` and its groups. */
  function RangeMatch(header: string): Option<RangeSpec> {
    match Search(header, 0)
    case Some(i) => Some(MatchAt(header, i))
    case None => None
  }

  // ---------------------------------------------------------------------------
  // the plan: start and length
  // ---------------------------------------------------------------------------

  /** Where the read starts, how many bytes it asks for, and whether a range
      was matched. The length is negative for `bytes=5-2`: nothing checks it. */
  datatype Plan = Plan(start: nat, length: int, ranged: bool)

  /** `start = 0; length = file_size`, then, for a non-empty header whose
      search matches, the first group as the start and either the inclusive
      end or the rest of the file as the length. */
  function ParseRange(header: Option<string>, size: nat): (p: Plan)
    ensures p.ranged <==> header.Some? && RangeMatch(header.value).Some?
    ensures !p.ranged ==> p.start == 0 && p.length == size
    ensures p.ranged ==> var m := RangeMatch(header.value).value;
      && p.start == ParseNat(m.first)
      && (m.last != "" ==> p.start + p.length - 1 == ParseNat(m.last))
      && (m.last == "" ==> p.start + p.length == size)
  {
    var h := header.GetOr("");
    if h == "" then
      assert Search(h, 0).None? by {
        assert !MatchesAt(h, 0);
      }
      Plan(0, size, false)
    else
      match RangeMatch(h)
      case None => Plan(0, size, false)
      case Some(m) =>
        var start := ParseNat(m.first);
        if m.last != "" then Plan(start, ParseNat(m.last) - start + 1, true)
        else Plan(start, size - start, true)
  }

  /** The plan a matched header yields, stated through its groups alone. */
  lemma ParsePlan(h: string, size: nat, m: RangeSpec)
    requires RangeMatch(h) == Some(m)
    ensures var start := ParseNat(m.first);
      ParseRange(Some(h), size)
        == if m.last != "" then Plan(start, ParseNat(m.last) - start + 1, true) else Plan(start, size - start, true)
  {
  }

  /** Python `str(i)` on any integer. */
  function ShowInt(i: int): (r: string)
    ensures i >= 0 ==> r == ShowNat(i)
  {
    if i < 0 then "-" + ShowNat(-i) else ShowNat(i)
  }

  /** The last byte position a plan announces: `start + length - 1`. */
  function LastByte(p: Plan): int {
    p.start + p.length - 1
  }

  /** The `Content-Range` value the route prepares. */
  function ContentRange(p: Plan, size: nat): string {
    "bytes " + ShowNat(p.start) + "-" + ShowInt(LastByte(p)) + "/" + ShowNat(size)
  }

  /** A closed range `bytes=S-E` asks for `E - S + 1` bytes from `S`, and the
      prepared `Content-Range` echoes `S` and `E`. */
  lemma ClosedRangeRoundTrip(s: nat, e: nat, size: nat)
    ensures var p := ParseRange(Some(Unit + ShowNat(s) + "-" + ShowNat(e)), size);
      && p == Plan(s, e - s + 1, true)
      && ContentRange(p, size) == "bytes " + ShowNat(s) + "-" + ShowNat(e) + "/" + ShowNat(size)
  {
    var h := Unit + ShowNat(s) + "-" + ShowNat(e);
    var p := Plan(s, e - s + 1, true);
    assert ParseRange(Some(h), size) == p by {
      ClosedRangeMatch(s, e);
      ParsePlan(h, size, RangeSpec(ShowNat(s), ShowNat(e)));
      ParseShow(s);
      ParseShow(e);
    }
    assert ShowInt(LastByte(p)) == ShowNat(e) by {
      assert LastByte(p) == e;
    }
  }

  /** The pattern finds both numbers of a closed range header. */
  lemma ClosedRangeMatch(s: nat, e: nat)
    ensures RangeMatch(Unit + ShowNat(s) + "-" + ShowNat(e)) == Some(RangeSpec(ShowNat(s), ShowNat(e)))
  {
    var h := Unit + ShowNat(s) + "-" + ShowNat(e);
    assert h == h + "";
    MatchOfShape(ShowNat(s), ShowNat(e), "");
  }

  /** An open range `bytes=S-` asks for the rest of the file, and the
      prepared `Content-Range` ends at the file's last byte. */
  lemma OpenRangeRoundTrip(s: nat, size: nat)
    ensures var p := ParseRange(Some(Unit + ShowNat(s) + "-"), size);
      && p == Plan(s, size - s, true)
      && LastByte(p) == size - 1
  {
    var h := Unit + ShowNat(s) + "-";
    assert RangeMatch(h) == Some(RangeSpec(ShowNat(s), "")) by {
      assert h == Unit + ShowNat(s) + "-" + "" + "";
      MatchOfShape(ShowNat(s), "", "");
    }
    ParseShow(s);
  }

  /** Worked case: a header the pattern does not match leaves the plan at the
      whole file. */
  lemma UnmatchedRangeExample(size: nat)
    ensures ParseRange(Some("bytes=abc"), size) == Plan(0, size, false)
  {
    var h := "bytes=abc";
    assert !MatchesAt(h, 0) by {
      assert h[6] == 'a';
      DigitRunOf(h, 6, 0);
    }
    forall j | 1 <= j <= |h| ensures !MatchesAt(h, j) {
      if j + |Unit| <= |h| {
        assert h[j..j + |Unit|][0] == h[j] != 'b';
      }
    }
  }

  // ---------------------------------------------------------------------------
  // the chunk loops
  // ---------------------------------------------------------------------------

  /** `f.seek(pos); f.read(n)`: at most `n` bytes, fewer at the end of the
      file, none past it. */
  function Read(file: seq<byte>, pos: nat, n: nat): (data: seq<byte>)
    ensures |data| <= n
    ensures pos < |file| && n > 0 ==> |data| > 0
    ensures pos + |data| <= |file| ==> data == file[pos..pos + |data|]
  {
    if pos >= |file| then []
    else if pos + n <= |file| then file[pos..pos + n]
    else file[pos..]
  }

  /** The bytes of `file` that `length` bytes from `start` cover: the file is
      cut at both ends, and a non-positive length covers nothing. */
  function RangeBytes(file: seq<byte>, start: nat, length: int): (r: seq<byte>)
    ensures |r| <= if length > 0 then length else 0
  {
    if start >= |file| || length <= 0 then []
    else if start + length <= |file| then file[start..start + length]
    else file[start..]
  }

  /** A read right after the covered part extends it by what it returns. */
  lemma RangeBytesExtend(file: seq<byte>, start: nat, n: nat, k: nat)
    requires n == 0 || start + n <= |file|
    ensures var data := Read(file, start + n, k);
      RangeBytes(file, start, n) + data == RangeBytes(file, start, n + |data|)
  {
    var data := Read(file, start + n, k);
    if start + n < |file| && |data| > 0 {
      assert file[start..start + n] + data == file[start..start + n + |data|];
    }
  }

  /** Once the covered part reaches the end of the file, asking for more
      covers nothing more. */
  lemma RangeBytesPastEnd(file: seq<byte>, start: nat, n: nat, length: int)
    requires n <= length
    requires start + n >= |file|
    ensures RangeBytes(file, start, n) == RangeBytes(file, start, length)
  {
  }

  /** Every chunk holds between 1 and 4096 bytes. */
  predicate Bounded(chunks: seq<seq<byte>>) {
    forall i :: 0 <= i < |chunks| ==> 0 < |chunks[i]| <= ChunkSize
  }

  /** Appending a chunk of the right size keeps the chunks bounded. */
  lemma BoundedSnoc(chunks: seq<seq<byte>>, data: seq<byte>)
    requires Bounded(chunks) && 0 < |data| <= ChunkSize
    ensures Bounded(chunks + [data])
  {
    var c := chunks + [data];
    forall i | 0 <= i < |c| ensures 0 < |c[i]| <= ChunkSize {
      if i < |chunks| {
        assert c[i] == chunks[i];
      }
    }
  }

  /** `generate()`: chunks of at most 4096 bytes read from `start` until
      `length` bytes have been read or a read comes back empty. The chunks
      are never empty and add up to exactly the covered part of the file. */
  method ReadRange(file: seq<byte>, start: nat, length: int) returns (chunks: seq<seq<byte>>)
    ensures Concat(chunks) == RangeBytes(file, start, length)
    ensures Bounded(chunks)
  {
    chunks := [];
    var got: nat := 0;
    var remaining := length;
    while remaining > 0
      invariant remaining == length - got
      invariant length > 0 ==> remaining >= 0
      invariant length <= 0 ==> got == 0
      invariant got > 0 ==> start + got <= |file|
      invariant Concat(chunks) == RangeBytes(file, start, got)
      invariant Bounded(chunks)
      decreases remaining
    {
      var n: nat := if remaining < ChunkSize then remaining else ChunkSize;
      var data := Read(file, start + got, n);
      if |data| == 0 {
        RangeBytesPastEnd(file, start, got, length);
        return;
      }
      RangeBytesExtend(file, start, got, n);
      ConcatSnoc(chunks, data);
      BoundedSnoc(chunks, data);
      chunks := chunks + [data];
      got := got + |data|;
      remaining := remaining - |data|;
    }
    assert got == length || (length <= 0 && got == 0);
  }

  /** `generate_full()`: chunks of at most 4096 bytes until a read comes back
      empty; they add up to the whole file. */
  method ReadWhole(file: seq<byte>) returns (chunks: seq<seq<byte>>)
    ensures Concat(chunks) == file
    ensures Bounded(chunks)
  {
    chunks := [];
    var pos := 0;
    while true
      invariant pos <= |file|
      invariant Concat(chunks) == file[..pos]
      invariant Bounded(chunks)
      decreases |file| - pos
    {
      var data := Read(file, pos, ChunkSize);
      if |data| == 0 {
        break;
      }
      ConcatSnoc(chunks, data);
      BoundedSnoc(chunks, data);
      assert file[..pos] + data == file[..pos + |data|];
      chunks := chunks + [data];
      pos := pos + |data|;
    }
  }

  // ---------------------------------------------------------------------------
  // the route
  // ---------------------------------------------------------------------------

  /** The headers of a streamed response; the two range headers are absent
      from the full response. */
  datatype Headers = Headers(
    contentRange: Option<string>,
    acceptRanges: Option<string>,
    contentLength: string,
    contentType: string)

  /** What `/filedata/<path>` answers: an error text with its status, a
      streamed body, or a stream that fails on opening a directory after the
      status line has gone out. */
  datatype Reply =
    | Refused(status: nat, text: string)
    | Streamed(status: nat, headers: Headers, body: seq<byte>)
    | StreamFails(status: nat)

  /** The answer to a request without a session or one the guard refuses. */
  const Forbidden: Reply := Refused(403, "Forbidden")

  /** The type every response of the route declares. */
  const VideoType := "video/mp4"

  /** The route up to the point where it knows which file to serve: the 403
      without a session, the guard, and the 404 for a path that does not
      exist. `Ok` carries the absolute path of the entry. */
  function Locate(session: Option<Principal>, cfg: Config, cwd: string, disk: Disk, path: string): (r: Result<string, Reply>)
    requires IsAbs(cwd)
    ensures session.None? <==> r == Err(Forbidden)
    ensures r.Ok? ==> (r.value in disk
      && r.value == Extend(Abspath(cwd, ReadRoot(session.value, cfg)), Sanitize(path)))
  {
    match session
    case None => Err(Forbidden)
    case Some(who) =>
      match Confine(cwd, ReadRoot(who, cfg), path)
      case None => Err(Forbidden)
      case Some(target) =>
        var abs := Abspath(cwd, target);
        if abs !in disk then Err(Refused(404, "File not found"))
        else Ok(abs)
  }

  /** The full-file response of `generate_full()`. */
  function FullReply(node: Node): Reply {
    match node
    case File(c) => Streamed(200, Headers(None, None, ShowNat(|c|), VideoType), c)
    case Dir => StreamFails(200)
  }

  /** The route as written: the `Range` header is parsed, but the function
      always falls through to the full-file response. */
  function FileDataAsWritten(session: Option<Principal>, cfg: Config, cwd: string, disk: Disk,
                             path: string, range: Option<string>): (r: Reply)
    requires IsAbs(cwd)
    ensures r.Streamed? ==> r.status == 200 && r.headers.contentRange.None?
  {
    match Locate(session, cfg, cwd, disk, path)
    case Err(e) => e
    case Ok(abs) => FullReply(disk[abs])
  }

  /** What the route should stream for an entry it has located: a matched
      range is answered with status 206, the range headers and the covered
      bytes; any other request gets the full file. */
  function ServeCorrected(node: Node, range: Option<string>): (r: Reply)
    ensures r.Streamed? && r.status == 206 ==> range.Some? && RangeMatch(range.value).Some?
    ensures !(range.Some? && RangeMatch(range.value).Some?) ==> r == FullReply(node)
  {
    match node
    case Dir => StreamFails(if range.Some? && RangeMatch(range.value).Some? then 206 else 200)
    case File(c) =>
      var p := ParseRange(range, |c|);
      if p.ranged then
        Streamed(206, Headers(Some(ContentRange(p, |c|)), Some("bytes"), ShowInt(p.length), VideoType),
                 RangeBytes(c, p.start, p.length))
      else FullReply(File(c))
  }

  /** The route as the prepared 206 headers show it was meant. */
  function FileDataCorrected(session: Option<Principal>, cfg: Config, cwd: string, disk: Disk,
                             path: string, range: Option<string>): (r: Reply)
    requires IsAbs(cwd)
    ensures r.Streamed? && r.status == 206 ==> range.Some? && RangeMatch(range.value).Some?
    ensures !(range.Some? && RangeMatch(range.value).Some?) ==>
      r == FileDataAsWritten(session, cfg, cwd, disk, path, range)
  {
    match Locate(session, cfg, cwd, disk, path)
    case Err(e) => e
    case Ok(abs) => ServeCorrected(disk[abs], range)
  }

  /** The request a client sends for bytes `s` to `e`. */
  function ClosedRangeHeader(s: nat, e: nat): string {
    Unit + ShowNat(s) + "-" + ShowNat(e)
  }

  /** As written, a request for bytes `s` to `e` of a longer file is answered
      with status 200 and the whole file: more bytes than were asked for. */
  lemma RangeIgnoredAsWritten(session: Option<Principal>, cfg: Config, cwd: string, disk: Disk,
                              path: string, s: nat, e: nat)
    requires IsAbs(cwd)
    requires Locate(session, cfg, cwd, disk, path).Ok?
    requires var node := disk[Locate(session, cfg, cwd, disk, path).value];
      node.File? && s <= e < |node.content| && e - s + 1 < |node.content|
    ensures var c := disk[Locate(session, cfg, cwd, disk, path).value].content;
      var r := FileDataAsWritten(session, cfg, cwd, disk, path, Some(ClosedRangeHeader(s, e)));
      && r == Streamed(200, Headers(None, None, ShowNat(|c|), VideoType), c)
      && |r.body| > e - s + 1
  {
  }

  /** A ranged plan is served with status 206, its headers and its bytes. */
  lemma ServeRanged(c: seq<byte>, range: Option<string>, p: Plan, contentRange: string, length: string, body: seq<byte>)
    requires p == ParseRange(range, |c|) && p.ranged
    requires contentRange == ContentRange(p, |c|) && length == ShowInt(p.length)
    requires body == RangeBytes(c, p.start, p.length)
    ensures ServeCorrected(File(c), range)
        == Streamed(206, Headers(Some(contentRange), Some("bytes"), length, VideoType), body)
  {
  }

  /** The headers and bytes of the plan for `S` to `E`, written out. */
  lemma ClosedRangeHeaders(s: nat, e: nat, size: nat)
    requires s <= e
    ensures var p := Plan(s, e - s + 1, true);
      && ContentRange(p, size) == "bytes " + ShowNat(s) + "-" + ShowNat(e) + "/" + ShowNat(size)
      && ShowInt(p.length) == ShowNat(e - s + 1)
  {
    var p := Plan(s, e - s + 1, true);
    assert LastByte(p) == e;
  }

  /** A closed range inside a file is served with status 206, a
      `Content-Range` that echoes `s`, `e` and the file size, and exactly the
      bytes `s` to `e`. */
  lemma ServeClosedRange(c: seq<byte>, s: nat, e: nat)
    requires s <= e < |c|
    ensures ServeCorrected(File(c), Some(ClosedRangeHeader(s, e)))
        == Streamed(206,
                    Headers(Some("bytes " + ShowNat(s) + "-" + ShowNat(e) + "/" + ShowNat(|c|)),
                            Some("bytes"), ShowNat(e - s + 1), VideoType),
                    c[s..e + 1])
  {
    var p := Plan(s, e - s + 1, true);
    assert ParseRange(Some(ClosedRangeHeader(s, e)), |c|) == p by {
      ClosedRangeRoundTrip(s, e, |c|);
    }
    ClosedRangeHeaders(s, e, |c|);
    ServeRanged(c, Some(ClosedRangeHeader(s, e)), p,
                "bytes " + ShowNat(s) + "-" + ShowNat(e) + "/" + ShowNat(|c|), ShowNat(e - s + 1), c[s..e + 1]);
  }

  /** Corrected, the same request is answered with status 206, a
      `Content-Range` that echoes `s`, `e` and the file size, and exactly the
      bytes `s` to `e`. */
  lemma CorrectedServesClosedRange(session: Option<Principal>, cfg: Config, cwd: string, disk: Disk,
                                   path: string, s: nat, e: nat)
    requires IsAbs(cwd)
    requires Locate(session, cfg, cwd, disk, path).Ok?
    requires var node := disk[Locate(session, cfg, cwd, disk, path).value];
      node.File? && s <= e < |node.content|
    ensures var c := disk[Locate(session, cfg, cwd, disk, path).value].content;
      FileDataCorrected(session, cfg, cwd, disk, path, Some(ClosedRangeHeader(s, e)))
        == Streamed(206,
                    Headers(Some("bytes " + ShowNat(s) + "-" + ShowNat(e) + "/" + ShowNat(|c|)),
                            Some("bytes"), ShowNat(e - s + 1), VideoType),
                    c[s..e + 1])
  {
    var abs := Locate(session, cfg, cwd, disk, path).value;
    ServeClosedRange(disk[abs].content, s, e);
  }
}

=== FILE: results.dfy ===
/** Failure-carrying datatypes shared by the whole model: Python's `None`
    and the early `return <error response>` of a route become values here. */
module Results {

  /** A value that may be absent (Python `None`). */
  datatype Option<+T> = None | Some(value: T) {

    /** The carried value, or `default` when absent: Python's `d.get(k, default)`. */
    function GetOr(default: T): T {
      match this
      case Some(v) => v
      case None => default
    }
  }

  /** The outcome of a route or decision: the value it proceeds with, or the
      error response it returns early. */
  datatype Result<+T, +E> = Ok(value: T) | Err(error: E)
}

=== FILE: shares.dfy ===
/** Share links: `create_share` (the policy a new link obeys),
    `shared_file` (the order in which a visit to `/share/<token>` is
    checked), `manage_shares` (whose links a principal sees, newest first)
    and `delete_share`.

    The clock, the token generator and werkzeug's password hashing are
    parameters: `now` is the moment `datetime.now()` returns, `token` the
    fresh identifier,
    `hash` and `check` stand for `generate_password_hash` and
    `check_password_hash`. The two tables are values. */
module Shares {
  import opened Results
  import opened PosixPath
  import opened Storage
  import opened Confinement
  import opened StableSort

  /** `timedelta(days=1)` in seconds. */
  const SecondsPerDay := 86400

  /** The longest link, in days, anyone but the administrator may create. */
  const MaxMemberDays := 90

  /** Microseconds within a second. */
  type Micros = m: int | 0 <= m < 1000000

  /** A moment as `datetime` holds it: whole seconds since `datetime.min`
      (0001-01-01 00:00:00) and microseconds. */
  datatype Instant = Instant(seconds: int, micros: Micros)

  /** The whole seconds of `datetime.max` (9999-12-31 23:59:59.999999):
      3652059 days since `datetime.min`, less one second. */
  const LastSecond := 315537897599

  /** `now + timedelta(days=duration)` is only computed for a positive
      duration, and raises `OverflowError` when the result lies past
      `datetime.max`. */
  predicate ExpiryFits(now: Instant, duration: int) {
    duration <= 0 || now.seconds + duration * SecondsPerDay <= LastSecond
  }

  /** `a > b` on `datetime` values: `a` is strictly later. */
  predicate Later(a: Instant, b: Instant) {
    a.seconds > b.seconds || (a.seconds == b.seconds && a.micros > b.micros)
  }

  /** Whether the text an expiry is stored as parses with the format
      `%Y-%m-%d %H:%M:%S`. sqlite3's default adapter stores a `datetime` as
      `isoformat(" ")`, which appends `.ffffff` exactly when the microseconds
      are not zero, and that format accepts no fractional part. */
  predicate ParsesAsWritten(e: Instant) {
    e.micros == 0
  }

  /** The columns of a `users` row the share routes read. */
  datatype UserRow = UserRow(username: string, isAdmin: bool)

  /** The `users` table, by primary key. */
  type Users = map<int, UserRow>

  /** A `shares` row. `filePath` is the path as the creator sent it, not
      sanitised; `createdAt` is the insertion time in whole seconds. */
  datatype ShareRow = ShareRow(
    id: int,
    token: string,
    filePath: string,
    userId: int,
    passwordHash: Option<string>,
    expiresAt: Option<Instant>,
    createdAt: int)

  /** Python's truth value of the stored hash: a non-empty string. */
  predicate Protected(row: ShareRow) {
    row.passwordHash.Some? && row.passwordHash.value != ""
  }

  /** The first row with the given token (the column is unique). */
  function FindShare(shares: seq<ShareRow>, token: string): (r: Option<ShareRow>)
    ensures r.Some? <==> exists i :: 0 <= i < |shares| && shares[i].token == token
    ensures r.Some? ==> r.value in shares && r.value.token == token
  {
    if |shares| == 0 then None
    else if shares[0].token == token then Some(shares[0])
    else
      var r := FindShare(shares[1..], token);
      assert forall i :: 1 <= i < |shares| ==> shares[i] == shares[1..][i - 1];
      r
  }

  // ---------------------------------------------------------------------------
  // create_share
  // ---------------------------------------------------------------------------

  /** The JSON body of a create request: `path`, `password` (default empty)
      and `duration` in days (default 1). */
  datatype ShareRequest = ShareRequest(path: string, password: string, duration: int)

  /** What `create_share` answers: the redirect of the forced password
      change, an error with its status, or the row it inserts (the link is
      made from its token). */
  datatype CreateReply =
    | PasswordChangeRedirect
    | Refused(status: nat, message: string)
    | Created(row: ShareRow)

  /** The expiry of a link created at `now` for `duration` days: none unless
      the duration is positive. */
  function ExpiryFor(now: Instant, duration: int): Option<Instant> {
    if duration > 0 then Some(Instant(now.seconds + duration * SecondsPerDay, now.micros)) else None
  }

  /** `create_share`, in the order its checks run. `newId` is the id the
      table assigns. */
  function CreateShare(session: Option<Principal>, cfg: Config, cwd: string, disk: Disk, req: ShareRequest,
                       shares: seq<ShareRow>, now: Instant, token: string, newId: int,
                       hash: string -> string): (r: CreateReply)
    requires IsAbs(cwd)
    ensures r.Created? ==>
      && session.Some? && !session.value.mustChangePassword
      && session.value.role != Visitor
      && req.path != ""
      && IsFile(disk, Extend(Abspath(cwd, WriteRoot(session.value, cfg)), Sanitize(req.path)))
      && (session.value.role != Administrator ==> req.duration <= MaxMemberDays)
      && ExpiryFits(now, req.duration)
      && FindShare(shares, token).None?
      && r.row.token == token && r.row.filePath == req.path && r.row.userId == session.value.userId
      && r.row.expiresAt == ExpiryFor(now, req.duration)
      && (req.password != "" ==> r.row.passwordHash == Some(hash(req.password)))
      && (Protected(r.row) <==> req.password != "" && hash(req.password) != "")
    ensures (session.Some? && !session.value.mustChangePassword && session.value.role == Member
      && req.path != "" && req.duration > MaxMemberDays) ==> !r.Created?
    ensures (session.Some? && !session.value.mustChangePassword && session.value.role != Visitor
      && req.path != ""
      && IsFile(disk, Extend(Abspath(cwd, WriteRoot(session.value, cfg)), Sanitize(req.path)))
      && (session.value.role == Administrator || req.duration <= MaxMemberDays)
      && ExpiryFits(now, req.duration)
      && FindShare(shares, token).None?) ==> r.Created?
    ensures (session.Some? && !session.value.mustChangePassword && session.value.role != Visitor
      && (session.value.role == Administrator || req.duration <= MaxMemberDays)
      && req.path != ""
      && IsFile(disk, Extend(Abspath(cwd, WriteRoot(session.value, cfg)), Sanitize(req.path)))
      && !ExpiryFits(now, req.duration)) ==> r == Refused(500, "date value out of range")
  {
    if session.Some? && session.value.mustChangePassword then CreateReply.PasswordChangeRedirect
    else if session.None? then Refused(403, "Unauthorized")
    else
      var who := session.value;
      if who.role == Visitor then Refused(403, "访客无法创建分享")
      else if req.path == "" then Refused(400, "文件路径不能为空")
      else
        var target := Confine(cwd, WriteRoot(who, cfg), req.path);
        if target.None? || Abspath(cwd, target.value) !in disk then Refused(404, "文件不存在")
        else if IsDir(disk, Abspath(cwd, target.value)) then Refused(400, "无法分享文件夹")
        else if who.role != Administrator && req.duration > MaxMemberDays then
          Refused(400, "普通用户分享时间不能超过90天")
        else if !ExpiryFits(now, req.duration) then Refused(500, "date value out of range")
        else if FindShare(shares, token).Some? then Refused(500, "UNIQUE constraint failed: shares.token")
        else
          var passwordHash := if req.password != "" then Some(hash(req.password)) else None;
          Created(ShareRow(newId, token, req.path, who.userId, passwordHash, ExpiryFor(now, req.duration), now.seconds))
  }

  // ---------------------------------------------------------------------------
  // shared_file
  // ---------------------------------------------------------------------------

  /** What a visit to `/share/<token>` shows. `ServerError` is the
      `ValueError` an unparsable expiry raises. */
  datatype ShareView =
    | ServerError
    | InvalidLink
    | ExpiredLink
    | PasswordPrompt(token: string)
    | FileGone
    | SendFile(path: string)

  /** The folder a share's path is resolved in: the owner's disk path for the
      administrator, the owner's member folder otherwise. */
  function OwnerRoot(owner: UserRow, cfg: Config): string {
    if owner.isAdmin then cfg.storagePath else MemberRoot(owner.username)
  }

  /** `shared_file`, as written or, when `corrected`, with the stored expiry
      parsed in full: an unknown token or a share whose owner is gone (the
      query joins `users`) is invalid; then, as written, an expiry whose text
      does not parse is a server error; then an expiry strictly in the past;
      then a missing or wrong password; then a missing file; otherwise the
      file is sent. The stored path is sanitised but not guarded. */
  function ResolveShareWith(token: string, shares: seq<ShareRow>, users: Users, cfg: Config, cwd: string,
                            disk: Disk, now: Instant, password: string, check: (string, string) -> bool,
                            corrected: bool): (v: ShareView)
    requires IsAbs(cwd)
    ensures v.SendFile? ==> v.path in disk
    ensures v != InvalidLink ==> FindShare(shares, token).Some?
    ensures v.ServerError? ==> !corrected
  {
    match FindShare(shares, token)
    case None => InvalidLink
    case Some(row) =>
      if row.userId !in users then InvalidLink
      else if row.expiresAt.Some? && !corrected && !ParsesAsWritten(row.expiresAt.value) then ServerError
      else if row.expiresAt.Some? && Later(now, row.expiresAt.value) then ExpiredLink
      else if Protected(row) && (password == "" || !check(row.passwordHash.value, password)) then
        PasswordPrompt(token)
      else
        var owner := users[row.userId];
        var filePath := JoinPath(OwnerRoot(owner, cfg), Sanitize(row.filePath));
        var abs := Abspath(cwd, filePath);
        if abs !in disk then FileGone else SendFile(abs)
  }

  /** `shared_file` as written. */
  function ResolveShareAsWritten(token: string, shares: seq<ShareRow>, users: Users, cfg: Config, cwd: string,
                                 disk: Disk, now: Instant, password: string, check: (string, string) -> bool)
    : (v: ShareView)
    requires IsAbs(cwd)
    ensures v.ServerError? ==>
      FindShare(shares, token).Some? &&
      var row := FindShare(shares, token).value;
      row.userId in users && row.expiresAt.Some? && !ParsesAsWritten(row.expiresAt.value)
  {
    ResolveShareWith(token, shares, users, cfg, cwd, disk, now, password, check, false)
  }

  /** `shared_file` with the stored expiry parsed including its
      microseconds. */
  function ResolveShare(token: string, shares: seq<ShareRow>, users: Users, cfg: Config, cwd: string,
                        disk: Disk, now: Instant, password: string, check: (string, string) -> bool): (v: ShareView)
    requires IsAbs(cwd)
    ensures !v.ServerError?
  {
    ResolveShareWith(token, shares, users, cfg, cwd, disk, now, password, check, true)
  }

  /** The owner record of a session: what `users` holds for it. */
  predicate OwnsRecord(users: Users, who: Principal) {
    who.userId in users && users[who.userId] == UserRow(who.username, who.role == Administrator)
  }

  /** Whatever the creator sent as the path, the share resolves inside the
      owner's folder, at the root's absolute path extended by the sanitised
      path. */
  lemma SharedPathConfined(token: string, shares: seq<ShareRow>, users: Users, cfg: Config, cwd: string,
                           disk: Disk, now: Instant, password: string, check: (string, string) -> bool,
                           corrected: bool)
    requires IsAbs(cwd)
    requires ResolveShareWith(token, shares, users, cfg, cwd, disk, now, password, check, corrected).SendFile?
    ensures var row := FindShare(shares, token).value;
      && row.userId in users
      && ResolveShareWith(token, shares, users, cfg, cwd, disk, now, password, check, corrected).path
         == Extend(Abspath(cwd, OwnerRoot(users[row.userId], cfg)), Sanitize(row.filePath))
  {
    var row := FindShare(shares, token).value;
    SanitizedPathConfined(cwd, OwnerRoot(users[row.userId], cfg), row.filePath);
  }

  /** A freshly inserted row is the one its token finds. */
  lemma FindAppended(shares: seq<ShareRow>, row: ShareRow)
    requires FindShare(shares, row.token).None?
    ensures FindShare(shares + [row], row.token) == Some(row)
  {
    if |shares| > 0 {
      assert (shares + [row])[1..] == shares[1..] + [row];
      assert FindShare(shares[1..], row.token).None?;
      FindAppended(shares[1..], row);
    }
  }

  /** The life of a link, corrected: once created and inserted, its token is
      valid; it expires exactly when the visit is strictly later than creation
      plus the duration in days, and never for a duration that is not
      positive. */
  lemma ShareExpiry(session: Option<Principal>, cfg: Config, cwd: string, disk: Disk, req: ShareRequest,
                    shares: seq<ShareRow>, now0: Instant, token: string, newId: int, hash: string -> string,
                    users: Users, now: Instant, password: string, check: (string, string) -> bool)
    requires IsAbs(cwd)
    requires CreateShare(session, cfg, cwd, disk, req, shares, now0, token, newId, hash).Created?
    requires OwnsRecord(users, session.value)
    ensures var row := CreateShare(session, cfg, cwd, disk, req, shares, now0, token, newId, hash).row;
      var v := ResolveShare(token, shares + [row], users, cfg, cwd, disk, now, password, check);
      && v != InvalidLink
      && (v == ExpiredLink <==>
            req.duration > 0 && Later(now, Instant(now0.seconds + req.duration * SecondsPerDay, now0.micros)))
  {
    var row := CreateShare(session, cfg, cwd, disk, req, shares, now0, token, newId, hash).row;
    FindAppended(shares, row);
    ResolveValid(token, shares + [row], row, users, cfg, cwd, disk, now, password, check);
  }

  /** As written, a link created with a positive duration at a moment whose
      microseconds are not zero answers every visit with a server error; a
      link created on a whole second, or without an expiry, is answered as
      the corrected route answers it. */
  lemma ExpiringShareFailsAsWritten(session: Option<Principal>, cfg: Config, cwd: string, disk: Disk,
                                    req: ShareRequest, shares: seq<ShareRow>, now0: Instant, token: string,
                                    newId: int, hash: string -> string, users: Users, now: Instant,
                                    password: string, check: (string, string) -> bool)
    requires IsAbs(cwd)
    requires CreateShare(session, cfg, cwd, disk, req, shares, now0, token, newId, hash).Created?
    requires OwnsRecord(users, session.value)
    ensures var row := CreateShare(session, cfg, cwd, disk, req, shares, now0, token, newId, hash).row;
      var v := ResolveShareAsWritten(token, shares + [row], users, cfg, cwd, disk, now, password, check);
      && (v == ServerError <==> req.duration > 0 && now0.micros != 0)
      && (v != ServerError ==> v == ResolveShare(token, shares + [row], users, cfg, cwd, disk, now, password, check))
  {
    var row := CreateShare(session, cfg, cwd, disk, req, shares, now0, token, newId, hash).row;
    FindAppended(shares, row);
  }

  /** A token that finds a row whose owner exists is valid, and is expired
      exactly when the row's expiry is strictly in the past. */
  lemma ResolveValid(token: string, shares: seq<ShareRow>, row: ShareRow, users: Users, cfg: Config,
                     cwd: string, disk: Disk, now: Instant, password: string, check: (string, string) -> bool)
    requires IsAbs(cwd) && FindShare(shares, token) == Some(row) && row.userId in users
    ensures var v := ResolveShare(token, shares, users, cfg, cwd, disk, now, password, check);
      && v != InvalidLink
      && (v == ExpiredLink <==> row.expiresAt.Some? && Later(now, row.expiresAt.value))
  {
  }

  /** Past the expiry check, a password-protected link is opened exactly by
      the password it was created with, given a hash check that accepts
      exactly the hashed password; and the file it sends is the one that was
      validated when the link was created. */
  lemma SharePassword(session: Option<Principal>, cfg: Config, cwd: string, disk: Disk, req: ShareRequest,
                      shares: seq<ShareRow>, now0: Instant, token: string, newId: int, hash: string -> string,
                      users: Users, now: Instant, password: string, check: (string, string) -> bool)
    requires IsAbs(cwd)
    requires CreateShare(session, cfg, cwd, disk, req, shares, now0, token, newId, hash).Created?
    requires OwnsRecord(users, session.value)
    requires forall p :: hash(p) != ""
    requires forall p, q :: check(hash(p), q) <==> p == q
    requires !(req.duration > 0 && Later(now, Instant(now0.seconds + req.duration * SecondsPerDay, now0.micros)))
    ensures var row := CreateShare(session, cfg, cwd, disk, req, shares, now0, token, newId, hash).row;
      var v := ResolveShare(token, shares + [row], users, cfg, cwd, disk, now, password, check);
      && (v.PasswordPrompt? <==> req.password != "" && password != req.password)
      && (!v.PasswordPrompt? ==>
            v == SendFile(Extend(Abspath(cwd, WriteRoot(session.value, cfg)), Sanitize(req.path))))
  {
    var who := session.value;
    var row := CreateShare(session, cfg, cwd, disk, req, shares, now0, token, newId, hash).row;
    FindAppended(shares, row);
    ResolveOpen(token, shares + [row], row, users, cfg, cwd, disk, now, password, check);
    assert OwnerRoot(users[row.userId], cfg) == WriteRoot(who, cfg);
    SanitizedPathConfined(cwd, WriteRoot(who, cfg), req.path);
  }

  /** Past the validity and expiry checks, a visit is asked for the password
      exactly when the row is protected and the password is missing or
      rejected; otherwise the stored path is resolved in the owner's folder. */
  lemma ResolveOpen(token: string, shares: seq<ShareRow>, row: ShareRow, users: Users, cfg: Config,
                    cwd: string, disk: Disk, now: Instant, password: string, check: (string, string) -> bool)
    requires IsAbs(cwd) && FindShare(shares, token) == Some(row) && row.userId in users
    requires !(row.expiresAt.Some? && Later(now, row.expiresAt.value))
    ensures var v := ResolveShare(token, shares, users, cfg, cwd, disk, now, password, check);
      && (v.PasswordPrompt? <==> Protected(row) && (password == "" || !check(row.passwordHash.value, password)))
      && (!v.PasswordPrompt? ==>
            var abs := Abspath(cwd, JoinPath(OwnerRoot(users[row.userId], cfg), Sanitize(row.filePath)));
            v == if abs in disk then SendFile(abs) else FileGone)
  {
  }

  // ---------------------------------------------------------------------------
  // manage_shares
  // ---------------------------------------------------------------------------

  /** A row of the management page: the share and its owner's name. */
  datatype ListedShare = ListedShare(share: ShareRow, username: string)

  /** The rows the query selects, in table order: shares whose owner exists,
      and for anyone but the administrator only their own. */
  function Visible(who: Principal, shares: seq<ShareRow>, users: Users): (rows: seq<ListedShare>)
    ensures forall r :: r in rows <==>
      (r.share in shares && r.share.userId in users && r.username == users[r.share.userId].username
       && (who.role == Administrator || r.share.userId == who.userId))
  {
    if |shares| == 0 then []
    else
      var rest := Visible(who, shares[1..], users);
      var s := shares[0];
      assert forall x :: x in shares <==> x == s || x in shares[1..];
      if s.userId in users && (who.role == Administrator || s.userId == who.userId) then
        [ListedShare(s, users[s.userId].username)] + rest
      else rest
  }

  /** `ORDER BY created_at DESC`. */
  predicate NewerOrSame(a: ListedShare, b: ListedShare) {
    a.share.createdAt >= b.share.createdAt
  }

  /** What `manage_shares` answers. */
  datatype ShareList = LoginRequired | PasswordChangeRedirect | SharePage(rows: seq<ListedShare>)

  /** `manage_shares`: the visible rows, newest first. Rows created at the
      same time keep table order. */
  function ManageShares(session: Option<Principal>, shares: seq<ShareRow>, users: Users): (r: ShareList)
    ensures r.SharePage? <==> session.Some? && !session.value.mustChangePassword
  {
    if session.Some? && session.value.mustChangePassword then ShareList.PasswordChangeRedirect
    else if session.None? then ShareList.LoginRequired
    else SharePage(Sort(Visible(session.value, shares, users), NewerOrSame))
  }

  /** The page lists exactly the visible rows, each once per share, newest
      first; a member sees only their own links. */
  lemma ManageSharesListsOwn(session: Option<Principal>, shares: seq<ShareRow>, users: Users)
    requires session.Some? && !session.value.mustChangePassword
    ensures var rows := ManageShares(session, shares, users).rows;
      && multiset(rows) == multiset(Visible(session.value, shares, users))
      && (forall i, j :: 0 <= i < j < |rows| ==> rows[i].share.createdAt >= rows[j].share.createdAt)
      && (session.value.role != Administrator ==>
            forall r :: r in rows ==> r.share.userId == session.value.userId)
  {
    assert TotalPreorder(NewerOrSame);
    var v := Visible(session.value, shares, users);
    SortCorrect(v, NewerOrSame);
    forall r | r in Sort(v, NewerOrSame) ensures r in v {
      assert r in multiset(Sort(v, NewerOrSame));
    }
  }

  // ---------------------------------------------------------------------------
  // delete_share
  // ---------------------------------------------------------------------------

  /** The rows a `DELETE ... WHERE` leaves: those `gone` does not hold for,
      in table order. */
  function Without(shares: seq<ShareRow>, gone: ShareRow -> bool): (rest: seq<ShareRow>)
    ensures forall s :: s in rest <==> s in shares && !gone(s)
    ensures |rest| <= |shares|
  {
    if |shares| == 0 then []
    else
      var tail := Without(shares[1..], gone);
      assert forall x :: x in shares <==> x == shares[0] || x in shares[1..];
      if gone(shares[0]) then tail else [shares[0]] + tail
  }

  /** What `delete_share` answers. Every path through the deletion flashes
      the same success message. */
  datatype DeleteReply = LoginRequired | PasswordChangeRedirect | Deleted

  /** `delete_share` as written, returning the reply and the table as it is
      persisted afterwards. The administrator's `DELETE` runs in a
      transaction that is never committed (the commit sits in the members'
      branch), so it is rolled back when the connection is dropped; a member's
      `DELETE` is restricted to their own rows and committed. */
  function DeleteShareAsWritten(session: Option<Principal>, shares: seq<ShareRow>, shareId: int)
    : (r: (DeleteReply, seq<ShareRow>))
    ensures r.0 != Deleted ==> r.1 == shares
    ensures r.0 == Deleted ==> session.Some? && (session.value.role == Administrator ==> r.1 == shares)
  {
    if session.Some? && session.value.mustChangePassword then (DeleteReply.PasswordChangeRedirect, shares)
    else if session.None? then (DeleteReply.LoginRequired, shares)
    else
      var who := session.value;
      if who.role == Administrator then (Deleted, shares)
      else (Deleted, Without(shares, (s: ShareRow) => s.id == shareId && s.userId == who.userId))
  }

  /** The administrator is told a share was deleted, and it is still there. */
  lemma AdminDeleteIsLost(who: Principal, shares: seq<ShareRow>, shareId: int)
    requires who.role == Administrator && !who.mustChangePassword
    requires exists s :: s in shares && s.id == shareId
    ensures var (reply, after) := DeleteShareAsWritten(Some(who), shares, shareId);
      reply == Deleted && exists s :: s in after && s.id == shareId
  {
  }

  /** `delete_share` with the commit in both branches. */
  function DeleteShareCorrected(session: Option<Principal>, shares: seq<ShareRow>, shareId: int)
    : (r: (DeleteReply, seq<ShareRow>))
    ensures r.0 != Deleted ==> r.1 == shares
  {
    if session.Some? && session.value.mustChangePassword then (DeleteReply.PasswordChangeRedirect, shares)
    else if session.None? then (DeleteReply.LoginRequired, shares)
    else
      var who := session.value;
      if who.role == Administrator then (Deleted, Without(shares, (s: ShareRow) => s.id == shareId))
      else (Deleted, Without(shares, (s: ShareRow) => s.id == shareId && s.userId == who.userId))
  }

  /** Corrected, a deletion removes the share with that id (for a member,
      only if it is theirs) and keeps every other row. */
  lemma DeleteShareRemoves(who: Principal, shares: seq<ShareRow>, shareId: int)
    requires !who.mustChangePassword
    ensures var (reply, after) := DeleteShareCorrected(Some(who), shares, shareId);
      && reply == Deleted
      && (forall s :: s in shares && s.id != shareId ==> s in after)
      && (forall s :: s in after ==> s in shares)
      && (who.role == Administrator ==> forall s :: s in after ==> s.id != shareId)
      && (who.role != Administrator ==>
            forall s :: s in shares ==> (s in after <==> !(s.id == shareId && s.userId == who.userId)))
  {
  }
}

=== FILE: stable_sort.dfy ===
/** Python's `list.sort(key=...)`: a stable sort. It is modelled as an
    insertion sort under a total preorder `le` ("the key of `a` is at most
    the key of `b`"), and characterised by the three properties that
    determine a stable sort's result: the output is a permutation of the
    input, it is ordered, and elements with equal keys keep their relative
    order. */
module StableSort {

  /** Every two elements are comparable. */
  ghost predicate Total<T(!new)>(le: (T, T) -> bool) {
    forall a, b :: le(a, b) || le(b, a)
  }

  ghost predicate Transitive<T(!new)>(le: (T, T) -> bool) {
    forall a, b, c :: le(a, b) && le(b, c) ==> le(a, c)
  }

  /** The ordering a sort key induces. */
  ghost predicate TotalPreorder<T(!new)>(le: (T, T) -> bool) {
    Total(le) && Transitive(le)
  }

  /** Non-decreasing under `le`. */
  predicate Sorted<T>(s: seq<T>, le: (T, T) -> bool) {
    forall i, j :: 0 <= i < j < |s| ==> le(s[i], s[j])
  }

  /** Same key as `p`. */
  predicate Equiv<T>(le: (T, T) -> bool, a: T, p: T) {
    le(a, p) && le(p, a)
  }

  /** The elements of `s` with the same key as `p`, in their order in `s`. */
  function Ties<T>(s: seq<T>, le: (T, T) -> bool, p: T): seq<T>
    decreases |s|
  {
    if |s| == 0 then []
    else Ties(s[..|s| - 1], le, p) + (if Equiv(le, s[|s| - 1], p) then [s[|s| - 1]] else [])
  }

  /** Insert `x` into a sorted sequence after every element whose key is at
      most its own. */
  function Insert<T>(s: seq<T>, x: T, le: (T, T) -> bool): (r: seq<T>)
    decreases |s|
  {
    if |s| == 0 then [x]
    else if le(s[|s| - 1], x) then s + [x]
    else Insert(s[..|s| - 1], x, le) + [s[|s| - 1]]
  }

  /** Insertion keeps the elements and adds `x`. */
  lemma {:induction false} InsertPermutes<T>(s: seq<T>, x: T, le: (T, T) -> bool)
    ensures multiset(Insert(s, x, le)) == multiset(s) + multiset{x}
    decreases |s|
  {
    if |s| > 0 && !le(s[|s| - 1], x) {
      InsertPermutes(s[..|s| - 1], x, le);
      assert s == s[..|s| - 1] + [s[|s| - 1]];
    }
  }

  /** Insertion into a sorted sequence keeps it sorted. */
  lemma {:induction false} InsertSorted<T(!new)>(s: seq<T>, x: T, le: (T, T) -> bool)
    requires TotalPreorder(le) && Sorted(s, le)
    ensures Sorted(Insert(s, x, le), le)
    ensures forall i :: 0 <= i < |Insert(s, x, le)| ==> Insert(s, x, le)[i] in multiset(s) + multiset{x}
    decreases |s|
  {
    var r := Insert(s, x, le);
    forall i | 0 <= i < |r| ensures r[i] in multiset(s) + multiset{x} {
      InsertPermutes(s, x, le);
      assert r[i] in multiset(r);
    }
    if |s| > 0 && !le(s[|s| - 1], x) {
      var init := s[..|s| - 1];
      var last := s[|s| - 1];
      InsertSorted(init, x, le);
      var r0 := Insert(init, x, le);
      assert r == r0 + [last];
      forall i | 0 <= i < |r0| ensures le(r0[i], last) {
        assert r0[i] in multiset(init) + multiset{x};
        if r0[i] == x {
          assert le(x, last);
        } else {
          assert r0[i] in multiset(init);
          assert r0[i] in init;
          var k :| 0 <= k < |init| && init[k] == r0[i];
          assert le(s[k], s[|s| - 1]);
        }
      }
    }
  }

  /** Insertion puts `x` after the elements it ties with. */
  lemma {:induction false} InsertTies<T(!new)>(s: seq<T>, x: T, le: (T, T) -> bool, p: T)
    requires TotalPreorder(le)
    ensures Ties(Insert(s, x, le), le, p) == Ties(s, le, p) + (if Equiv(le, x, p) then [x] else [])
    decreases |s|
  {
    var r := Insert(s, x, le);
    if |s| == 0 {
      assert r == [] + [x];
      assert r[..0] == [];
    } else if le(s[|s| - 1], x) {
      assert r[..|r| - 1] == s;
    } else {
      var init := s[..|s| - 1];
      var last := s[|s| - 1];
      InsertTies(init, x, le, p);
      assert r[..|r| - 1] == Insert(init, x, le);
      assert !(Equiv(le, x, p) && Equiv(le, last, p));
    }
  }

  /** Python's `sorted`: insert the elements one by one, in order. */
  function Sort<T>(s: seq<T>, le: (T, T) -> bool): seq<T>
    decreases |s|
  {
    if |s| == 0 then [] else Insert(Sort(s[..|s| - 1], le), s[|s| - 1], le)
  }

  /** The sort is a permutation, its output is ordered, and every group of
      elements with equal keys comes out in the order it went in. */
  lemma {:induction false} SortCorrect<T(!new)>(s: seq<T>, le: (T, T) -> bool)
    requires TotalPreorder(le)
    ensures multiset(Sort(s, le)) == multiset(s)
    ensures Sorted(Sort(s, le), le)
    ensures forall p :: Ties(Sort(s, le), le, p) == Ties(s, le, p)
    decreases |s|
  {
    if |s| > 0 {
      var init := s[..|s| - 1];
      var x := s[|s| - 1];
      SortCorrect(init, le);
      InsertPermutes(Sort(init, le), x, le);
      InsertSorted(Sort(init, le), x, le);
      assert s == init + [x];
      forall p ensures Ties(Sort(s, le), le, p) == Ties(s, le, p) {
        InsertTies(Sort(init, le), x, le, p);
      }
    }
  }
}

=== FILE: storage.dfy ===
/** The part of the filesystem the routes observe, as a value: every
    existing entry, keyed by its absolute path, is a file with its bytes or a
    directory. `os.path.exists`, `isdir`, `getsize` and `open(...).read()`
    become lookups in this map. */
module Storage {
  import opened Results

  /** One byte of a file. */
  newtype byte = x: int | 0 <= x < 256

  /** What an existing path names. */
  datatype Node = File(content: seq<byte>) | Dir

  /** The filesystem: absolute path to entry. */
  type Disk = map<string, Node>

  /** `os.path.isfile(p)`. */
  predicate IsFile(disk: Disk, p: string) {
    p in disk && disk[p].File?
  }

  /** `os.path.isdir(p)`. */
  predicate IsDir(disk: Disk, p: string) {
    p in disk && disk[p].Dir?
  }

  /** The proper ancestors of an absolute path other than `/`: each prefix
      that ends just before one of its inner slashes. */
  function Ancestors(p: string): set<string> {
    set i | 0 < i < |p| && p[i] == '/' :: p[..i]
  }

  /** `os.makedirs(p)` for a path that does not exist yet: every missing
      ancestor and `p` itself become directories, unless an ancestor is a
      file, in which case the call raises and nothing changes. */
  function MakeDirs(disk: Disk, p: string): (r: Option<Disk>)
    requires p !in disk
    ensures r.None? <==> exists a :: a in Ancestors(p) && IsFile(disk, a)
    ensures r.Some? ==>
      && IsDir(r.value, p)
      && (forall a :: a in Ancestors(p) ==> IsDir(r.value, a))
      && (forall k :: k in disk ==> k in r.value && r.value[k] == disk[k])
      && (forall k :: k in r.value && k !in disk ==> k == p || k in Ancestors(p))
  {
    if exists a :: a in Ancestors(p) && IsFile(disk, a) then None
    else Some(map k | k in disk.Keys + Ancestors(p) + {p} :: if k in disk then disk[k] else Dir)
  }
}

=== FILE: strings.dfy ===
/** The Python `str` operations the file manager leans on, over `seq<char>`:
    `split`/`join`, `lstrip`/`rstrip`/`strip`, `lower`, `<=`, `startswith`,
    `int`/`str` on naturals, and joining a stream of chunks. */
module Strings {

  /** Python `s.startswith(prefix)`. */
  predicate StartsWith(s: string, prefix: string) {
    |prefix| <= |s| && s[..|prefix|] == prefix
  }

  // ---------------------------------------------------------------------------
  // split / join
  // ---------------------------------------------------------------------------

  /** Python `s.split(sep)` for a one-character separator: one piece more than
      there are separators, none of the pieces containing the separator. */
  function Split(s: string, sep: char): (pieces: seq<string>)
    ensures |pieces| >= 1
    ensures forall i :: 0 <= i < |pieces| ==> sep !in pieces[i]
  {
    if |s| == 0 then [""]
    else
      var rest := Split(s[1..], sep);
      if s[0] == sep then [""] + rest
      else [[s[0]] + rest[0]] + rest[1..]
  }

  /** Python `sep.join(parts)`. */
  function Join(parts: seq<string>, sep: char): string
    decreases |parts|
  {
    if |parts| == 0 then ""
    else if |parts| == 1 then parts[0]
    else parts[0] + [sep] + Join(parts[1..], sep)
  }

  /** Joining the pieces of a split gives the string back. */
  lemma {:induction false} JoinSplit(s: string, sep: char)
    ensures Join(Split(s, sep), sep) == s
  {
    if |s| > 0 {
      JoinSplit(s[1..], sep);
      var rest := Split(s[1..], sep);
      var ps := Split(s, sep);
      if s[0] == sep {
        assert ps == [""] + rest;
        assert ps[1..] == rest;
      } else {
        assert ps == [[s[0]] + rest[0]] + rest[1..];
        if |rest| > 1 {
          assert ps[1..] == rest[1..];
        }
      }
      assert s == [s[0]] + s[1..];
    }
  }

  /** A string without the separator splits into itself alone. */
  lemma {:induction false} SplitNoSep(s: string, sep: char)
    requires sep !in s
    ensures Split(s, sep) == [s]
  {
    if |s| > 0 {
      SplitNoSep(s[1..], sep);
      assert s == [s[0]] + s[1..];
    }
  }

  /** Splitting around one separator splits both sides independently. */
  lemma {:induction false} SplitAround(a: string, b: string, sep: char)
    ensures Split(a + [sep] + b, sep) == Split(a, sep) + Split(b, sep)
  {
    var s := a + [sep] + b;
    if |a| == 0 {
      assert s == [sep] + b;
      assert s[1..] == b;
    } else {
      assert s[0] == a[0];
      assert s[1..] == a[1..] + [sep] + b;
      SplitAround(a[1..], b, sep);
      var ra, rb := Split(a[1..], sep), Split(b, sep);
      if a[0] == sep {
        assert Split(s, sep) == [""] + (ra + rb);
      } else {
        assert (ra + rb)[0] == ra[0] && (ra + rb)[1..] == ra[1..] + rb;
        assert Split(s, sep) == [[a[0]] + ra[0]] + (ra[1..] + rb);
      }
    }
  }

  /** Splitting a join of separator-free parts gives the parts back. */
  lemma {:induction false} SplitJoin(parts: seq<string>, sep: char)
    requires |parts| >= 1
    requires forall i :: 0 <= i < |parts| ==> sep !in parts[i]
    ensures Split(Join(parts, sep), sep) == parts
  {
    SplitNoSep(parts[0], sep);
    if |parts| > 1 {
      SplitJoin(parts[1..], sep);
      SplitAround(parts[0], Join(parts[1..], sep), sep);
      assert [parts[0]] + parts[1..] == parts;
    }
  }

  /** Joining a concatenation puts one separator between the two joins. */
  lemma {:induction false} JoinAppend(a: seq<string>, b: seq<string>, sep: char)
    requires |a| >= 1 && |b| >= 1
    ensures Join(a + b, sep) == Join(a, sep) + [sep] + Join(b, sep)
  {
    assert (a + b)[0] == a[0];
    if |a| == 1 {
      assert (a + b)[1..] == b;
    } else {
      assert (a + b)[1..] == a[1..] + b;
      JoinAppend(a[1..], b, sep);
    }
  }

  /** The join of the first `i` parts is a prefix of the join of all of
      them, ending at the end or just before a separator. */
  lemma JoinPrefix(parts: seq<string>, i: nat, sep: char)
    requires 1 <= i <= |parts|
    ensures var whole := Join(parts, sep);
      var p := Join(parts[..i], sep);
      StartsWith(whole, p) && (|p| == |whole| || whole[|p|] == sep)
  {
    var head := parts[..i];
    if i == |parts| {
      assert head == parts;
    } else {
      var tail := parts[i..];
      JoinAppend(head, tail, sep);
      assert head + tail == parts;
      var p := Join(head, sep);
      assert Join(parts, sep) == p + [sep] + Join(tail, sep);
      assert Join(parts, sep)[..|p|] == p;
    }
  }

  /** `s.find(c)`, with the length of `s` standing for "not found". */
  function IndexOrEnd(s: string, c: char): (i: nat)
    ensures i <= |s|
    ensures c !in s[..i]
    ensures i < |s| ==> s[i] == c
  {
    if |s| == 0 then 0
    else if s[0] == c then 0
    else 1 + IndexOrEnd(s[1..], c)
  }

  /** A `c`-free prefix followed by nothing or by `c` is where `find` stops. */
  lemma {:induction false} IndexOrEndOfPrefix(a: string, x: string, c: char)
    requires c !in a
    requires x == "" || x[0] == c
    ensures IndexOrEnd(a + x, c) == |a|
    decreases |a|
  {
    if |a| == 0 {
      assert a + x == x;
    } else {
      assert (a + x)[0] == a[0];
      assert (a + x)[1..] == a[1..] + x;
      IndexOrEndOfPrefix(a[1..], x, c);
    }
  }

  /** A `c`-free name followed by nothing or by `c` is determined by the string
      it starts. */
  lemma FirstPieceUnique(a: string, x: string, b: string, y: string, c: char)
    requires c !in a && c !in b
    requires x == "" || x[0] == c
    requires y == "" || y[0] == c
    requires a + x == b + y
    ensures a == b
  {
    IndexOrEndOfPrefix(a, x, c);
    IndexOrEndOfPrefix(b, y, c);
    assert a == (a + x)[..|a|];
    assert b == (b + y)[..|b|];
  }

  // ---------------------------------------------------------------------------
  // lstrip / rstrip / strip
  // ---------------------------------------------------------------------------

  /** Python `s.lstrip(chars)`: the longest prefix drawn from `chars` is removed. */
  function LStrip(s: string, chars: set<char>): (r: string)
    ensures |r| <= |s| && r == s[|s| - |r|..]
    ensures forall i :: 0 <= i < |s| - |r| ==> s[i] in chars
    ensures r == "" || r[0] !in chars
  {
    if |s| > 0 && s[0] in chars then LStrip(s[1..], chars) else s
  }

  /** Nothing is stripped from a string that starts with a kept character. */
  lemma LStripKeeps(s: string, chars: set<char>)
    requires |s| > 0 && s[0] !in chars
    ensures LStrip(s, chars) == s
  {
  }

  /** Python `s.rstrip(chars)`: the longest suffix drawn from `chars` is removed. */
  function RStrip(s: string, chars: set<char>): (r: string)
    ensures |r| <= |s| && r == s[..|r|]
    ensures forall i :: |r| <= i < |s| ==> s[i] in chars
    ensures r == "" || r[|r| - 1] !in chars
  {
    if |s| > 0 && s[|s| - 1] in chars then RStrip(s[..|s| - 1], chars) else s
  }

  /** The characters for which Python's `str.isspace()` holds. */
  const Whitespace: set<char> := {
    ' ', '\t', '\n', '\U{000B}', '\U{000C}', '\r',
    '\U{001C}', '\U{001D}', '\U{001E}', '\U{001F}', '\U{0085}', '\U{00A0}',
    '\U{1680}', '\U{2000}', '\U{2001}', '\U{2002}', '\U{2003}', '\U{2004}',
    '\U{2005}', '\U{2006}', '\U{2007}', '\U{2008}', '\U{2009}', '\U{200A}',
    '\U{2028}', '\U{2029}', '\U{202F}', '\U{205F}', '\U{3000}'
  }

  /** Python `s.strip()` with no argument. */
  function Strip(s: string): string {
    RStrip(LStrip(s, Whitespace), Whitespace)
  }

  /** Nothing is stripped from a string that starts and ends with a
      non-space character. */
  lemma StripKeeps(s: string)
    requires |s| > 0 && s[0] !in Whitespace && s[|s| - 1] !in Whitespace
    ensures Strip(s) == s
  {
    LStripKeeps(s, Whitespace);
  }

  // ---------------------------------------------------------------------------
  // lower / ordering
  // ---------------------------------------------------------------------------

  function LowerChar(c: char): char {
    if 'A' <= c <= 'Z' then (c as int + 32) as char else c
  }

  /** Python `s.lower()`, restricted to the ASCII letters. */
  function Lower(s: string): (r: string)
    ensures |r| == |s|
    ensures forall i :: 0 <= i < |s| ==> r[i] == LowerChar(s[i])
  {
    seq(|s|, i requires 0 <= i < |s| => LowerChar(s[i]))
  }

  /** Python's `a <= b` on strings: lexicographic by code point. */
  predicate LexLe(a: string, b: string)
    decreases |a|
  {
    |a| == 0 || (|b| > 0 && (a[0] < b[0] || (a[0] == b[0] && LexLe(a[1..], b[1..]))))
  }

  lemma {:induction false} LexLeTotal(a: string, b: string)
    ensures LexLe(a, b) || LexLe(b, a)
    decreases |a|
  {
    if |a| > 0 && |b| > 0 && a[0] == b[0] {
      LexLeTotal(a[1..], b[1..]);
    }
  }

  lemma {:induction false} LexLeTransitive(a: string, b: string, c: string)
    requires LexLe(a, b) && LexLe(b, c)
    ensures LexLe(a, c)
    decreases |a|
  {
    if |a| > 0 && a[0] == b[0] && b[0] == c[0] {
      LexLeTransitive(a[1..], b[1..], c[1..]);
    }
  }

  // ---------------------------------------------------------------------------
  // decimal naturals
  // ---------------------------------------------------------------------------

  /** An ASCII decimal digit. */
  predicate IsDigit(c: char) {
    '0' <= c <= '9'
  }

  predicate AllDigits(s: string) {
    forall i :: 0 <= i < |s| ==> IsDigit(s[i])
  }

  function DigitChar(d: nat): (c: char)
    requires d < 10
    ensures IsDigit(c)
  {
    ('0' as int + d) as char
  }

  /** Python `int(s)` on a string of ASCII digits; leading zeros are allowed. */
  function ParseNat(s: string): nat
    requires AllDigits(s)
  {
    if |s| == 0 then 0
    else ParseNat(s[..|s| - 1]) * 10 + (s[|s| - 1] as int - '0' as int)
  }

  /** Python `str(n)` for a natural number: a non-empty run of digits. */
  function ShowNat(n: nat): (r: string)
    ensures |r| >= 1 && AllDigits(r)
  {
    if n < 10 then [DigitChar(n)] else ShowNat(n / 10) + [DigitChar(n % 10)]
  }

  /** `int(str(n)) == n`. */
  lemma {:induction false} ParseShow(n: nat)
    ensures ParseNat(ShowNat(n)) == n
  {
    var r := ShowNat(n);
    if n >= 10 {
      ParseShow(n / 10);
      assert r[..|r| - 1] == ShowNat(n / 10);
    }
  }

  /** Different numbers print differently. */
  lemma ShowNatInjective(a: nat, b: nat)
    requires ShowNat(a) == ShowNat(b)
    ensures a == b
  {
    ParseShow(a);
    ParseShow(b);
  }

  // ---------------------------------------------------------------------------
  // chunk streams
  // ---------------------------------------------------------------------------

  /** The bytes a generator's chunks add up to, in order. */
  function Concat<T>(chunks: seq<seq<T>>): seq<T> {
    if |chunks| == 0 then [] else chunks[0] + Concat(chunks[1..])
  }

  lemma {:induction false} ConcatSnoc<T>(chunks: seq<seq<T>>, c: seq<T>)
    ensures Concat(chunks + [c]) == Concat(chunks) + c
  {
    if |chunks| == 0 {
      assert chunks + [c] == [c];
    } else {
      assert (chunks + [c])[1..] == chunks[1..] + [c];
      ConcatSnoc(chunks[1..], c);
    }
  }
}

=== FILE: upload.dfy ===
/** The `/upload` route: the quota admission for non-administrators, and
    the renaming that keeps an upload from overwriting an existing entry
    (`name(1).ext`, `name(2).ext`, ...). */
module Upload {
  import opened Results
  import opened Strings
  import opened PosixPath
  import opened Confinement

  /** `1024**3`: a quota is stored in whole gibibytes. */
  const GiB := 1073741824

  // ---------------------------------------------------------------------------
  // quota
  // ---------------------------------------------------------------------------

  /** The answer of the quota check: the upload may go ahead, or it is refused
      and the flash message reports `quota - used` as the space left. */
  datatype QuotaVerdict = Admitted | OverQuota(remaining: int)

  /** The quota check. The administrator uploads to the disk and is never
      checked; everyone else is refused exactly when the folder's current
      size plus the upload exceeds the quota. The reported space left is not
      clamped at zero. */
  function QuotaCheck(role: Role, quotaGb: int, used: nat, size: nat): (v: QuotaVerdict)
    ensures role == Administrator ==> v == Admitted
    ensures role != Administrator ==> (v.OverQuota? <==> used + size > quotaGb * GiB)
    ensures v.OverQuota? ==> v.remaining == quotaGb * GiB - used
  {
    if role == Administrator then Admitted
    else
      var quotaBytes := quotaGb * GiB;
      if used + size > quotaBytes then OverQuota(quotaBytes - used) else Admitted
  }

  /** An upload that fills the quota exactly is admitted. */
  lemma ExactFitAdmitted(role: Role, quotaGb: int, used: nat, size: nat)
    requires used + size == quotaGb * GiB
    ensures QuotaCheck(role, quotaGb, used, size) == Admitted
  {
  }

  /** Admission is monotone: a smaller upload into a folder that is no fuller
      is admitted too, and so is any upload under a larger quota. */
  lemma AdmissionMonotone(role: Role, quotaGb: int, used: nat, size: nat,
                          quotaGb': int, used': nat, size': nat)
    requires QuotaCheck(role, quotaGb, used, size) == Admitted
    requires used' <= used && size' <= size && quotaGb <= quotaGb'
    ensures QuotaCheck(role, quotaGb', used', size') == Admitted
  {
    if role != Administrator {
      assert quotaGb * GiB <= quotaGb' * GiB;
    }
  }

  /** A refused upload never fits in the space the message reports. */
  lemma RefusalReportsTooLittle(role: Role, quotaGb: int, used: nat, size: nat)
    requires QuotaCheck(role, quotaGb, used, size).OverQuota?
    ensures QuotaCheck(role, quotaGb, used, size).remaining < size
  {
  }

  /** A folder already past its quota (the quota was lowered) reports a
      negative space left. */
  lemma RemainingCanBeNegative()
    ensures QuotaCheck(Member, 1, GiB + 10, 5) == OverQuota(-10)
  {
  }

  // ---------------------------------------------------------------------------
  // conflict renaming
  // ---------------------------------------------------------------------------

  /** The `i`-th alternative name: `f"{name}({i}){ext}"`. */
  function Candidate(name: string, ext: string, i: nat): string {
    name + "(" + ShowNat(i) + ")" + ext
  }

  /** Different counters give different names. */
  lemma CandidateInjective(name: string, ext: string, i: nat, j: nat)
    requires Candidate(name, ext, i) == Candidate(name, ext, j)
    ensures i == j
  {
    var a := Candidate(name, ext, i);
    var b := Candidate(name, ext, j);
    var si := ShowNat(i);
    var sj := ShowNat(j);
    assert a == (name + "(") + (si + ")" + ext);
    assert b == (name + "(") + (sj + ")" + ext);
    assert a[|name| + 1..] == si + ")" + ext;
    assert b[|name| + 1..] == sj + ")" + ext;
    assert si + ")" + ext == sj + ")" + ext;
    assert |si| == |sj|;
    assert si == (si + ")" + ext)[..|si|];
    assert sj == (sj + ")" + ext)[..|sj|];
    ShowNatInjective(i, j);
  }

  /** The candidates below `i`. */
  function Tried(name: string, ext: string, i: nat): (s: set<string>)
    ensures forall j :: 1 <= j < i ==> Candidate(name, ext, j) in s
  {
    set j | 1 <= j < i :: Candidate(name, ext, j)
  }

  /** `i - 1` different names have been tried before the `i`-th. */
  lemma {:induction false} TriedCount(name: string, ext: string, i: nat)
    requires i >= 1
    ensures |Tried(name, ext, i)| == i - 1
    ensures Candidate(name, ext, i) !in Tried(name, ext, i)
  {
    if Candidate(name, ext, i) in Tried(name, ext, i) {
      var j :| 1 <= j < i && Candidate(name, ext, i) == Candidate(name, ext, j);
      CandidateInjective(name, ext, i, j);
    }
    if i > 1 {
      TriedCount(name, ext, i - 1);
      assert Tried(name, ext, i) == Tried(name, ext, i - 1) + {Candidate(name, ext, i - 1)};
    } else {
      assert Tried(name, ext, i) == {};
    }
  }

  /** While the `i`-th candidate is taken, the `i` names tried so far are all
      taken, so there are at least `i` taken names. */
  lemma TriedGrows(name: string, ext: string, i: nat, taken: set<string>)
    requires i >= 1 && Tried(name, ext, i) <= taken && Candidate(name, ext, i) in taken
    ensures Tried(name, ext, i + 1) <= taken && i <= |taken|
  {
    TriedCount(name, ext, i + 1);
    var t := Tried(name, ext, i + 1);
    assert t <= taken by {
      assert t == Tried(name, ext, i) + {Candidate(name, ext, i)};
    }
    SubsetCard(t, taken);
  }

  /** A subset is no larger than its superset. */
  lemma {:induction false} SubsetCard<T>(a: set<T>, b: set<T>)
    requires a <= b
    ensures |a| <= |b|
  {
    assert b == a + (b - a);
    assert a * (b - a) == {};
  }

  /** The name an upload is saved under, given the names already present in
      the target directory. A free name is kept (`index` 0); otherwise the
      name is split at its extension and the first free `name(i)ext` with
      `i >= 1` is chosen. The result never collides with an existing entry. */
  method ResolveName(filename: string, taken: set<string>) returns (saved: string, index: nat)
    ensures saved !in taken
    ensures filename !in taken ==> saved == filename && index == 0
    ensures filename in taken ==>
      var (name, ext) := Splitext(filename);
      && index >= 1
      && saved == Candidate(name, ext, index)
      && forall j :: 1 <= j < index ==> Candidate(name, ext, j) in taken
  {
    if filename !in taken {
      return filename, 0;
    }
    var (name, ext) := Splitext(filename);
    var i: nat := 1;
    while Candidate(name, ext, i) in taken
      invariant i >= 1
      invariant Tried(name, ext, i) <= taken
      decreases |taken| - i
    {
      TriedGrows(name, ext, i, taken);
      i := i + 1;
    }
    return Candidate(name, ext, i), i;
  }

  /** `saved` is where the conflict loop settles for `filename`: the name
      itself when it is free, otherwise the first numbered copy that is. */
  ghost predicate FirstFree(filename: string, taken: set<string>, saved: string) {
    && saved !in taken
    && (filename !in taken ==> saved == filename)
    && (filename in taken ==>
          var (name, ext) := Splitext(filename);
          exists i: nat :: i >= 1 && saved == Candidate(name, ext, i)
            && forall j :: 1 <= j < i ==> Candidate(name, ext, j) in taken)
  }

  /** A renamed copy keeps the extension of the original: splitting
      `name(i)ext` again gives `name(i)` and the same `ext` (`report.pdf`
      becomes `report(1).pdf`, `report(2).pdf`, ...). */
  lemma CopyKeepsExtension(filename: string, i: nat)
    ensures var (name, ext) := Splitext(filename);
      ext != "" ==> Splitext(Candidate(name, ext, i)) == (name + "(" + ShowNat(i) + ")", ext)
  {
    var (name, ext) := Splitext(filename);
    if ext != "" {
      var stem := name + "(" + ShowNat(i) + ")";
      var last := |stem| - 1;
      assert stem[last] == ')';
      assert LastIndexOf(stem, '/') < last;
      SplitextOf(stem, ext);
    }
  }

  // ---------------------------------------------------------------------------
  // the route
  // ---------------------------------------------------------------------------

  /** The uploaded part: the client's file name and the size found by seeking
      to its end. */
  datatype UploadedFile = UploadedFile(filename: string, size: nat)

  /** Where the route ends. `Saved` carries the directory and the name the
      file is written to; `SaveFailed` is `file.save` raising because the
      target directory does not exist, which the server answers with 500. */
  datatype UploadOutcome =
    | LoginRequired
    | VisitorRefused
    | NoFilePart
    | NoFileChosen
    | QuotaExceeded(remaining: int)
    | InvalidPath
    | SaveFailed
    | Saved(dir: string, name: string)

  /** `upload_file`, in the order its checks run. `secure` stands for
      werkzeug's `secure_filename`, `quotaGb` for the member's stored quota,
      `used` for the size of the member's folder, and `taken` for the names
      `n` for which `os.path.exists(os.path.join(current_path, n))` holds:
      the entries of the target directory and, when that directory exists,
      the empty name. `folderIsDir` says whether that directory exists as a
      folder, which `file.save` needs. */
  method UploadFile(session: Option<Principal>, cfg: Config, cwd: string, file: Option<UploadedFile>,
                    subpath: string, secure: string -> string, quotaGb: int, used: nat,
                    taken: set<string>, folderIsDir: bool) returns (outcome: UploadOutcome)
    requires IsAbs(cwd)
    ensures session.None? <==> outcome == LoginRequired
    ensures session.Some? && session.value.role == Visitor <==> outcome == VisitorRefused
    ensures outcome == NoFilePart <==> session.Some? && session.value.role != Visitor && file.None?
    ensures outcome == NoFileChosen <==>
      session.Some? && session.value.role != Visitor && file.Some? && file.value.filename == ""
    ensures outcome.QuotaExceeded? ==>
      && session.Some? && session.value.role != Administrator
      && used + file.value.size > quotaGb * GiB
      && outcome.remaining == quotaGb * GiB - used
    ensures outcome.InvalidPath? ==> false
    ensures outcome.Saved? ==>
      && session.Some? && file.Some? && file.value.filename != ""
      && QuotaCheck(session.value.role, quotaGb, used, file.value.size) == Admitted
      && outcome.dir == JoinPath(WriteRoot(session.value, cfg), Sanitize(subpath))
      && Abspath(cwd, outcome.dir) == Extend(Abspath(cwd, WriteRoot(session.value, cfg)), Sanitize(subpath))
      && FirstFree(secure(file.value.filename), taken, outcome.name)
      && folderIsDir
    ensures (session.Some? && session.value.role != Visitor && file.Some? && file.value.filename != ""
      && QuotaCheck(session.value.role, quotaGb, used, file.value.size).OverQuota?) ==>
      outcome == QuotaExceeded(QuotaCheck(session.value.role, quotaGb, used, file.value.size).remaining)
    ensures (session.Some? && session.value.role != Visitor && file.Some? && file.value.filename != ""
      && QuotaCheck(session.value.role, quotaGb, used, file.value.size) == Admitted) ==>
      (outcome.Saved? <==> folderIsDir) && (outcome == SaveFailed <==> !folderIsDir)
  {
    if session.None? {
      return LoginRequired;
    }
    var who := session.value;
    if who.role == Visitor {
      return VisitorRefused;
    }
    if file.None? {
      return NoFilePart;
    }
    var f := file.value;
    if f.filename == "" {
      return NoFileChosen;
    }
    var filename := secure(f.filename);
    var base := WriteRoot(who, cfg);
    var verdict := QuotaCheck(who.role, quotaGb, used, f.size);
    if verdict.OverQuota? {
      return QuotaExceeded(verdict.remaining);
    }
    var target := Confine(cwd, base, subpath);
    if target.None? {
      assert false;
      return InvalidPath;
    }
    var name, index := ResolveName(filename, taken);
    if !folderIsDir {
      return SaveFailed;
    }
    assert FirstFree(filename, taken, name) by {
      if filename in taken {
        var (stem, ext) := Splitext(filename);
        assert name == Candidate(stem, ext, index);
      }
    }
    return Saved(target.value, name);
  }
}
